=== FILE: README.md ===
# vibe-world tile logic in Dafny

vibe-world draws OpenStreetMap raster tiles on the ground plane of a 3D
scene. It holds two tile pipelines. This project models the bookkeeping of
both and proves what each step promises.

- **The `tile_system` module.** It is not declared in `src/main.rs`, so it is
  dead code, but it is complete enough to model. It contains:
  - tile addressing (`TileId`) with children and wrap-around neighbours;
  - the per-tile load state machine;
  - the recursive visibility quadtree;
  - the priority scheduler;
  - the FIFO download queue;
  - the bounded-concurrency loader;
  - the in-memory byte cache.
- **The wired-in pipeline** (`systems/tiles.rs`, `osm/tile.rs`,
  `resources/constants.rs`). It contains:
  - which tiles around the camera are requested, and how many;
  - de-duplication against loaded and pending tiles;
  - persistent islands, which are zoom-17 tiles that stay loaded and are drawn
    darkened;
  - idle-timeout eviction;
  - what survives a zoom change;
  - the URL and cache path of a tile.

The model is functional. Each component is an immutable datatype with
transition functions, or with a method where the source loops. Their
contracts state the invariants the component keeps.

Collaborators the model cannot see are parameters:
- the view test (`TileBounds::intersects_with_view`), which is a predicate on
  tile ids;
- image decoding (`image::load_from_memory`), which is a predicate on bytes;
- the clock, which is a value;
- the completion of spawned download tasks, which is a map from tile to
  result;
- the outcome of an HTTP exchange, which is a datatype;
- the camera distance and frustum test of `process_tiles`, which is a
  predicate on tile coordinates.

Rust integer widths are subset types (`U8`, `U32`, `I32`). `f32` values are
`real`. Preconditions are of three kinds:
- where the Rust code would panic: a shift by the full width, or an
  overflowing add or multiply in a debug build;
- the model's own invariants (`Valid`, `WellFormed`), which its constructors
  establish and its transitions keep, or the state an internal caller has just
  produced (`QuadView.UpdateNodeVisibility` runs on a tree whose visibility
  `update` has just cleared);
- guarantees about inputs that the source relies on without checking them at
  the point of use. Each of these is listed under "## Left out" with the place
  that provides it, or the reason it is assumed.

Modules and files:

| file | module | source |
|---|---|---|
| numeric.dfy | `Numeric`, `Wrappers`, `Seqs` | integer widths, powers of two, `Option`/`Result`, sequence helpers |
| decimal.dfy | `Decimal` | decimal rendering of `u32` as in `format!("{}")` |
| constants.dfy | `Constants` | `src/resources/constants.rs` |
| tile_id.dfy | `TileIds` | `TileId`, `TileError` in `src/tile_system/types.rs` |
| tile_state.dfy | `TileStates` | `TileState`, `Tile` in `src/tile_system/types.rs` |
| quadtree_node.dfy | `QuadNodes` | `QuadTreeNode`, paths, insert in `src/tile_system/quadtree.rs` |
| quadtree_view.dfy | `QuadView` | `TileQuadtree` visibility, collection, base zoom |
| scheduler.dfy | `Scheduler` | `src/tile_system/scheduler.rs` |
| downloader.dfy | `Downloader` | `src/tile_system/downloader.rs` |
| loader.dfy | `Loader` | `src/tile_system/loader.rs` |
| cache.dfy | `Cache` | `src/tile_system/cache.rs` |
| osm_tile.dfy | `OsmTiles` | `src/osm/tile.rs` |
| tile_requests.dfy | `TileRequests` | candidate and request rules of `src/systems/tiles.rs` |
| islands.dfy | `Islands` | persistent-island rules of `src/systems/tiles.rs` |
| tile_lifetime.dfy | `TileLifetime` | cleanup and zoom-change retention of `src/systems/tiles.rs` |

## Model

| member | source | states |
|---|---|---|
| Constants.MaxTileIndex | src/resources/constants.rs:10-12 | `max_tile_index(z) + 1 == 2^z`, for shifts below the `u32` width |
| Constants.MaxTileIndexConstant | src/resources/constants.rs:15 | `MAX_TILE_INDEX` is `max_tile_index(MAX_ZOOM_LEVEL)`, which is `2^19 - 1` |
| Constants.ZoomLevelsOrdered | src/resources/constants.rs:4-7 | minimum ≤ default ≤ island ≤ maximum zoom |
| Constants.GroningenIsValid | src/resources/constants.rs:19-20 | the Groningen start tile lies in the grid at the default zoom |
| Decimal.NatToStringRoundTrip | src/osm/tile.rs:26-29 | reading back the decimal digits of a number gives the number |
| Decimal.NatToStringInjective | src/osm/tile.rs:26-29 | two numbers render to the same digits exactly when they are equal |
| Decimal.SegmentsInjective | src/osm/tile.rs:26-29 | `{a}/{b}/{c}` determines `a`, `b` and `c`, because digits contain no `/` |
| TileIds.Children | src/tile_system/types.rs:72-83 | four tiles one zoom deeper, each halving back to the parent, in quadrant order (2x,2y), (2x+1,2y), (2x,2y+1), (2x+1,2y+1) |
| TileIds.ChildrenAreTheSubcells | src/tile_system/types.rs:72-83 | a tile is a child exactly when the parent is its strict ancestor one level up, and it sits at its quadrant's index |
| TileIds.ChildrenDistinct | src/tile_system/types.rs:72-83 | the four children are pairwise different |
| TileIds.ChildrenValid | src/tile_system/types.rs:72-83 | children of an in-grid tile are in the grid |
| TileIds.AdjacentTiles | src/tile_system/types.rs:86-113 | at most 8 neighbours, all at the same zoom and inside the grid |
| TileIds.AdjacentTilesExactly | src/tile_system/types.rs:86-113 | a tile is listed exactly when it is reached by a non-zero offset whose y stays in the grid, with x wrapped modulo `2^zoom` |
| TileIds.AdjacentInteriorRow | src/tile_system/types.rs:90-110 | off the top and bottom rows, all eight offsets are kept in loop order |
| TileIds.AdjacentEdgeRow | src/tile_system/types.rs:90-110 | on the top or bottom row (zoom ≥ 1) exactly five neighbours remain |
| TileIds.AdjacentAtZoomZero | src/tile_system/types.rs:90-110 | at zoom 0 the wrap makes the single tile its own neighbour, twice |
| TileIds.AdjacentInteriorDistinct | src/tile_system/types.rs:90-110 | from zoom 2, an interior tile's neighbours are distinct and exclude the tile |
| TileStates.NewTile | src/tile_system/types.rs:276-284 | a new tile is `NotLoaded`, childless, never visible, with texture size 0 |
| TileStates.WithChildren | src/tile_system/types.rs:287-291 | a fresh tile whose four children are fresh tiles (`NotLoaded`, never seen, no texture, no children) with the ids of `children()`, in order |
| TileStates.CreateChildren | src/tile_system/types.rs:294-306 | an existing child array is kept; otherwise the four children are fresh tiles for `children()` |
| TileStates.CreateChildrenIdempotent | src/tile_system/types.rs:294-306 | creating children twice equals creating them once |
| TileStates.SaturatingU32 | src/tile_system/types.rs:309-315 | `current_time as u32`: truncation toward zero, saturating at 0 and `u32::MAX` |
| TileStates.SetLoaded | src/tile_system/types.rs:309-315 | any state becomes `Loaded` with the entity and the truncated time; the texture size is set and nothing else changes |
| TileStates.SetLoading | src/tile_system/types.rs:318-324 | `Loaded` is kept; every other state becomes `Loading` |
| TileStates.SetFailed | src/tile_system/types.rs:327-333 | `Loaded` is kept; every other state becomes `Failed` |
| TileStates.UpdateVisibility | src/tile_system/types.rs:352-354 | the last-visible time becomes the given time; id, load state, texture size and children are untouched |
| TileStates.UpdateVisibilityLastWins | src/tile_system/types.rs:352-354 | of two updates only the later time is kept |
| TileStates.VisibilityCommutes | src/tile_system/types.rs:352-354 | visibility updates commute with every run of load-state events, so the two kinds of bookkeeping never interfere |
| TileStates.LoadedIsAbsorbing | src/tile_system/types.rs:309-333 | after `Loaded`, no sequence of events leaves `Loaded`, and without a new load nothing changes |
| TileStates.FailedCanRecover | src/tile_system/types.rs:318-333 | a failed tile can be loading and then loaded again |
| QuadNodes.NewNode | src/tile_system/quadtree.rs:27-34 | a new node is invisible, unloaded and childless |
| QuadNodes.Subdivide | src/tile_system/quadtree.rs:37-52 | a no-op when children exist; otherwise four fresh nodes with the ids of `children()` in order, flags unchanged |
| QuadNodes.Merge | src/tile_system/quadtree.rs:55-57 | all descendants are dropped and the node's own flags stay |
| QuadNodes.SubdivideKeepsMarks | src/tile_system/quadtree.rs:37-52 | subdividing keeps the tree well formed and the visible and loaded sets unchanged |
| QuadNodes.PathToTile | src/tile_system/quadtree.rs:383-401 | one quadrant index in 0..3 per zoom level |
| QuadNodes.PathEntry | src/tile_system/quadtree.rs:383-401 | entry `k` is the quadrant `(qy<<1)\|qx` of the ancestor at zoom `k+1` |
| QuadNodes.PathReachesTile | src/tile_system/quadtree.rs:383-401 | walking the path from the root through the child order reaches the tile |
| QuadNodes.PathInjective | src/tile_system/quadtree.rs:383-401 | distinct in-grid tiles have distinct paths |
| QuadNodes.InsertTile | src/tile_system/quadtree.rs:335-356 | afterwards the tile's node exists and is loaded, no other loaded flag changes, and visibility is untouched |
| QuadNodes.InsertFailedTile | src/tile_system/quadtree.rs:359-380 | builds the same path but changes no loaded flag |
| QuadNodes.UpdateLoadedState | src/tile_system/quadtree.rs:299-314 | each node is loaded exactly when its id is in the set; shape and visibility are unchanged |
| QuadNodes.ResetVisibility | src/tile_system/quadtree.rs:162-170 | every node becomes invisible; ids and loaded flags stay |
| QuadView.DefaultQuadtree | src/tile_system/quadtree.rs:118-126 | root (0,0,0), max zoom 18, current zoom 0 |
| QuadView.NewQuadtree | src/tile_system/quadtree.rs:130-135 | the default tree with the given max zoom |
| QuadView.ClampZoom | src/tile_system/quadtree.rs:138 | `zoom.clamp(0, max_zoom)` |
| QuadView.TargetZoom | src/tile_system/quadtree.rs:175 | the whole-number zoom the tree is settled for: the largest integer not above the current zoom |
| QuadView.UpdateNodeVisibility | src/tile_system/quadtree.rs:190-241 | the result is settled: visible nodes intersect the view, every visible node has a visible parent, and nodes at or past the target zoom have no visible descendants |
| QuadView.Update | src/tile_system/quadtree.rs:138-152 | the zoom is clamped, the target zoom (its floor) is at most max zoom, and the whole tree is settled for that target |
| QuadView.SettledZoomBound | src/tile_system/quadtree.rs:190-241 | in a settled tree no visible node is deeper than the target zoom |
| QuadView.CollectVisible | src/tile_system/quadtree.rs:251-278 | only visible nodes are collected, and something is collected exactly when the node is visible |
| QuadView.CollectAntichain | src/tile_system/quadtree.rs:251-278 | no collected tile is an ancestor of another collected tile |
| QuadView.GetVisibleTiles | src/tile_system/quadtree.rs:244-248 | only visible tiles, something exactly when the root is visible, and on a valid tree no tile together with one of its ancestors |
| QuadView.GetTilesToLoad | src/tile_system/quadtree.rs:281-296 | the visible tiles plus exactly their adjacent tiles |
| QuadView.ShouldLoadTile | src/tile_system/quadtree.rs:327-332 | holds exactly when the zoom is at most the max zoom |
| QuadView.VisibleTilesShouldLoad | src/tile_system/quadtree.rs:327-332 | every visible tile after `update` passes `should_load_tile` |
| QuadView.BaseZoomLevel | src/tile_system/quadtree.rs:442-464 | a level in [1,19]: 19 exactly when height ≤ 1, and 1 exactly when height > 128000 |
| QuadView.BaseZoomAntitone | src/tile_system/quadtree.rs:442-464 | a higher camera never gets a higher level |
| Scheduler.DefaultScheduler | src/tile_system/scheduler.rs:57-66 | empty queue and active map, timeout 10 |
| Scheduler.QueueRequest | src/tile_system/scheduler.rs:70-102 | an active id is ignored; a fresh id is appended with the given priority and time; the scheduler invariant is kept |
| Scheduler.RequeueKeepsOneEntry | src/tile_system/scheduler.rs:77-93 | re-queueing keeps one entry per id with the larger priority and the original request time |
| Scheduler.QueueTwiceMaxWins | src/tile_system/scheduler.rs:77-101 | queueing an id twice leaves one request with the maximum of both priorities and the first time |
| Scheduler.Live | src/tile_system/scheduler.rs:110-120 | exactly the downloads not older than the timeout survive, with their start times |
| Scheduler.BestIndex | src/tile_system/scheduler.rs:26-33 | the request the heap pops precedes every other request in the heap's order |
| Scheduler.AsWrittenStartsLowestFirst | src/tile_system/scheduler.rs:26-33 | with the comparison as written, priority 1.0 starts before 10.0 |
| Scheduler.IntendedStartsHighestFirst | src/tile_system/scheduler.rs:26-33 | with the intended comparison the highest priority starts first |
| Scheduler.GetNextBatch | src/tile_system/scheduler.rs:105-143 | after timeouts, `min(6 - live, queued)` requests are popped in heap order and become active at `now`; the rest of the queue is kept and at most 6 downloads run |
| Scheduler.MarkCompleted | src/tile_system/scheduler.rs:146-148 | only that id leaves the active map |
| Scheduler.MarkCompletedIdempotent | src/tile_system/scheduler.rs:146-148 | completing twice equals completing once |
| Scheduler.IdealZoom | src/tile_system/scheduler.rs:174-206 | a zoom in [8,18]: 18 exactly below height 10, and 8 exactly from height 10000 |
| Scheduler.IdealZoomAntitone | src/tile_system/scheduler.rs:174-206 | a higher camera never gets a higher zoom |
| Downloader.NewQueue | src/tile_system/downloader.rs:41-56 | a new queue is empty and valid |
| Downloader.Enqueue | src/tile_system/downloader.rs:58-63 | an id already queued or downloading is ignored; any other is appended; the three collections stay consistent |
| Downloader.GetNextBatch | src/tile_system/downloader.rs:66-78 | the first `min(64, queued)` ids, in FIFO order, move from queued to downloading |
| Downloader.BatchKeepsValid | src/tile_system/downloader.rs:66-78 | moving a queue prefix to downloading keeps the queue consistent |
| Downloader.MarkCompleted | src/tile_system/downloader.rs:81-83 | only that id leaves the downloading set |
| Downloader.MarkCompletedIdempotent | src/tile_system/downloader.rs:81-83 | completing twice equals completing once |
| Downloader.CountsAgree | src/tile_system/downloader.rs:86-98 | on a consistent queue, empty means both counts are 0, and the queued count is the queue length |
| Downloader.IsEmpty | src/tile_system/downloader.rs:86-88 | nothing waits in the queue and nothing is downloading (no contract of its own; `CountsAgree` ties it to the counts) |
| Downloader.QueuedCount | src/tile_system/downloader.rs:91-93 | the size of the queued set (no contract of its own; `CountsAgree` shows it is the queue length) |
| Downloader.DownloadingCount | src/tile_system/downloader.rs:96-98 | the size of the downloading set (no contract of its own; `CountsAgree` relates it to `is_empty`) |
| Downloader.Clear | src/tile_system/downloader.rs:101-105 | all three collections are emptied |
| Downloader.QueueTileForDownload | src/tile_system/downloader.rs:210-228 | cached tiles and tiles past the max zoom are skipped; others are queued |
| Downloader.QueuedUnlessSkipped | src/tile_system/downloader.rs:210-228 | a tile that is not skipped ends up queued or downloading |
| Downloader.HandleEvent | src/tile_system/downloader.rs:178-205 | bytes the image check accepts are cached and give `Ok`; rejected bytes give `CacheError`; a download error is passed on; nothing leaves the cache |
| Downloader.ProcessDownloadResults | src/tile_system/downloader.rs:166-207 | one result per event in order: accepted bytes are `Ok` and cached, rejected bytes are `CacheError`, download errors are forwarded; every event's id stops downloading |
| Downloader.BuildTileUrlInjective | src/tile_system/downloader.rs:284-287 | distinct tiles get distinct `https://tile.openstreetmap.org/{z}/{x}/{y}.png` URLs |
| Downloader.BuildTileUrl | src/tile_system/downloader.rs:284-287 | the address `OSMTile::get_url` gives with its `a.` host prefix removed |
| Downloader.DummyTileData | src/tile_system/downloader.rs:290-299 | 12 bytes: the zoom, `x` and `y` truncated to `u8`, then `TILE_DATA` |
| Downloader.DummyTileDataIdentifies | src/tile_system/downloader.rs:290-299 | two tiles get the same dummy bytes exactly when zoom, `x mod 256` and `y mod 256` agree |
| Loader.NewLoader | src/tile_system/loader.rs:37-47 | nothing pending, default server URL |
| Loader.PendingMeansQueuedOrActive | src/tile_system/loader.rs:155-157 | on a consistent loader, pending means waiting or running |
| Loader.IsPending | src/tile_system/loader.rs:155-157 | the id is in the pending set (no contract of its own; `PendingMeansQueuedOrActive` says what that set holds) |
| Loader.QueueTile | src/tile_system/loader.rs:56-65 | a pending id is ignored; any other is appended and becomes pending; consistency is kept |
| Loader.QueueTiles | src/tile_system/loader.rs:68-72 | every given id becomes pending, the queue only grows at the back, and consistency is kept |
| Loader.RequestUrlInjective | src/tile_system/loader.rs:79-84 | on one server, distinct tiles are fetched from distinct URLs |
| Loader.RequestUrl | src/tile_system/loader.rs:79-84 | with the default server, the URL a download fetches is the one `build_tile_url` gives |
| Loader.StartDownloads | src/tile_system/loader.rs:75-108 | a prefix of the queue starts in FIFO order with its URL; pending is unchanged; at most 8 run, and either 8 run or the queue is empty |
| Loader.ClassifyResponse | src/tile_system/loader.rs:88-102 | 2xx with a body gives the bytes, 404 gives `NotFound`, anything else gives `DownloadFailed` |
| Loader.ProcessCompleted | src/tile_system/loader.rs:111-130 | exactly the finished running downloads are returned and removed from active and pending |
| Loader.UnfinishedUntouched | src/tile_system/loader.rs:111-130 | an unfinished download stays running and pending |
| Loader.ClearQueue | src/tile_system/loader.rs:148-152 | the queue empties and only its ids stop being pending; running downloads stay pending |
| Cache.NewCache | src/tile_system/cache.rs:44-54 | an empty, consistent cache |
| Cache.Get | src/tile_system/cache.rs:81-83 | bytes exactly for cached ids |
| Cache.Contains | src/tile_system/cache.rs:86-88 | the id has cached bytes (no contract of its own; `Get`'s contract ties it to `get`) |
| Cache.IsLoading | src/tile_system/cache.rs:125-127 | the id has a loading mark (no contract of its own; `MarkDownloading`, `Insert` and `Clear` state how the mark changes) |
| Cache.Len | src/tile_system/cache.rs:104-106 | zero exactly when no id is cached |
| Cache.IsEmptyIffNoTiles | src/tile_system/cache.rs:109-111 | `is_empty` exactly when `len` is 0 |
| Cache.IsEmpty | src/tile_system/cache.rs:109-111 | no tile is cached (no contract of its own; `IsEmptyIffNoTiles` ties it to `len`) |
| Cache.LenCounts | src/tile_system/cache.rs:104-106 | `len` is the number of distinct cached ids |
| Cache.InsertLen | src/tile_system/cache.rs:57-78 | a successful insert raises `len` by one for a new id and keeps it for a cached one |
| Cache.RemoveLen | src/tile_system/cache.rs:91-94 | removing a cached id lowers `len` by one; removing any other id keeps it |
| Cache.Insert | src/tile_system/cache.rs:57-78 | undecodable bytes give `LoadError` and no change; otherwise the bytes are stored and stamped, loading ends, and other ids are untouched |
| Cache.InsertGetRoundTrip | src/tile_system/cache.rs:57-88 | after a successful insert, `get` returns the same bytes, `contains` holds and the id is not loading |
| Cache.InsertKeepsOthers | src/tile_system/cache.rs:57-78 | inserting one id does not change what another id reads |
| Cache.Remove | src/tile_system/cache.rs:91-94 | the previous bytes are returned and the id leaves both maps |
| Cache.RemoveIdempotent | src/tile_system/cache.rs:91-94 | a second removal changes nothing and returns `None` |
| Cache.InsertRemoveRoundTrip | src/tile_system/cache.rs:57-94 | removing right after inserting returns the inserted bytes |
| Cache.UpdateAccessTime | src/tile_system/cache.rs:97-101 | only a cached id is restamped; nothing is added |
| Cache.Clear | src/tile_system/cache.rs:114-117 | tiles and access times are emptied; loading marks stay |
| Cache.MarkDownloading | src/tile_system/cache.rs:120-122 | the id is loading and no other id changes |
| Cache.MarkLoading | src/tile_system/cache.rs:206-208 | the id is loading afterwards, no other id changes its loading flag, no stored bytes change, and the effect is that of `mark_downloading` |
| Cache.MarkThenInsertEndsLoading | src/tile_system/cache.rs:120-127 | marking then inserting valid bytes ends the load and stores the bytes |
| OsmTiles.NewOsmTile | src/osm/tile.rs:17-19 | the tile with exactly the given coordinates |
| OsmTiles.Url | src/osm/tile.rs:21-43 | the server prefix followed by the tile's path inside the cache directory, so URL and cache file name the same `{z}/{x}/{y}.png` |
| OsmTiles.CachePath | src/osm/tile.rs:33-43 | `tile_cache`, then the same `{z}/{x}/{y}` segments the URL uses, then `.png` |
| OsmTiles.UrlInjective | src/osm/tile.rs:21-30 | two tiles share a `https://a.tile.openstreetmap.org/{z}/{x}/{y}.png` URL exactly when they are equal |
| OsmTiles.CachePathInjective | src/osm/tile.rs:33-43 | two tiles share a `tile_cache/{z}/{x}/{y}.png` path exactly when they are equal |
| OsmTiles.Clone | src/osm/tile.rs:46-54 | a tile with the same three coordinates |
| OsmTiles.CloneSameAddress | src/osm/tile.rs:46-54 | a clone has the same URL and cache path |
| TileRequests.VisibleRange | src/systems/tiles.rs:25-30 | 2 from zoom 18, 5 below zoom 14, always between 2 and 5 |
| TileRequests.VisibleRangeAntitone | src/systems/tiles.rs:25-30 | zooming in never widens the range |
| TileRequests.MaxConcurrentLoads | src/systems/tiles.rs:263-267 | 4 from zoom 17, 8 below zoom 15, otherwise 6 |
| TileRequests.MaxConcurrentLoadsAntitone | src/systems/tiles.rs:263-267 | zooming in never raises the budget |
| TileRequests.ClampedCoord | src/systems/tiles.rs:209-211 | the candidate coordinate is the centre plus the offset, clamped into `[0, max_tile_index(zoom)]` |
| TileRequests.AdjustedDistance | src/systems/tiles.rs:243-251 | the Manhattan distance, halved with rounding down for island tiles |
| TileRequests.Offsets | src/systems/tiles.rs:207-208 | exactly the offsets within the visible range on both axes |
| TileRequests.CandidatesFrom | src/systems/tiles.rs:207-256 | every candidate is an offset clamped into the grid, in view, carrying that offset's adjusted distance; every in-view clamped offset gives such a candidate |
| TileRequests.Candidates | src/systems/tiles.rs:207-256 | every candidate is an in-view tile at some offset within the visible range, clamped into the grid, with that offset's adjusted distance; every offset within the range whose clamped tile is in view yields one |
| TileRequests.CentreIsCandidate | src/systems/tiles.rs:207-256 | the centre tile is a candidate whenever it is in view |
| TileRequests.SortByDistance | src/systems/tiles.rs:259 | the same candidates, in ascending distance |
| TileRequests.RequestIfAbsent | src/systems/tiles.rs:282-286 | a tile is requested exactly when it is neither loaded nor pending, and it is then recorded as loaded |
| TileRequests.RequestIfAbsentTwice | src/systems/tiles.rs:282-286 | a second ask for the same tile requests nothing |
| TileRequests.Preload | src/systems/tiles.rs:782-786 | the next-zoom centre tile is requested under the same rule and ends up loaded or pending |
| TileRequests.Select | src/systems/tiles.rs:269-287 | at most the budget, distinct, fresh, from the candidates at the current zoom, recorded as loaded; under budget, every candidate ends loaded or pending |
| TileRequests.RegularRequests | src/systems/tiles.rs:207-287 | one call requests at most `max_concurrent_loads` distinct, fresh, in-grid tiles at the current zoom, and when it stops short of that budget every candidate has ended loaded or pending |
| TileRequests.SelectHandlesPrefix | src/systems/tiles.rs:269-287 | the loop works through a prefix of the candidates: every candidate in it ends loaded or pending, and every request comes from it |
| TileRequests.SelectNeverSkipsAhead | src/systems/tiles.rs:269-287 | while a candidate is left neither loaded nor pending, every request is the key of a candidate earlier in the list |
| TileRequests.StopsOnlyOnBudget | src/systems/tiles.rs:269-287 | the loop stops before the last candidate only once it has made as many requests as the budget allows |
| TileRequests.RegularRequestsNearestFirst | src/systems/tiles.rs:243-287 | every requested tile is the tile of a candidate no farther than any candidate left neither loaded nor pending |
| Islands.CorrespondsIsAncestry | src/systems/tiles.rs:357-383 | below zoom 17 the tile is the island's ancestor; above 17 it is a descendant |
| Islands.NeedsIslandVisualsIff | src/systems/tiles.rs:353-386 | an arriving tile gets island visuals exactly when it corresponds to an island at its zoom |
| Islands.Representative | src/systems/tiles.rs:70-97 | the island's tile at the current zoom (`>>` below 17, the block start `<<` above) corresponds to it |
| Islands.Cover | src/systems/tiles.rs:160-196 | the tiles marked for one island are exactly those that correspond to it |
| Islands.MarkedTiles | src/systems/tiles.rs:160-196 | a tile is marked exactly when it corresponds to some listed tile |
| Islands.IslandRequests | src/systems/tiles.rs:111-121 | each listed tile is requested at zoom 17 unless already loaded or pending; requests are distinct and fresh |
| Islands.IslandsToCheckAsWritten | src/systems/tiles.rs:68-106 | the list built as written holds current-zoom coordinates below `2^19`, each corresponding to an island; it holds the representative of every near island and, above zoom 17, every tile of every island's block |
| Islands.AsWrittenMisplacesIsland | src/systems/tiles.rs:68-196 | for the Groningen island at zoom 13, as written: a non-island zoom-17 tile is requested, a tile with no island is marked, and the island's own tile is not |
| Islands.IslandsToCheck | src/systems/tiles.rs:68-106 | an island is listed exactly when its representative is within three visible ranges of the centre |
| Islands.ProcessIslands | src/systems/tiles.rs:68-196 | every zoom-17 request is an exact island, fresh, and recorded as loaded; every island near the centre has its zoom-17 tile loaded or pending afterwards |
| Islands.IntendedMarksIslandTiles | src/systems/tiles.rs:68-196 | a tile is marked exactly when it corresponds to a near island, and every marked tile gets island visuals on arrival |
| Islands.IntendedPlacesIsland | src/systems/tiles.rs:68-196 | for the Groningen island at zoom 13, the intended version requests the island and marks (4216, 2668) |
| TileLifetime.ShouldDespawn | src/systems/tiles.rs:655-700 | an island tile is never despawned; any other tile is despawned exactly when idle for more than 30 seconds |
| TileLifetime.ShouldDespawnMonotone | src/systems/tiles.rs:655-700 | a tile that is despawnable stays despawnable later |
| TileLifetime.Cleanup | src/systems/tiles.rs:674-721 | the sweep keeps exactly the tiles not due and despawns exactly the entities of the due ones |
| TileLifetime.CleanupKeepsIslands | src/systems/tiles.rs:674-721 | an island tile survives every sweep |
| TileLifetime.Rescale | src/systems/tiles.rs:838-850 | carrying a coordinate out gives the block holding it; carrying it in gives a coordinate that divides back to it with no remainder |
| TileLifetime.RescaleFits | src/systems/tiles.rs:838-850 | the rescaled coordinate stays below `2^28`, so the `i32` multiplication never overflows, and a coordinate in the grid of the old zoom lands in the grid of the new one |
| TileLifetime.FarIffNotKept | src/systems/tiles.rs:836-890 | the removal test on spawned tiles is the exact negation of the `retain` test |
| TileLifetime.KeepFinerByAncestor | src/systems/tiles.rs:868-890 | a finer entry is kept exactly when its ancestor at the new zoom is within 15 of the centre on both axes |
| TileLifetime.KeepCoarserByDescendant | src/systems/tiles.rs:868-890 | a coarser entry is kept exactly when its first descendant at the new zoom is within 15 of the centre on both axes |
| TileLifetime.RetainLoaded | src/systems/tiles.rs:868-890 | exactly the kept entries survive, and every entry at the new zoom is kept |
| TileLifetime.RemoveFar | src/systems/tiles.rs:833-864 | spawned tiles far from the new centre are despawned, and all others stay |
| TileLifetime.ChangeZoom | src/systems/tiles.rs:818-891 | the same zoom changes nothing; on a new zoom exactly the requested entries within 15 tiles (or at the new zoom) stay, exactly the spawned tiles that are not far stay, and exactly the far tiles' entities are despawned |
| TileLifetime.ChangeZoomConsistent | src/systems/tiles.rs:833-890 | after a zoom change, a spawned tile whose coordinates are requested survives exactly when its coordinates stay in the requested list |
| TileLifetime.AsWrittenIslandRequestsStorable | src/systems/tiles.rs:68-121 | the island step as written only adds entries the zoom change can rescale: zoom 17 with coordinates below `2^19` |

## Left out

- The `tile_system` systems and plugins (ECS queries, events, `Commands`), meshes, materials, the island darkening of `apply_pending_tiles` and all rendering: these are engine glue with no contract beyond the bookkeeping modelled here.
- Network, disk and threads: `load_tile_image`, the disk functions of the cache, the `Arc<Mutex<…>>` hand-offs and task spawning. An HTTP exchange is an outcome value and task completion is a map supplied by the caller.
- `TileId::from_world_position`, `bounds`, `TileBounds`, `calculate_priority`, `world_to_tile_coords` and the camera distance and frustum culling of `process_tiles`: floating-point geometry. The view test is a predicate parameter in both pipelines.
- The height hysteresis and next-zoom choice of `auto_detect_zoom_level`, and the `total_time % 5.0` cadence of `cleanup_old_tiles`: floating-point heuristics. The model takes the chosen zoom and starts from the decision to sweep.
- `types::calculate_base_zoom_level` (log2), `estimate_image_size`, `calculate_image_dimensions`: floating point and image decoding.
- `start_tile_download` and its simulated failures, `queue_tiles_for_download`, `process_tile_downloads`: ECS wiring around the modelled queue, loader and cache operations.
- The index bookkeeping on `osm_data.tiles` during cleanup (positions sorted in descending order, then removed). The model keeps the non-despawned tiles in order, which is what that removal yields for distinct indices.
- `MAX_CACHE_SIZE` is never enforced in the source, so the cache claims no bound.
- Scheduler.GetNextBatch: heap ties are popped in queue order, while a `BinaryHeap` leaves the order among equal priorities unspecified. NaN priorities, for which `partial_cmp(...).unwrap_or(Equal)` makes every comparison equal, are not modelled because `real` has no NaN.
- Downloader.ProcessDownloadResults: one clock value is used for the whole batch, where the source reads the wall clock once per inserted tile.
- Loader.ProcessCompleted: the finished downloads are returned as a map; the source returns them as a vector in hash-map iteration order.
- TileRequests.SortByDistance: stability of `sort_by_key` (equal distances keep generation order) is not stated. The contract gives sortedness and the permutation.
- TileRequests.CandidatesFrom: the view test stands for the distance and frustum culling, so which candidates pass depends on that parameter.
- Islands.IslandKeys: island keys are taken to be zoom-17 tile coordinates (below `2^17`). Larger keys would overflow the shifts in `i32`/`u32`, and the island map is filled outside this model.
- TileLifetime.Storable: entries of `loaded_tiles` and `osm_data.tiles` are taken to have a zoom between 10 and 19 and coordinates below `2^19`. They need not lie in the grid of their own zoom: the island loop pushes zoom-17 entries scaled to zoom 18 or 19, and `TileLifetime.AsWrittenIslandRequestsStorable` shows those stay below `2^19`. Coordinates past `2^19` would be outside every grid and could overflow the `i32` multiplication.
- TileRequests.CandidatesFrom, TileRequests.Candidates, TileRequests.RegularRequests: the zoom is between 10 and 19 and the centre tile lies in its grid. `setup` keeps only thresholds with such zooms (src/systems/setup.rs:31-35), and `world_to_tile_coords` clamps its result into the grid (src/utils/coordinate_conversion.rs:40-42).
- QuadView.GetTilesToLoad: requires visible tiles to be at zoom 30 or less, so that the neighbour arithmetic of `get_adjacent_tiles` stays inside `u32`.
- QuadView.Update, QuadView.UpdateNodeVisibility, QuadView.VisibleTilesShouldLoad: require a max zoom (and a target zoom and visited node zoom) of at most 31. Every visited node goes through `TileBounds::from_tile_id` (src/tile_system/types.rs:170), whose `1u32 << zoom` panics at zoom 32; a visit to a zoom-32 node is that panic, which the model does not represent.
- QuadNodes.InsertTile: for a tile outside the grid of its zoom, the source walks a path that ends at a different node. The model only promises the target node for in-grid tiles.

## Findings

| source | as written | input that shows it | evidently intended | confidence | as-written member | corrected member |
|---|---|---|---|---|---|---|
| src/tile_system/scheduler.rs:26-33 | `Ord` compares `other.priority` with `self.priority`, so the max-`BinaryHeap` pops the smallest priority first | requests with priorities 10.0 and 1.0: the 1.0 request starts first | the highest priority first, as the comment on the comparison and the max-wins coalescing at lines 77-93 say | medium, not executed | Scheduler.AsWrittenStartsLowestFirst | Scheduler.IntendedStartsHighestFirst |
| src/systems/tiles.rs:68-196 | the near islands are stored in current-zoom coordinates (line 104). They are then requested as zoom-17 tiles (lines 111-121) and scaled to the current zoom a second time (lines 160-196) | island (67456, 42688) at zoom 13, with the camera on tile (4216, 2668). Zoom-17 tile (4216, 2668), which is no island, is requested, and zoom-13 tile (263, 166) is marked | request the island's own zoom-17 tile, and mark zoom-13 tile (4216, 2668). That is the tile `apply_pending_tiles` treats as island-corresponding | high, not executed | Islands.AsWrittenMisplacesIsland | Islands.IntendedMarksIslandTiles |

`Scheduler.GetNextBatch` takes the heap order as a parameter, so its
contract covers both orders. The island requests and marks in `Islands.ProcessIslands`
follow the corrected list.

=== FILE: cache.dfy ===
/** The in-memory byte cache of the quadtree pipeline (`TileCache`): encoded
    images by tile id, their last access times, and the ids being loaded.

    Whether bytes decode as an image is a predicate supplied by the caller,
    and the wall clock is a parameter already truncated to `u32` seconds. */
module Cache {
  import opened Numeric
  import opened Wrappers
  import opened TileIds

  datatype TileCache = TileCache(
    tiles: map<TileId, seq<Byte>>,
    lastAccess: map<TileId, U32>,
    loading: map<TileId, bool>)

  /** Every cached tile has an access time, and only cached tiles do. */
  predicate Valid(c: TileCache) {
    c.tiles.Keys == c.lastAccess.Keys
  }

  /** `TileCache::new`. */
  function NewCache(): (c: TileCache)
    ensures Valid(c) && IsEmpty(c) && c.loading == map[]
  {
    TileCache(map[], map[], map[])
  }

  /** `TileCache::get`. */
  function Get(c: TileCache, id: TileId): (r: Option<seq<Byte>>)
    ensures r.Some? <==> Contains(c, id)
    ensures r.Some? ==> r.value == c.tiles[id]
  {
    if id in c.tiles then Some(c.tiles[id]) else None
  }

  /** `TileCache::contains`. */
  predicate Contains(c: TileCache, id: TileId) {
    id in c.tiles
  }

  /** `TileCache::is_loading`. */
  predicate IsLoading(c: TileCache, id: TileId) {
    id in c.loading
  }

  /** `TileCache::len`. */
  function Len(c: TileCache): (n: nat)
    ensures n == 0 <==> forall id :: !Contains(c, id)
  {
    EmptyMap(c.tiles);
    assert forall k :: Contains(c, k) <==> k in c.tiles;
    |c.tiles|
  }

  lemma EmptyMap<K, V>(m: map<K, V>)
    ensures |m| == 0 <==> forall k :: k !in m
  {
    if |m| != 0 {
      assert m.Keys != {};
      var k :| k in m.Keys;
    }
  }

  /** `TileCache::is_empty`. */
  predicate IsEmpty(c: TileCache) {
    |c.tiles| == 0
  }

  lemma IsEmptyIffNoTiles(c: TileCache)
    ensures IsEmpty(c) <==> Len(c) == 0
  {
  }

  /** `TileCache::insert`. Bytes that do not decode are refused with a
      `LoadError` and nothing changes; otherwise the bytes are stored, stamped
      with `now`, and the id stops loading. Other ids are untouched. */
  function Insert(c: TileCache, id: TileId, data: seq<Byte>, validImage: seq<Byte> -> bool, now: U32)
    : (r: Result<TileCache, TileError>)
    ensures !validImage(data) <==> r.Err?
    ensures r.Err? ==> r.error.LoadError?
    ensures r.Ok? ==>
      && r.value.tiles.Keys == c.tiles.Keys + {id}
      && r.value.lastAccess.Keys == c.lastAccess.Keys + {id}
      && r.value.lastAccess[id] == now
      && r.value.loading.Keys == c.loading.Keys - {id}
      && (forall k :: k in c.tiles && k != id ==> r.value.tiles[k] == c.tiles[k])
      && (forall k :: k in c.lastAccess && k != id ==> r.value.lastAccess[k] == c.lastAccess[k])
    ensures r.Ok? && Valid(c) ==> Valid(r.value)
  {
    if !validImage(data) then Err(LoadError("Invalid image data"))
    else Ok(TileCache(c.tiles[id := data], c.lastAccess[id := now], c.loading - {id}))
  }

  /** A successful insert is read back byte for byte, and the id is cached
      and no longer loading. */
  lemma InsertGetRoundTrip(c: TileCache, id: TileId, data: seq<Byte>, validImage: seq<Byte> -> bool, now: U32)
    requires validImage(data)
    ensures var r := Insert(c, id, data, validImage, now);
      && r.Ok?
      && Get(r.value, id) == Some(data)
      && Contains(r.value, id)
      && !IsLoading(r.value, id)
  {
  }

  /** Inserting under one id does not change what another id reads. */
  lemma InsertKeepsOthers(c: TileCache, id: TileId, other: TileId, data: seq<Byte>,
                          validImage: seq<Byte> -> bool, now: U32)
    requires other != id
    ensures var r := Insert(c, id, data, validImage, now);
      r.Ok? ==> Get(r.value, other) == Get(c, other) && (IsLoading(r.value, other) <==> IsLoading(c, other))
  {
  }

  /** `TileCache::remove`: returns what was stored and forgets the id in
      both maps. */
  function Remove(c: TileCache, id: TileId): (r: (TileCache, Option<seq<Byte>>))
    ensures r.1 == Get(c, id)
    ensures !Contains(r.0, id) && id !in r.0.lastAccess
    ensures forall k :: k != id ==> Get(r.0, k) == Get(c, k)
    ensures r.0.loading == c.loading
    ensures Valid(c) ==> Valid(r.0)
    ensures !Contains(c, id) && Valid(c) ==> r.0 == c
  {
    (TileCache(c.tiles - {id}, c.lastAccess - {id}, c.loading), Get(c, id))
  }

  /** Removing twice is removing once, and the second removal finds nothing. */
  lemma RemoveIdempotent(c: TileCache, id: TileId)
    requires Valid(c)
    ensures Remove(Remove(c, id).0, id).0 == Remove(c, id).0
    ensures Remove(Remove(c, id).0, id).1 == None
  {
  }

  /** Insert then remove gives back the inserted bytes. */
  lemma InsertRemoveRoundTrip(c: TileCache, id: TileId, data: seq<Byte>, validImage: seq<Byte> -> bool, now: U32)
    requires validImage(data)
    ensures Remove(Insert(c, id, data, validImage, now).value, id).1 == Some(data)
  {
  }

  /** `len` counts the cached tiles: it is the size of any set holding
      exactly the cached ids. */
  lemma LenCounts(c: TileCache, ids: set<TileId>)
    requires forall id :: id in ids <==> Contains(c, id)
    ensures Len(c) == |ids|
  {
    assert ids == c.tiles.Keys;
  }

  /** A successful insert adds one to `len` for a new id and leaves it
      unchanged for an id already cached. */
  lemma InsertLen(c: TileCache, id: TileId, data: seq<Byte>, validImage: seq<Byte> -> bool, now: U32)
    requires validImage(data)
    ensures var r := Insert(c, id, data, validImage, now);
      r.Ok? && Len(r.value) == if Contains(c, id) then Len(c) else Len(c) + 1
  {
  }

  /** Removing a cached id takes one off `len`; removing any other id
      leaves it unchanged. */
  lemma RemoveLen(c: TileCache, id: TileId)
    ensures Len(Remove(c, id).0) == if Contains(c, id) then Len(c) - 1 else Len(c)
  {
  }

  /** `TileCache::update_access_time`: restamps a cached id, and ignores
      one that is not cached. */
  function UpdateAccessTime(c: TileCache, id: TileId, now: U32): (r: TileCache)
    ensures r.tiles == c.tiles && r.loading == c.loading
    ensures Contains(c, id) ==> id in r.lastAccess && r.lastAccess[id] == now
    ensures forall k :: k != id ==> (k in r.lastAccess <==> k in c.lastAccess)
    ensures forall k :: k != id && k in c.lastAccess ==> r.lastAccess[k] == c.lastAccess[k]
    ensures !Contains(c, id) ==> r == c
    ensures Valid(c) ==> Valid(r)
  {
    if id in c.tiles then c.(lastAccess := c.lastAccess[id := now]) else c
  }

  /** `TileCache::clear`: empties tiles and access times; ids being loaded
      stay loading. */
  function Clear(c: TileCache): (r: TileCache)
    ensures Valid(r) && IsEmpty(r) && r.lastAccess == map[]
    ensures forall id :: IsLoading(r, id) <==> IsLoading(c, id)
  {
    TileCache(map[], map[], c.loading)
  }

  /** `TileCache::mark_downloading`. */
  function MarkDownloading(c: TileCache, id: TileId): (r: TileCache)
    ensures IsLoading(r, id)
    ensures forall k :: k != id ==> (IsLoading(r, k) <==> IsLoading(c, k))
    ensures r.tiles == c.tiles && r.lastAccess == c.lastAccess
  {
    c.(loading := c.loading[id := true])
  }

  /** `TileCache::mark_loading`: the id is loading afterwards, whatever it
      was before, no other id changes, and the stored bytes are untouched.
      It does the same bookkeeping as `mark_downloading`. */
  function MarkLoading(c: TileCache, id: TileId): (r: TileCache)
    ensures IsLoading(r, id)
    ensures forall k :: k != id ==> (IsLoading(r, k) <==> IsLoading(c, k))
    ensures r.tiles == c.tiles && r.lastAccess == c.lastAccess
    ensures forall k :: Get(r, k) == Get(c, k)
    ensures r == MarkDownloading(c, id)
  {
    MarkDownloading(c, id)
  }

  /** Marking then inserting valid bytes ends the load, with either mark. */
  lemma MarkThenInsertEndsLoading(c: TileCache, id: TileId, data: seq<Byte>, validImage: seq<Byte> -> bool, now: U32)
    requires validImage(data)
    ensures var r := Insert(MarkDownloading(c, id), id, data, validImage, now);
      r.Ok? && !IsLoading(r.value, id) && Get(r.value, id) == Some(data)
    ensures var r := Insert(MarkLoading(c, id), id, data, validImage, now);
      r.Ok? && !IsLoading(r.value, id) && Get(r.value, id) == Some(data)
  {
  }

}

=== FILE: constants.dfy ===
/** Zoom constants and tile-index bounds of the wired-in tile pipeline. */
module Constants {
  import opened Numeric

  const DEFAULT_ZOOM_LEVEL: U32 := 13
  /** Furthest zoom out (least detail). */
  const MIN_ZOOM_LEVEL: U32 := 10
  /** Closest zoom in (most detail). */
  const MAX_ZOOM_LEVEL: U32 := 19
  const PERSISTENT_ISLAND_ZOOM_LEVEL: U32 := 17

  /** `(1 << MAX_ZOOM_LEVEL) - 1`, written out. */
  const MAX_TILE_INDEX: U32 := 0x7_FFFF

  /** Approximate tile of Groningen at the default zoom. */
  const GRONINGEN_X: U32 := 4216
  const GRONINGEN_Y: U32 := 2668

  /** `(1 << zoom) - 1` on `u32`: the largest tile index at `zoom`. A shift
      by 32 or more panics in Rust, hence the precondition. */
  function MaxTileIndex(zoom: U32): (r: U32)
    requires zoom < 32
    ensures r + 1 == Pow2(zoom)
  {
    Pow2Table();
    Pow2Monotone(zoom, 32);
    Pow2(zoom) - 1
  }

  /** The exported constant agrees with the function at the maximum zoom. */
  lemma MaxTileIndexConstant()
    ensures MAX_TILE_INDEX == MaxTileIndex(MAX_ZOOM_LEVEL)
    ensures MAX_TILE_INDEX + 1 == Pow2(19)
  {
    Pow2Table();
  }

  lemma ZoomLevelsOrdered()
    ensures MIN_ZOOM_LEVEL <= DEFAULT_ZOOM_LEVEL <= PERSISTENT_ISLAND_ZOOM_LEVEL <= MAX_ZOOM_LEVEL
  {
  }

  /** The start tile is a valid tile at the default zoom. */
  lemma GroningenIsValid()
    ensures GRONINGEN_X <= MaxTileIndex(DEFAULT_ZOOM_LEVEL)
    ensures GRONINGEN_Y <= MaxTileIndex(DEFAULT_ZOOM_LEVEL)
  {
    Pow2Table();
    Pow2Add(8, 5);
  }
}

=== FILE: decimal.dfy ===
/** Decimal rendering of unsigned integers (Rust's `Display` for `u8`/`u32`),
    and the facts needed to show that `/`-separated paths built from such
    renderings identify their numbers. */
module Decimal {

  predicate IsDigit(c: char) {
    '0' <= c <= '9'
  }

  function DigitChar(d: nat): (c: char)
    requires d < 10
    ensures IsDigit(c)
    ensures c as int - '0' as int == d
  {
    ('0' as int + d) as char
  }

  /** Most significant digit first, no leading zeros, "0" for zero. */
  function NatToString(n: nat): (s: string)
    ensures |s| >= 1
    ensures forall i :: 0 <= i < |s| ==> IsDigit(s[i])
    decreases n
  {
    if n < 10 then [DigitChar(n)] else NatToString(n / 10) + [DigitChar(n % 10)]
  }

  /** Reading the digits back, most significant first. */
  function DigitsValue(s: string): nat
    requires forall i :: 0 <= i < |s| ==> IsDigit(s[i])
  {
    if |s| == 0 then 0
    else
      assert IsDigit(s[|s| - 1]);
      10 * DigitsValue(s[..|s| - 1]) + (s[|s| - 1] as int - '0' as int)
  }

  /** Rendering then reading back gives the number: the rendering is injective. */
  lemma {:induction false} NatToStringRoundTrip(n: nat)
    ensures DigitsValue(NatToString(n)) == n
    decreases n
  {
    var s := NatToString(n);
    if n < 10 {
      assert s[..0] == [];
    } else {
      NatToStringRoundTrip(n / 10);
      assert s[..|s| - 1] == NatToString(n / 10);
    }
  }

  lemma NatToStringInjective(a: nat, b: nat)
    ensures NatToString(a) == NatToString(b) <==> a == b
  {
    if NatToString(a) == NatToString(b) {
      NatToStringRoundTrip(a);
      NatToStringRoundTrip(b);
    }
  }

  /** A rendering never contains the path separator. */
  lemma NoSeparator(n: nat, sep: char)
    requires !IsDigit(sep)
    ensures sep !in NatToString(n)
  {
    var s := NatToString(n);
    forall i | 0 <= i < |s|
      ensures s[i] != sep
    {
      assert IsDigit(s[i]);
    }
  }

  /** Splitting at the first separator: if neither head contains `sep`,
      `a + [sep] + c == b + [sep] + d` forces `a == b` and `c == d`. */
  lemma SplitAtSeparator(a: string, b: string, c: string, d: string, sep: char)
    requires sep !in a && sep !in b
    requires a + [sep] + c == b + [sep] + d
    ensures a == b && c == d
  {
    var l := a + [sep] + c;
    var r := b + [sep] + d;
    assert l[|a|] == sep && r[|b|] == sep;
    assert forall i :: 0 <= i < |a| ==> l[i] == a[i] != sep;
    assert forall i :: 0 <= i < |b| ==> r[i] == b[i] != sep;
    assert |a| == |b|;
    assert a == l[..|a|] && b == r[..|b|];
    assert c == l[|a| + 1..] && d == r[|b| + 1..];
  }

  /** Two strings with a common suffix are equal when the results are. */
  lemma CancelSuffix(a: string, b: string, suffix: string)
    requires a + suffix == b + suffix
    ensures a == b
  {
    assert |a| == |b|;
    assert a == (a + suffix)[..|a|];
    assert b == (b + suffix)[..|b|];
  }

  /** Two strings with a common prefix are equal when the results are. */
  lemma CancelPrefix(prefix: string, a: string, b: string)
    requires prefix + a == prefix + b
    ensures a == b
  {
    assert a == (prefix + a)[|prefix|..];
    assert b == (prefix + b)[|prefix|..];
  }

  /** `{a}/{b}/{c}`: three renderings joined by slashes, as the tile URLs
      and cache paths spell a tile. */
  function Segments(a: nat, b: nat, c: nat): (s: string)
    ensures |s| >= 5
  {
    NatToString(a) + "/" + NatToString(b) + "/" + NatToString(c)
  }

  /** Distinct number triples give distinct segment strings, and back. */
  lemma SegmentsInjective(a: nat, b: nat, c: nat, a2: nat, b2: nat, c2: nat)
    ensures Segments(a, b, c) == Segments(a2, b2, c2) <==> a == a2 && b == b2 && c == c2
  {
    if Segments(a, b, c) == Segments(a2, b2, c2) {
      var sa, sb, sc := NatToString(a), NatToString(b), NatToString(c);
      var ta, tb, tc := NatToString(a2), NatToString(b2), NatToString(c2);
      NoSeparator(a, '/');
      NoSeparator(a2, '/');
      NoSeparator(b, '/');
      NoSeparator(b2, '/');
      assert Segments(a, b, c) == sa + ['/'] + (sb + "/" + sc);
      assert Segments(a2, b2, c2) == ta + ['/'] + (tb + "/" + tc);
      SplitAtSeparator(sa, ta, sb + "/" + sc, tb + "/" + tc, '/');
      assert sb + ['/'] + sc == tb + ['/'] + tc;
      SplitAtSeparator(sb, tb, sc, tc, '/');
      NatToStringInjective(a, a2);
      NatToStringInjective(b, b2);
      NatToStringInjective(c, c2);
    }
  }

  /** A fixed prefix and suffix keep a string's identity. */
  lemma AffixInjective(prefix: string, s: string, t: string, suffix: string)
    ensures prefix + s + suffix == prefix + t + suffix <==> s == t
  {
    if prefix + s + suffix == prefix + t + suffix {
      CancelSuffix(prefix + s, prefix + t, suffix);
      CancelPrefix(prefix, s, t);
    }
  }
}

=== FILE: downloader.dfy ===
/** The FIFO download queue of the quadtree pipeline (`TileDownloadQueue`)
    and the two pure pieces around it: queuing a tile unless it is cached or
    too fine, and turning finished downloads into load results while filling
    the cache. */
module Downloader {
  import opened Numeric
  import opened Wrappers
  import opened TileIds
  import opened Decimal
  import opened Seqs
  import Cache
  import OsmTiles
  import QuadView

  const MAX_BATCH_SIZE: nat := 64

  datatype DownloadQueue = DownloadQueue(
    queued: set<TileId>,
    downloading: set<TileId>,
    queue: seq<TileId>)

  /** The queued set is exactly the queue's contents, the queue holds no id
      twice, and nothing queued is downloading. */
  predicate Valid(d: DownloadQueue) {
    && Elements(d.queue) == d.queued
    && NoDuplicates(d.queue)
    && d.queued * d.downloading == {}
  }

  /** `TileDownloadQueue::new` / `default`. */
  function NewQueue(): (d: DownloadQueue)
    ensures Valid(d) && IsEmpty(d)
  {
    DownloadQueue({}, {}, [])
  }

  /** `TileDownloadQueue::queue`: an id neither queued nor downloading goes
      to the back; anything else is ignored. */
  function Enqueue(d: DownloadQueue, id: TileId): (r: DownloadQueue)
    ensures id in d.queued || id in d.downloading ==> r == d
    ensures id !in d.queued && id !in d.downloading ==>
      r.queue == d.queue + [id] && r.queued == d.queued + {id} && r.downloading == d.downloading
    ensures Valid(d) ==> Valid(r)
  {
    if id !in d.queued && id !in d.downloading then
      var r := DownloadQueue(d.queued + {id}, d.downloading, d.queue + [id]);
      assert Valid(d) ==> Valid(r) by {
        if Valid(d) {
          assert Elements(r.queue) == Elements(d.queue) + {id};
          assert id !in d.queue by { assert id !in Elements(d.queue); }
        }
      }
      r
    else d
  }

  /** `TileDownloadQueue::get_next_batch`: the first `min(64, |queue|)` ids
      in queue order, each moved from queued to downloading. */
  method GetNextBatch(d: DownloadQueue) returns (batch: seq<TileId>, r: DownloadQueue)
    ensures |batch| == if |d.queue| < MAX_BATCH_SIZE then |d.queue| else MAX_BATCH_SIZE
    ensures d.queue == batch + r.queue
    ensures r.queued == d.queued - Elements(batch)
    ensures r.downloading == d.downloading + Elements(batch)
    ensures Valid(d) ==> Valid(r)
  {
    batch := [];
    r := d;
    while |batch| < MAX_BATCH_SIZE && |r.queue| > 0
      invariant d.queue == batch + r.queue
      invariant |batch| <= MAX_BATCH_SIZE
      invariant r.queued == d.queued - Elements(batch)
      invariant r.downloading == d.downloading + Elements(batch)
      decreases |r.queue|
    {
      var id := r.queue[0];
      assert Elements(batch + [id]) == Elements(batch) + {id};
      r := DownloadQueue(r.queued - {id}, r.downloading + {id}, r.queue[1..]);
      batch := batch + [id];
    }
    if Valid(d) {
      BatchKeepsValid(d, batch, r);
    }
  }

  /** Splitting a valid queue at its front keeps the queue invariants. */
  lemma BatchKeepsValid(d: DownloadQueue, batch: seq<TileId>, r: DownloadQueue)
    requires Valid(d)
    requires d.queue == batch + r.queue
    requires r.queued == d.queued - Elements(batch)
    requires r.downloading == d.downloading + Elements(batch)
    ensures Valid(r)
  {
    forall x | x in r.queue ensures x !in batch {
      var j :| 0 <= j < |r.queue| && r.queue[j] == x;
      assert d.queue[|batch| + j] == x;
      forall i | 0 <= i < |batch| ensures batch[i] != x {
        assert d.queue[i] == batch[i];
      }
    }
    assert Elements(d.queue) == Elements(batch) + Elements(r.queue);
    assert NoDuplicates(r.queue) by {
      forall i, j | 0 <= i < j < |r.queue| ensures r.queue[i] != r.queue[j] {
        assert r.queue[i] == d.queue[|batch| + i] && r.queue[j] == d.queue[|batch| + j];
      }
    }
  }

  /** `TileDownloadQueue::mark_completed`. */
  function MarkCompleted(d: DownloadQueue, id: TileId): (r: DownloadQueue)
    ensures id !in r.downloading
    ensures forall k :: k != id ==> (k in r.downloading <==> k in d.downloading)
    ensures r.queue == d.queue && r.queued == d.queued
    ensures Valid(d) ==> Valid(r)
  {
    d.(downloading := d.downloading - {id})
  }

  lemma MarkCompletedIdempotent(d: DownloadQueue, id: TileId)
    ensures MarkCompleted(MarkCompleted(d, id), id) == MarkCompleted(d, id)
  {
  }

  /** `TileDownloadQueue::is_empty`: nothing waits and nothing downloads. */
  predicate IsEmpty(d: DownloadQueue) {
    |d.queue| == 0 && |d.downloading| == 0
  }

  /** `TileDownloadQueue::queued_count`. */
  function QueuedCount(d: DownloadQueue): nat {
    |d.queued|
  }

  /** `TileDownloadQueue::downloading_count`. */
  function DownloadingCount(d: DownloadQueue): nat {
    |d.downloading|
  }

  /** On a valid queue, emptiness means no id is queued or downloading, and
      the queued count is the queue's length. */
  lemma CountsAgree(d: DownloadQueue)
    requires Valid(d)
    ensures IsEmpty(d) <==> QueuedCount(d) == 0 && DownloadingCount(d) == 0
    ensures QueuedCount(d) == |d.queue|
  {
    NoDuplicatesCard(d.queue);
  }

  /** `TileDownloadQueue::clear`. */
  function Clear(d: DownloadQueue): (r: DownloadQueue)
    ensures Valid(r) && IsEmpty(r) && r.queued == {}
  {
    DownloadQueue({}, {}, [])
  }

  /** `queue_tile_for_download`: cached tiles and tiles finer than the
      quadtree's maximum zoom are skipped; the rest are queued. */
  function QueueTileForDownload(id: TileId, cache: Cache.TileCache, tree: QuadView.TileQuadtree, d: DownloadQueue)
    : (r: DownloadQueue)
    ensures Cache.Contains(cache, id) || id.zoom > tree.maxZoom ==> r == d
    ensures !Cache.Contains(cache, id) && id.zoom <= tree.maxZoom ==> r == Enqueue(d, id)
    ensures Valid(d) ==> Valid(r)
  {
    if Cache.Contains(cache, id) then d
    else if !QuadView.ShouldLoadTile(tree, id) then d
    else Enqueue(d, id)
  }

  /** After it, a tile that was neither cached nor too fine is queued or
      downloading. */
  lemma QueuedUnlessSkipped(id: TileId, cache: Cache.TileCache, tree: QuadView.TileQuadtree, d: DownloadQueue)
    requires !Cache.Contains(cache, id) && id.zoom <= tree.maxZoom
    ensures var r := QueueTileForDownload(id, cache, tree, d);
      id in r.queued || id in r.downloading
  {
  }

  // ---------------------------------------------------------------------
  // process_download_results

  /** `TileLoadedEvent`: the bytes of a finished download, or its error. */
  datatype LoadedEvent = LoadedEvent(id: TileId, data: Result<seq<Byte>, TileError>)

  /** `TileLoadResult`: `Ok(())` is `Ok(true)`. */
  datatype LoadResult = LoadResult(id: TileId, result: Result<bool, TileError>)

  /** What one finished download is reported as. */
  function Classify(e: LoadedEvent, validImage: seq<Byte> -> bool): Result<bool, TileError> {
    match e.data
    case Ok(bytes) => if validImage(bytes) then Ok(true) else Err(CacheError)
    case Err(error) => Err(error)
  }

  function EventIds(events: seq<LoadedEvent>): set<TileId> {
    set i | 0 <= i < |events| :: events[i].id
  }

  /** The ids of a non-empty event list: the first one and those of the rest. */
  lemma EventIdsCons(events: seq<LoadedEvent>)
    requires |events| > 0
    ensures EventIds(events) == {events[0].id} + EventIds(events[1..])
  {
    forall i | 0 <= i < |events[1..]| ensures events[1..][i] == events[i + 1] { }
    forall x | x in EventIds(events) ensures x in {events[0].id} + EventIds(events[1..]) {
      var i :| 0 <= i < |events| && events[i].id == x;
      if i > 0 { assert events[1..][i - 1].id == x; }
    }
  }

  /** Handling one event: good bytes go into the cache, and the event is
      classified. Nothing leaves the cache. */
  function HandleEvent(e: LoadedEvent, cache: Cache.TileCache, validImage: seq<Byte> -> bool, now: U32)
    : (r: (Cache.TileCache, Result<bool, TileError>))
    ensures r.1 == Classify(e, validImage)
    ensures r.1.Ok? ==> Cache.Contains(r.0, e.id)
    ensures Cache.Valid(cache) ==> Cache.Valid(r.0)
    ensures forall id :: Cache.Contains(cache, id) ==> Cache.Contains(r.0, id)
  {
    match e.data
    case Ok(bytes) =>
      (match Cache.Insert(cache, e.id, bytes, validImage, now)
       case Ok(c) => (c, Ok(true))
       case Err(_) => (cache, Err(CacheError)))
    case Err(error) => (cache, Err(error))
  }

  /** `process_download_results`, over the events read in one run: each
      event clears its downloading mark, stores good bytes in the cache,
      and yields one result for the same tile, in order. The wall clock
      reads `now` throughout the run. */
  function ProcessDownloadResults(events: seq<LoadedEvent>, d: DownloadQueue, cache: Cache.TileCache,
                                  validImage: seq<Byte> -> bool, now: U32)
    : (r: (DownloadQueue, Cache.TileCache, seq<LoadResult>))
    ensures |r.2| == |events|
    ensures forall i :: 0 <= i < |events| ==>
      r.2[i].id == events[i].id && r.2[i].result == Classify(events[i], validImage)
    ensures r.0.downloading == d.downloading - EventIds(events)
    ensures r.0.queue == d.queue && r.0.queued == d.queued
    ensures Cache.Valid(cache) ==> Cache.Valid(r.1)
    ensures forall i :: 0 <= i < |events| && r.2[i].result.Ok? ==> Cache.Contains(r.1, events[i].id)
    ensures forall id :: Cache.Contains(cache, id) ==> Cache.Contains(r.1, id)
    decreases |events|
  {
    if |events| == 0 then (d, cache, [])
    else
      var e := events[0];
      var d1 := MarkCompleted(d, e.id);
      var h := HandleEvent(e, cache, validImage, now);
      var rest := ProcessDownloadResults(events[1..], d1, h.0, validImage, now);
      EventIdsCons(events);
      var out := [LoadResult(e.id, h.1)] + rest.2;
      assert forall i :: 0 <= i < |events| ==>
        && out[i].id == events[i].id && out[i].result == Classify(events[i], validImage)
        && (out[i].result.Ok? ==> Cache.Contains(rest.1, events[i].id)) by {
        forall i | 0 < i < |events|
          ensures out[i].id == events[i].id && out[i].result == Classify(events[i], validImage)
          ensures out[i].result.Ok? ==> Cache.Contains(rest.1, events[i].id)
        {
          assert out[i] == rest.2[i - 1];
          assert events[1..][i - 1] == events[i];
        }
      }
      (rest.0, rest.1, out)
  }

  /** The prefix of every `build_tile_url` address:
      `https://tile.openstreetmap.org/`. */
  const TILE_URL_PREFIX: string := "https://" + OsmTiles.OSM_HOST + "/"

  /** `build_tile_url`: `https://tile.openstreetmap.org/{z}/{x}/{y}.png`,
      the address `OSMTile::get_url` gives without its `a.` host prefix. */
  function BuildTileUrl(id: TileId): (u: string)
    ensures u == "https://" + OsmTiles.Url(OsmTiles.OsmTile(id.x, id.y, id.zoom))[|"https://a."|..]
  {
    var path := Segments(id.zoom, id.x, id.y) + ".png";
    assert OsmTiles.Url(OsmTiles.OsmTile(id.x, id.y, id.zoom)) == OsmTiles.URL_PREFIX + path;
    MirrorDropped(path);
    TILE_URL_PREFIX + Segments(id.zoom, id.x, id.y) + ".png"
  }

  /** Replacing `https://a.` by `https://` turns the `OSMTile::get_url`
      prefix into the `build_tile_url` one. */
  lemma MirrorDropped(path: string)
    ensures "https://" + (OsmTiles.URL_PREFIX + path)[|"https://a."|..] == TILE_URL_PREFIX + path
  {
    var rest := OsmTiles.OSM_HOST + "/" + path;
    assert OsmTiles.URL_PREFIX + path == "https://a." + rest;
    assert ("https://a." + rest)[|"https://a."|..] == rest;
  }

  /** Distinct tiles are fetched from distinct URLs. */
  lemma BuildTileUrlInjective(a: TileId, b: TileId)
    ensures BuildTileUrl(a) == BuildTileUrl(b) <==> a == b
  {
    AffixInjective(TILE_URL_PREFIX, Segments(a.zoom, a.x, a.y), Segments(b.zoom, b.x, b.y), ".png");
    SegmentsInjective(a.zoom, a.x, a.y, b.zoom, b.x, b.y);
  }

  /** The ASCII bytes of `TILE_DATA`. */
  const TILE_DATA: seq<Byte> := [0x54, 0x49, 0x4C, 0x45, 0x5F, 0x44, 0x41, 0x54, 0x41]

  /** `create_dummy_tile_data`: the zoom, the low bytes of x and y (`as u8`
      truncation), then `TILE_DATA`. */
  function DummyTileData(id: TileId): (data: seq<Byte>)
    ensures |data| == 12
    ensures data[0] == id.zoom && data[1] == id.x % 256 && data[2] == id.y % 256
    ensures data[3..] == TILE_DATA
  {
    [id.zoom, id.x % 256, id.y % 256] + TILE_DATA
  }

  /** The dummy bytes identify a tile's zoom and the low bytes of its
      coordinates, and nothing more. */
  lemma DummyTileDataIdentifies(a: TileId, b: TileId)
    ensures DummyTileData(a) == DummyTileData(b) <==>
      a.zoom == b.zoom && a.x % 256 == b.x % 256 && a.y % 256 == b.y % 256
  {
    if DummyTileData(a) == DummyTileData(b) {
      assert DummyTileData(a)[0] == DummyTileData(b)[0];
      assert DummyTileData(a)[1] == DummyTileData(b)[1];
      assert DummyTileData(a)[2] == DummyTileData(b)[2];
    }
  }
}

=== FILE: islands.dfy ===
/** Persistent islands in the wired-in pipeline: tiles at zoom 17 that are
    always loaded and drawn darkened, together with the tiles at the
    current zoom that correspond to them.

    `process_tiles` gathers the islands near the camera, requests their
    zoom-17 tiles, and marks the current-zoom tiles covering them (which
    the candidate ordering favours); `apply_pending_tiles` decides which
    arriving tiles get island visuals. The island keys are the coordinates
    of zoom-17 tiles, listed here in the order the key iteration yields
    them. */
module Islands {
  import opened Numeric
  import opened Constants
  import opened TileIds
  import opened TileRequests
  import Seqs

  type Coord = (U32, U32)

  /** Every key is a tile of the zoom-17 grid. */
  predicate IslandKeys(islands: seq<Coord>) {
    forall i :: i in islands ==> i.0 < 0x2_0000 && i.1 < 0x2_0000
  }

  /** The island at zoom-17 tile `i` corresponds to tile `t` at zoom `z`:
      below 17, `t` is the ancestor holding `i`; above 17, `t` lies in the
      block of descendants of `i`; at 17, `t` is `i`. */
  predicate Corresponds(i: Coord, t: Coord, z: U32) {
    if z <= PERSISTENT_ISLAND_ZOOM_LEVEL then
      var p := Pow2(PERSISTENT_ISLAND_ZOOM_LEVEL - z);
      i.0 / p == t.0 && i.1 / p == t.1
    else
      var p := Pow2(z - PERSISTENT_ISLAND_ZOOM_LEVEL);
      i.0 * p <= t.0 <= i.0 * p + p - 1 && i.1 * p <= t.1 <= i.1 * p + p - 1
  }

  /** Correspondence is tile ancestry between zoom 17 and zoom `z`. */
  lemma CorrespondsIsAncestry(i: Coord, t: Coord, z: U8)
    ensures z <= PERSISTENT_ISLAND_ZOOM_LEVEL ==>
      (Corresponds(i, t, z) <==> IsAncestorOrSelf(TileId(z, t.0, t.1), TileId(17, i.0, i.1)))
    ensures z > PERSISTENT_ISLAND_ZOOM_LEVEL ==>
      (Corresponds(i, t, z) <==> IsAncestorOrSelf(TileId(17, i.0, i.1), TileId(z, t.0, t.1)))
  {
    if z > PERSISTENT_ISLAND_ZOOM_LEVEL {
      BlockDiv(t.0, i.0, z - 17);
      BlockDiv(t.1, i.1, z - 17);
    }
  }

  /** An arriving tile is an exact island: zoom 17 and an island key. */
  predicate IsExactIsland(islands: seq<Coord>, x: U32, y: U32, z: U32) {
    z == PERSISTENT_ISLAND_ZOOM_LEVEL && (x, y) in islands
  }

  /** An arriving tile off zoom 17 corresponds to some island. */
  predicate IsIslandCorrespondingTile(islands: seq<Coord>, x: U32, y: U32, z: U32) {
    z != PERSISTENT_ISLAND_ZOOM_LEVEL && exists i :: i in islands && Corresponds(i, (x, y), z)
  }

  /** Whether `apply_pending_tiles` gives an arriving tile island visuals. */
  predicate NeedsIslandVisuals(islands: seq<Coord>, x: U32, y: U32, z: U32) {
    IsExactIsland(islands, x, y, z) || IsIslandCorrespondingTile(islands, x, y, z)
  }

  /** The two tests together are correspondence at any zoom. */
  lemma NeedsIslandVisualsIff(islands: seq<Coord>, x: U32, y: U32, z: U32)
    ensures NeedsIslandVisuals(islands, x, y, z) <==> exists i :: i in islands && Corresponds(i, (x, y), z)
  {
    if z == PERSISTENT_ISLAND_ZOOM_LEVEL {
      assert Pow2(0) == 1;
      assert forall i :: Corresponds(i, (x, y), z) <==> i == (x, y);
    }
  }

  /** The current-zoom tile an island is measured from: the ancestor below
      17 (`>>`), the first tile of its block above 17 (`<<`), itself at 17. */
  function Representative(i: Coord, zoom: U32): (t: Coord)
    requires ZoomInRange(zoom) && i.0 < 0x4000_0000 && i.1 < 0x4000_0000
    ensures Corresponds(i, t, zoom)
    ensures zoom > PERSISTENT_ISLAND_ZOOM_LEVEL ==> t.0 == i.0 * Pow2(zoom - 17) && t.1 == i.1 * Pow2(zoom - 17)
  {
    Pow2Table();
    if zoom < PERSISTENT_ISLAND_ZOOM_LEVEL then (Shr(i.0, 17 - zoom), Shr(i.1, 17 - zoom))
    else if zoom > PERSISTENT_ISLAND_ZOOM_LEVEL then
      assert Pow2(zoom - 17) <= 4;
      (i.0 * Pow2(zoom - 17), i.1 * Pow2(zoom - 17))
    else i
  }

  /** The tiles at `zoom` that correspond to island `i`: one below or at
      17, the whole block of descendants above. */
  function Cover(i: Coord, zoom: U32): (s: set<Coord>)
    requires ZoomInRange(zoom) && i.0 < 0x4000_0000 && i.1 < 0x4000_0000
    ensures forall t :: t in s <==> Corresponds(i, t, zoom)
  {
    if zoom <= PERSISTENT_ISLAND_ZOOM_LEVEL then {Representative(i, zoom)}
    else
      var p := Pow2(zoom - 17);
      Pow2Table();
      assert p <= 4;
      set x: U32, y: U32 | i.0 * p <= x <= i.0 * p + p - 1 && i.1 * p <= y <= i.1 * p + p - 1 :: (x, y)
  }

  /** The current-zoom island tiles derived from a list of zoom-17 tiles,
      as the second conversion loop of `process_tiles` builds them. */
  function MarkedTiles(list: seq<Coord>, zoom: U32): (s: set<Coord>)
    requires ZoomInRange(zoom)
    requires forall i :: i in list ==> i.0 < 0x4000_0000 && i.1 < 0x4000_0000
    ensures forall t :: t in s <==> exists i :: i in list && Corresponds(i, t, zoom)
    decreases |list|
  {
    if |list| == 0 then {}
    else
      assert forall i :: i in list <==> i == list[0] || i in list[1..];
      Cover(list[0], zoom) + MarkedTiles(list[1..], zoom)
  }

  /** The island filter: the representative within three visible ranges
      (Manhattan distance) of the view centre. */
  predicate Near(t: Coord, zoom: U32, cx: U32, cy: U32) {
    Abs(t.0 - cx) + Abs(t.1 - cy) <= VisibleRange(zoom) * 3
  }

  /** The zoom-17 island tiles are requested under the usual
      de-duplication rule, with no budget. */
  function IslandRequests(list: seq<Coord>, loaded: seq<Key>, pending: seq<Key>): (r: (seq<Key>, seq<Key>))
    ensures r.0 == loaded + r.1 && Seqs.NoDuplicates(r.1)
    ensures forall t :: t in r.1 ==>
      t !in loaded && t !in pending && t.z == PERSISTENT_ISLAND_ZOOM_LEVEL && (t.x, t.y) in list
    ensures forall i :: i in list ==> Key(i.0, i.1, 17) in r.0 || Key(i.0, i.1, 17) in pending
  {
    var cands := seq(|list|, k requires 0 <= k < |list| => Candidate(list[k].0, list[k].1, 0));
    var r := Select(cands, loaded, pending, PERSISTENT_ISLAND_ZOOM_LEVEL, |list| + 1);
    assert forall c :: c in cands ==> (c.x, c.y) in list;
    assert forall i :: i in list ==> Candidate(i.0, i.1, 0) in cands by {
      forall i | i in list ensures Candidate(i.0, i.1, 0) in cands {
        var k :| 0 <= k < |list| && list[k] == i;
        assert cands[k] == Candidate(i.0, i.1, 0);
      }
    }
    r
  }

  // ---------------------------------------------------------------------
  // As written: the near islands are stored already scaled

  /** The first loop of `process_tiles` as written: for each island, the
      whole block is pushed when zoomed in past 17 (with no distance test),
      then the representative is pushed when near. The list therefore
      holds current-zoom coordinates. */
  function IslandsToCheckAsWritten(islands: seq<Coord>, zoom: U32, cx: U32, cy: U32): (r: seq<Coord>)
    requires ZoomInRange(zoom) && IslandKeys(islands)
    ensures AsWrittenList(islands, zoom, cx, cy, r)
    decreases |islands|
  {
    if |islands| == 0 then []
    else
      var i := islands[0];
      var rep := Representative(i, zoom);
      var block := if zoom > PERSISTENT_ISLAND_ZOOM_LEVEL then BlockList(i, zoom) else [];
      var near := if Near(rep, zoom, cx, cy) then [rep] else [];
      var rest := IslandsToCheckAsWritten(islands[1..], zoom, cx, cy);
      AsWrittenStep(islands, zoom, cx, cy, block, near, rest);
      block + near + rest
  }

  /** What the list built as written promises about `islands`. */
  ghost predicate AsWrittenList(islands: seq<Coord>, zoom: U32, cx: U32, cy: U32, r: seq<Coord>)
    requires ZoomInRange(zoom) && IslandKeys(islands)
  {
    && (forall t :: t in r ==> t.0 < 0x8_0000 && t.1 < 0x8_0000)
    && (forall t :: t in r ==> exists i :: i in islands && Corresponds(i, t, zoom))
    && (forall i :: i in islands && Near(Representative(i, zoom), zoom, cx, cy) ==> Representative(i, zoom) in r)
    && (zoom > PERSISTENT_ISLAND_ZOOM_LEVEL ==>
          forall i, t :: i in islands && Corresponds(i, t, zoom) ==> t in r)
  }

  /** Prepending the first island's block and representative to the list of
      the others gives the list of all of them. */
  lemma AsWrittenStep(islands: seq<Coord>, zoom: U32, cx: U32, cy: U32,
                      block: seq<Coord>, near: seq<Coord>, rest: seq<Coord>)
    requires ZoomInRange(zoom) && IslandKeys(islands) && |islands| > 0
    requires zoom <= PERSISTENT_ISLAND_ZOOM_LEVEL ==> block == []
    requires zoom > PERSISTENT_ISLAND_ZOOM_LEVEL ==> block == BlockList(islands[0], zoom)
    requires var rep := Representative(islands[0], zoom);
      near == if Near(rep, zoom, cx, cy) then [rep] else []
    requires AsWrittenList(islands[1..], zoom, cx, cy, rest)
    ensures AsWrittenList(islands, zoom, cx, cy, block + near + rest)
  {
    var i := islands[0];
    var rep := Representative(i, zoom);
    assert forall j :: j in islands <==> j == i || j in islands[1..];
    assert rep.0 < 0x8_0000 && rep.1 < 0x8_0000 by {
      if zoom > PERSISTENT_ISLAND_ZOOM_LEVEL {
        BlockBounds(i.0, zoom);
        BlockBounds(i.1, zoom);
      }
    }
  }

  /** The block of island `i` at a zoom above 17, row by row. */
  function BlockList(i: Coord, zoom: U32): (r: seq<Coord>)
    requires PERSISTENT_ISLAND_ZOOM_LEVEL < zoom <= MAX_ZOOM_LEVEL && i.0 < 0x2_0000 && i.1 < 0x2_0000
    ensures forall t :: t in r ==> Corresponds(i, t, zoom) && t.0 < 0x8_0000 && t.1 < 0x8_0000
    ensures forall t :: Corresponds(i, t, zoom) ==> t in r
  {
    var p := Pow2(zoom - 17);
    BlockBounds(i.0, zoom);
    BlockBounds(i.1, zoom);
    var ps := Pairs(Span(i.0 * p, i.0 * p + p - 1), Span(i.1 * p, i.1 * p + p - 1));
    var r := Coords(ps);
    BlockCovers(i, zoom, ps, r);
    r
  }

  /** Listing the pairs of the block's ranges lists exactly the tiles that
      correspond to the island. */
  lemma BlockCovers(i: Coord, zoom: U32, ps: seq<(int, int)>, r: seq<Coord>)
    requires PERSISTENT_ISLAND_ZOOM_LEVEL < zoom
    requires var p := Pow2(zoom - 17);
      forall q :: q in ps <==> i.0 * p <= q.0 <= i.0 * p + p - 1 && i.1 * p <= q.1 <= i.1 * p + p - 1
    requires forall t: Coord :: (t.0 as int, t.1 as int) in ps ==> t in r
    requires forall t :: t in r ==> (t.0 as int, t.1 as int) in ps
    ensures forall t :: t in r ==> Corresponds(i, t, zoom)
    ensures forall t :: Corresponds(i, t, zoom) ==> t in r
  {
  }

  /** A block above zoom 17 has side 2 or 4 and stays in the zoom-19 grid. */
  lemma BlockBounds(v: nat, zoom: U32)
    requires PERSISTENT_ISLAND_ZOOM_LEVEL < zoom <= MAX_ZOOM_LEVEL && v < 0x2_0000
    ensures 2 <= Pow2(zoom - 17) <= 4
    ensures v * Pow2(zoom - 17) + Pow2(zoom - 17) - 1 < 0x8_0000
  {
    Pow2Table();
    if zoom == 18 {
      assert Pow2(zoom - 17) == 2;
    } else {
      assert Pow2(zoom - 17) == 4;
    }
  }

  /** Integer pairs inside the `u32` range, as tile coordinates. */
  function Coords(ps: seq<(int, int)>): (r: seq<Coord>)
    requires forall q :: q in ps ==> 0 <= q.0 < 0x8_0000 && 0 <= q.1 < 0x8_0000
    ensures forall t :: t in r ==> (t.0 as int, t.1 as int) in ps && t.0 < 0x8_0000 && t.1 < 0x8_0000
    ensures forall t: Coord :: (t.0 as int, t.1 as int) in ps ==> t in r
    decreases |ps|
  {
    if |ps| == 0 then []
    else
      assert ps[0] in ps;
      assert forall q :: q in ps[1..] ==> q in ps;
      [(ps[0].0 as U32, ps[0].1 as U32)] + Coords(ps[1..])
  }

  /** The concrete case: the Groningen island at the default zoom, seen
      from the Groningen tile. The list holds the zoom-13 tile, so the
      zoom-17 request names a tile that is no island, and the second
      conversion marks a zoom-13 tile that corresponds to no island while
      the one that does is not marked. */
  lemma AsWrittenMisplacesIsland()
    ensures var islands := [(0x1_0780, 0xA6C0)];
      && IslandKeys(islands)
      && IslandsToCheckAsWritten(islands, DEFAULT_ZOOM_LEVEL, GRONINGEN_X, GRONINGEN_Y) == [(GRONINGEN_X, GRONINGEN_Y)]
      && (GRONINGEN_X, GRONINGEN_Y) !in islands
      && var marked := MarkedTiles(IslandsToCheckAsWritten(islands, DEFAULT_ZOOM_LEVEL, GRONINGEN_X, GRONINGEN_Y),
                                   DEFAULT_ZOOM_LEVEL);
      && (263, 166) in marked
      && !NeedsIslandVisuals(islands, 263, 166, DEFAULT_ZOOM_LEVEL)
      && (GRONINGEN_X, GRONINGEN_Y) !in marked
      && NeedsIslandVisuals(islands, GRONINGEN_X, GRONINGEN_Y, DEFAULT_ZOOM_LEVEL)
  {
    var islands := [(0x1_0780, 0xA6C0)];
    Pow2Table();
    assert Pow2(17 - 13) == 16;
    var list := IslandsToCheckAsWritten(islands, DEFAULT_ZOOM_LEVEL, GRONINGEN_X, GRONINGEN_Y);
    assert Representative((0x1_0780, 0xA6C0), 13) == (GRONINGEN_X, GRONINGEN_Y);
    assert list == [(GRONINGEN_X, GRONINGEN_Y)];
    assert Representative((GRONINGEN_X, GRONINGEN_Y), 13) == (263, 166);
    assert MarkedTiles(list, 13) == {(263, 166)};
    assert !Corresponds((0x1_0780, 0xA6C0), (263, 166), 13);
    assert Corresponds((0x1_0780, 0xA6C0), (GRONINGEN_X, GRONINGEN_Y), 13);
  }

  // ---------------------------------------------------------------------
  // Intended: the near islands are kept as zoom-17 keys

  /** The islands whose representative is near the view centre, kept as
      zoom-17 keys. */
  function IslandsToCheck(islands: seq<Coord>, zoom: U32, cx: U32, cy: U32): (r: seq<Coord>)
    requires ZoomInRange(zoom) && IslandKeys(islands)
    ensures forall i :: i in r <==> i in islands && Near(Representative(i, zoom), zoom, cx, cy)
    ensures IslandKeys(r)
    decreases |islands|
  {
    if |islands| == 0 then []
    else
      var i := islands[0];
      var rest := IslandsToCheck(islands[1..], zoom, cx, cy);
      assert forall j :: j in islands <==> j == i || j in islands[1..];
      if Near(Representative(i, zoom), zoom, cx, cy) then [i] + rest else rest
  }

  /** The island part of `process_tiles`, as intended: the zoom-17 requests
      and the current-zoom island tiles. */
  function ProcessIslands(islands: seq<Coord>, zoom: U32, cx: U32, cy: U32, loaded: seq<Key>, pending: seq<Key>)
    : (r: (seq<Key>, seq<Key>, set<Coord>))
    requires ZoomInRange(zoom) && IslandKeys(islands)
    ensures r.0 == loaded + r.1
    ensures forall t :: t in r.1 ==> t !in loaded && t !in pending && IsExactIsland(islands, t.x, t.y, t.z)
    ensures forall i :: i in islands && Near(Representative(i, zoom), zoom, cx, cy) ==>
      Key(i.0, i.1, PERSISTENT_ISLAND_ZOOM_LEVEL) in r.0 || Key(i.0, i.1, PERSISTENT_ISLAND_ZOOM_LEVEL) in pending
    ensures forall t :: t in r.2 <==>
      exists i :: i in islands && Near(Representative(i, zoom), zoom, cx, cy) && Corresponds(i, t, zoom)
  {
    var list := IslandsToCheck(islands, zoom, cx, cy);
    var (loaded', requested) := IslandRequests(list, loaded, pending);
    (loaded', requested, MarkedTiles(list, zoom))
  }

  /** Intended behaviour: every zoom-17 request is an exact island, and a
      current-zoom tile is marked exactly when it corresponds to an island
      near the centre, so every marked tile is drawn with island visuals. */
  lemma IntendedMarksIslandTiles(islands: seq<Coord>, zoom: U32, cx: U32, cy: U32,
                                 loaded: seq<Key>, pending: seq<Key>, x: U32, y: U32)
    requires ZoomInRange(zoom) && IslandKeys(islands)
    ensures var r := ProcessIslands(islands, zoom, cx, cy, loaded, pending);
      && ((x, y) in r.2 <==>
            exists i :: i in islands && Near(Representative(i, zoom), zoom, cx, cy) && Corresponds(i, (x, y), zoom))
      && ((x, y) in r.2 ==> NeedsIslandVisuals(islands, x, y, zoom))
  {
    var r := ProcessIslands(islands, zoom, cx, cy, loaded, pending);
    NeedsIslandVisualsIff(islands, x, y, zoom);
    if (x, y) in r.2 {
      var i :| i in islands && Near(Representative(i, zoom), zoom, cx, cy) && Corresponds(i, (x, y), zoom);
      assert exists j :: j in islands && Corresponds(j, (x, y), zoom);
    }
  }

  /** On the same Groningen case the intended version requests the island
      itself and marks the Groningen tile. */
  lemma IntendedPlacesIsland()
    ensures var islands := [(0x1_0780, 0xA6C0)];
      && IslandKeys(islands)
      && var r := ProcessIslands(islands, DEFAULT_ZOOM_LEVEL, GRONINGEN_X, GRONINGEN_Y, [], []);
      && r.1 == [Key(0x1_0780, 0xA6C0, 17)]
      && r.2 == {(GRONINGEN_X, GRONINGEN_Y)}
  {
    var islands := [(0x1_0780, 0xA6C0)];
    Pow2Table();
    assert Pow2(17 - 13) == 16;
    assert Representative((0x1_0780, 0xA6C0), 13) == (GRONINGEN_X, GRONINGEN_Y);
    assert IslandsToCheck(islands, 13, GRONINGEN_X, GRONINGEN_Y) == islands;
    var r := ProcessIslands(islands, DEFAULT_ZOOM_LEVEL, GRONINGEN_X, GRONINGEN_Y, [], []);
    var k := Key(0x1_0780, 0xA6C0, 17);
    assert forall t :: t in r.1 ==> t == k;
    assert k in r.1;
    assert r.1 == [k];
  }
}

=== FILE: loader.dfy ===
/** The bounded-concurrency download bookkeeping of the quadtree pipeline
    (`TileLoader`): a FIFO of waiting ids, at most eight running downloads,
    and the pending set covering both.

    A running download is represented by the URL it fetches. Whether a
    download has finished, and with what, is supplied by the caller; the
    HTTP exchange itself is an outcome value that is classified. */
module Loader {
  import opened Numeric
  import opened Wrappers
  import opened TileIds
  import opened Decimal
  import opened Seqs
  import Downloader
  import OsmTiles

  const MAX_CONCURRENT_DOWNLOADS: nat := 8
  /** `https://tile.openstreetmap.org`. */
  const DEFAULT_TILE_SERVER: string := "https://" + OsmTiles.OSM_HOST

  datatype TileLoader = TileLoader(
    active: map<TileId, string>,
    queue: seq<TileId>,
    pending: set<TileId>,
    server: string)

  /** Pending is exactly waiting or running; the queue holds no id twice
      and nothing both waits and runs. */
  ghost predicate Valid(l: TileLoader) {
    && (forall id :: id in l.pending <==> id in l.queue || id in l.active)
    && NoDuplicates(l.queue)
    && (forall id :: id in l.queue ==> id !in l.active)
  }

  /** `TileLoader::default`. */
  function NewLoader(): (l: TileLoader)
    ensures Valid(l) && l.pending == {} && l.server == DEFAULT_TILE_SERVER
  {
    TileLoader(map[], [], {}, DEFAULT_TILE_SERVER)
  }

  /** `TileLoader::is_pending`. */
  predicate IsPending(l: TileLoader, id: TileId) {
    id in l.pending
  }

  /** On a valid loader, pending means waiting or running. */
  lemma PendingMeansQueuedOrActive(l: TileLoader, id: TileId)
    requires Valid(l)
    ensures IsPending(l, id) <==> id in l.queue || id in l.active
  {
  }

  /** `TileLoader::queue_tile`: a pending id is ignored; any other goes to
      the back of the queue and becomes pending. */
  function QueueTile(l: TileLoader, id: TileId): (r: TileLoader)
    ensures IsPending(l, id) ==> r == l
    ensures !IsPending(l, id) ==> r.queue == l.queue + [id] && r.pending == l.pending + {id}
    ensures r.active == l.active && r.server == l.server
    ensures Valid(l) ==> Valid(r)
  {
    if id in l.pending then l
    else
      l.(queue := l.queue + [id], pending := l.pending + {id})
  }

  /** `TileLoader::queue_tiles`: `queue_tile` for each id in turn. The queue
      only grows at the back, and every given id ends up pending. */
  function QueueTiles(l: TileLoader, ids: seq<TileId>): (r: TileLoader)
    ensures r.pending == l.pending + Elements(ids)
    ensures r.active == l.active && r.server == l.server
    ensures |l.queue| <= |r.queue| && r.queue[..|l.queue|] == l.queue
    ensures Valid(l) ==> Valid(r)
    decreases |ids|
  {
    if |ids| == 0 then l
    else
      var r := QueueTiles(QueueTile(l, ids[0]), ids[1..]);
      assert Elements(ids) == {ids[0]} + Elements(ids[1..]) by {
        assert ids == [ids[0]] + ids[1..];
      }
      assert r.queue[..|l.queue|] == l.queue by {
        var m := QueueTile(l, ids[0]);
        assert m.queue[..|l.queue|] == l.queue;
        assert r.queue[..|l.queue|] == r.queue[..|m.queue|][..|l.queue|];
      }
      r
  }

  /** The URL a download fetches: `{server}/{zoom}/{x}/{y}.png`. With the
      default server it is the URL `build_tile_url` gives. */
  function RequestUrl(server: string, id: TileId): (u: string)
    ensures server == DEFAULT_TILE_SERVER ==> u == Downloader.BuildTileUrl(id)
  {
    server + "/" + Segments(id.zoom, id.x, id.y) + ".png"
  }

  /** On one server, distinct tiles are fetched from distinct URLs. */
  lemma RequestUrlInjective(server: string, a: TileId, b: TileId)
    ensures RequestUrl(server, a) == RequestUrl(server, b) <==> a == b
  {
    AffixInjective(server + "/", Segments(a.zoom, a.x, a.y), Segments(b.zoom, b.x, b.y), ".png");
    SegmentsInjective(a.zoom, a.x, a.y, b.zoom, b.x, b.y);
  }

  /** `TileLoader::start_downloads`: while fewer than eight run and some
      wait, the front of the queue starts. The started ids are a prefix of
      the queue; pending does not change. */
  method StartDownloads(l: TileLoader) returns (r: TileLoader, ghost started: seq<TileId>)
    requires Valid(l)
    ensures Valid(r) && r.pending == l.pending && r.server == l.server
    ensures l.queue == started + r.queue
    ensures forall id :: id in r.active <==> id in l.active || id in started
    ensures forall id :: id in l.active ==> r.active[id] == l.active[id]
    ensures forall id :: id in started ==> r.active[id] == RequestUrl(l.server, id)
    ensures |r.active| == |l.active| + |started|
    ensures |l.active| <= MAX_CONCURRENT_DOWNLOADS ==> |r.active| <= MAX_CONCURRENT_DOWNLOADS
    ensures |r.active| >= MAX_CONCURRENT_DOWNLOADS || r.queue == []
  {
    r := l;
    started := [];
    while |r.active| < MAX_CONCURRENT_DOWNLOADS && |r.queue| > 0
      invariant l.queue == started + r.queue
      invariant r.pending == l.pending && r.server == l.server
      invariant forall id :: id in r.active <==> id in l.active || id in started
      invariant forall id :: id in l.active ==> r.active[id] == l.active[id]
      invariant forall id :: id in started ==> r.active[id] == RequestUrl(l.server, id)
      invariant |r.active| == |l.active| + |started|
      invariant |l.active| <= MAX_CONCURRENT_DOWNLOADS ==> |r.active| <= MAX_CONCURRENT_DOWNLOADS
      invariant Valid(r)
      decreases |r.queue|
    {
      var id := r.queue[0];
      StartOneKeepsValid(r, l, started, id);
      StartOneActive(r.active, l.active, started, id, k => RequestUrl(r.server, k));
      r := r.(active := r.active[id := RequestUrl(r.server, id)], queue := r.queue[1..]);
      started := started + [id];
    }
  }

  /** Taking the front off a duplicate-free queue. */
  lemma PopFront(q: seq<TileId>)
    requires NoDuplicates(q) && |q| > 0
    ensures NoDuplicates(q[1..])
    ensures q[0] !in q[1..]
  {
    assert q == [q[0]] + q[1..];
    forall k | 0 <= k < |q[1..]| ensures q[1..][k] != q[0] {
      assert q[1..][k] == q[k + 1];
    }
  }

  /** Starting the front of the queue moves it from waiting to running. */
  lemma StartOneKeepsValid(r: TileLoader, l: TileLoader, started: seq<TileId>, id: TileId)
    requires Valid(r) && |r.queue| > 0 && id == r.queue[0]
    requires l.queue == started + r.queue
    requires |r.active| == |l.active| + |started|
    ensures var r' := r.(active := r.active[id := RequestUrl(r.server, id)], queue := r.queue[1..]);
      && Valid(r')
      && l.queue == (started + [id]) + r'.queue
      && |r'.active| == |l.active| + |started + [id]|
  {
    StartOneValid(r, id);
    assert id !in r.active by {
      assert id in r.queue;
    }
    assert l.queue == (started + [id]) + r.queue[1..] by {
      assert r.queue == [id] + r.queue[1..];
    }
  }

  /** Adding a download that is not running yet to the running map, each
      started download mapped to `url` of its id. */
  lemma StartOneActive<V>(act: map<TileId, V>, base: map<TileId, V>, started: seq<TileId>,
                          id: TileId, url: TileId -> V)
    requires id !in act
    requires forall k :: k in act <==> k in base || k in started
    requires forall k :: k in base ==> act[k] == base[k]
    requires forall k :: k in started ==> act[k] == url(k)
    requires |act| == |base| + |started|
    ensures var act' := act[id := url(id)];
      && (forall k :: k in act' <==> k in base || k in started + [id])
      && (forall k :: k in base ==> act'[k] == base[k])
      && (forall k :: k in started + [id] ==> act'[k] == url(k))
      && |act'| == |base| + |started + [id]|
  {
    assert id !in base && id !in started;
    assert |act[id := url(id)]| == |act| + 1 by {
      assert act[id := url(id)].Keys == act.Keys + {id};
    }
  }

  /** The loader after starting its front download is still valid. */
  lemma StartOneValid(r: TileLoader, id: TileId)
    requires Valid(r) && |r.queue| > 0 && id == r.queue[0]
    ensures Valid(r.(active := r.active[id := RequestUrl(r.server, id)], queue := r.queue[1..]))
  {
    var act := r.active[id := RequestUrl(r.server, id)];
    var q := r.queue[1..];
    PopFront(r.queue);
    assert r.queue == [id] + q;
    assert forall x :: x in r.queue <==> x == id || x in q;
    assert forall x :: x in act <==> x == id || x in r.active;
  }

  // ---------------------------------------------------------------------
  // The spawned download task

  /** What an HTTP exchange produced: no response at all, or a status and
      the body (absent when reading it failed). */
  datatype HttpOutcome =
    | SendFailed
    | Response(status: nat, body: Option<seq<Byte>>)

  /** The classification in the spawned task: a 2xx status with a body is
      the bytes, 404 is `NotFound`, everything else is `DownloadFailed`. */
  function ClassifyResponse(o: HttpOutcome): (r: Result<seq<Byte>, TileError>)
    ensures r.Ok? <==> o.Response? && 200 <= o.status < 300 && o.body.Some?
    ensures r.Ok? ==> r.value == o.body.value
    ensures r.Err? ==> r.error == NotFound || r.error == DownloadFailed
    ensures r == Err(NotFound) <==> o.Response? && o.status == 404
  {
    match o
    case SendFailed => Err(DownloadFailed)
    case Response(status, body) =>
      if 200 <= status < 300 then
        (match body
         case Some(bytes) => Ok(bytes)
         case None => Err(DownloadFailed))
      else if status == 404 then Err(NotFound)
      else Err(DownloadFailed)
  }

  // ---------------------------------------------------------------------
  // process_completed_downloads

  /** `TileLoader::process_completed_downloads`. `finished` maps each
      download that has completed to its result (the outcome of polling
      its task). Exactly the finished running downloads are reported and
      forgotten, in both the active map and the pending set. The source
      reports them in hash-map order; here they are a map. */
  function ProcessCompleted(l: TileLoader, finished: map<TileId, Result<seq<Byte>, TileError>>)
    : (r: (TileLoader, map<TileId, Result<seq<Byte>, TileError>>))
    ensures forall id :: id in r.1 <==> id in l.active && id in finished
    ensures forall id :: id in r.1 ==> r.1[id] == finished[id]
    ensures r.0.active.Keys == l.active.Keys - r.1.Keys
    ensures forall id :: id in r.0.active ==> r.0.active[id] == l.active[id]
    ensures r.0.pending == l.pending - r.1.Keys
    ensures r.0.queue == l.queue && r.0.server == l.server
    ensures Valid(l) ==> Valid(r.0)
  {
    var done := map id | id in l.active && id in finished :: finished[id];
    var r := l.(active := map id | id in l.active && id !in done :: l.active[id],
                pending := l.pending - done.Keys);
    assert Valid(l) ==> Valid(r) by {
      if Valid(l) {
        assert forall id :: id in r.active <==> id in l.active && id !in done;
      }
    }
    (r, done)
  }

  /** Downloads still running after processing are exactly the unfinished ones. */
  lemma UnfinishedUntouched(l: TileLoader, finished: map<TileId, Result<seq<Byte>, TileError>>, id: TileId)
    requires Valid(l) && id in l.active && id !in finished
    ensures var r := ProcessCompleted(l, finished).0;
      id in r.active && r.active[id] == l.active[id] && IsPending(r, id)
  {
  }

  /** `TileLoader::clear_queue`: the waiting ids stop being pending;
      running downloads stay pending. */
  function ClearQueue(l: TileLoader): (r: TileLoader)
    ensures r.queue == [] && r.active == l.active && r.server == l.server
    ensures r.pending == l.pending - Elements(l.queue)
    ensures Valid(l) ==> Valid(r) && r.pending == l.active.Keys
  {
    var r := l.(queue := [], pending := l.pending - Elements(l.queue));
    assert forall x :: x in Elements(l.queue) <==> x in l.queue;
    r
  }
}

=== FILE: numeric.dfy ===
/** Machine integer widths, powers of two and the small facts about shifts
    that the tile arithmetic relies on. A Rust `a >> k` on a non-negative
    value is `a / Pow2(k)`, `a << k` is `a * Pow2(k)` (when it does not
    overflow) and `a & 1` is `a % 2`. */
module Numeric {

  /** Rust `u8`. */
  type U8 = n: int | 0 <= n < 0x100

  /** Rust `u32`. */
  type U32 = n: int | 0 <= n < 0x1_0000_0000

  /** Rust `i32`. */
  type I32 = n: int | -0x8000_0000 <= n < 0x8000_0000

  /** Raw bytes of an (encoded) tile image. */
  type Byte = b: int | 0 <= b < 0x100

  function Pow2(n: nat): (r: nat)
    ensures r >= 1
  {
    if n == 0 then 1 else 2 * Pow2(n - 1)
  }

  /** `v.clamp(lo, hi)` for integers. */
  function Clamp(v: int, lo: int, hi: int): (r: int)
    requires lo <= hi
    ensures lo <= r <= hi
    ensures lo <= v <= hi ==> r == v
    ensures v < lo ==> r == lo
    ensures v > hi ==> r == hi
  {
    if v < lo then lo else if v > hi then hi else v
  }

  function Abs(v: int): (r: nat)
    ensures r == v || r == -v
  {
    if v < 0 then -v else v
  }

  lemma {:induction false} Pow2Add(a: nat, b: nat)
    ensures Pow2(a + b) == Pow2(a) * Pow2(b)
    decreases a
  {
    if a == 0 {
    } else {
      Pow2Add(a - 1, b);
      assert Pow2(a + b) == 2 * Pow2(a - 1 + b);
    }
  }

  /** The powers of two the model's bounds mention. */
  lemma Pow2Table()
    ensures Pow2(1) == 2 && Pow2(2) == 4 && Pow2(4) == 16 && Pow2(8) == 0x100
    ensures Pow2(15) == 0x8000 && Pow2(16) == 0x1_0000 && Pow2(17) == 0x2_0000
    ensures Pow2(19) == 0x8_0000 && Pow2(30) == 0x4000_0000 && Pow2(31) == 0x8000_0000
    ensures Pow2(32) == 0x1_0000_0000
  {
    assert Pow2(2) == 4;
    Pow2Add(2, 2);
    Pow2Add(4, 4);
    Pow2Add(8, 8);
    Pow2Add(16, 16);
    Pow2Add(15, 1);
    Pow2Add(16, 1);
    Pow2Add(16, 3);
    Pow2Add(30, 2);
    Pow2Add(31, 1);
  }

  /** Powers of two up to 2^32 fit the widths they are stored in. */
  lemma Pow2Bounded(n: nat, m: nat)
    requires n <= m <= 32
    ensures Pow2(n) <= Pow2(m) <= 0x1_0000_0000
  {
    Pow2Monotone(n, m);
    Pow2Monotone(m, 32);
    Pow2Table();
  }

  lemma {:induction false} Pow2Monotone(a: nat, b: nat)
    requires a <= b
    ensures Pow2(a) <= Pow2(b)
    decreases b
  {
    if a < b {
      Pow2Monotone(a, b - 1);
    }
  }

  lemma MulMono(a: int, b: int, c: int)
    requires a >= b && c >= 0
    ensures a * c >= b * c
  {}

  lemma SubMul(a: int, b: int, c: int)
    ensures (a - b) * c == a * c - b * c
  {}

  /** Quotient and remainder are determined by x == q * d + r with 0 <= r < d. */
  lemma DivUnique(x: int, d: int, q: int, r: int)
    requires d > 0 && 0 <= r < d && x == q * d + r
    ensures x / d == q && x % d == r
  {
    var q' := x / d;
    var r' := x % d;
    assert x == q' * d + r' && 0 <= r' < d;
    SubMul(q', q, d);
    if q' > q {
      MulMono(q' - q, 1, d);
      assert false;
    } else if q' < q {
      SubMul(q, q', d);
      MulMono(q - q', 1, d);
      assert false;
    }
  }

  /** Two successive divisions are one division by the product. */
  lemma DivDiv(x: nat, a: nat, b: nat)
    requires a > 0 && b > 0
    ensures x / a / b == x / (a * b)
  {
    var q := x / a;
    var r0 := x % a;
    var q2 := q / b;
    var r1 := q % b;
    assert x == q * a + r0;
    assert q == q2 * b + r1;
    var r := r1 * a + r0;
    assert r1 * a <= (b - 1) * a by { MulMono(b - 1, r1, a); }
    assert (b - 1) * a == a * b - a by { SubMul(b, 1, a); }
    assert 0 <= r < a * b;
    assert x == q2 * (a * b) + r by {
      assert q * a == (q2 * b + r1) * a;
      assert (q2 * b + r1) * a == q2 * (a * b) + r1 * a;
    }
    DivUnique(x, a * b, q2, r);
  }

  /** Shifting right by k+1 is shifting right by k and then by one. */
  lemma DivPow2Succ(x: nat, k: nat)
    ensures x / Pow2(k + 1) == (x / Pow2(k)) / 2
  {
    DivDiv(x, Pow2(k), 2);
    assert Pow2(k + 1) == Pow2(k) * 2;
  }

  /** Shifting right by a and then by b is shifting right by a + b. */
  lemma DivPow2Add(x: nat, a: nat, b: nat)
    ensures x / Pow2(a) / Pow2(b) == x / Pow2(a + b)
  {
    DivDiv(x, Pow2(a), Pow2(b));
    Pow2Add(a, b);
  }

  /** The bit at position k sits between the value shifted by k+1 and the value shifted by k. */
  lemma SplitLowBit(x: nat, k: nat)
    ensures x / Pow2(k) == 2 * (x / Pow2(k + 1)) + (x / Pow2(k)) % 2
  {
    DivPow2Succ(x, k);
  }

  /** Shifting right never increases a value. */
  lemma {:induction false} DivPow2Le(x: nat, n: nat)
    ensures 0 <= x / Pow2(n) <= x
    decreases n
  {
    if n == 0 {
      DivUnique(x, 1, x, 0);
    } else {
      DivPow2Le(x, n - 1);
      DivPow2Succ(x, n - 1);
    }
  }

  /** `x >> n` on an unsigned value. */
  function Shr(x: nat, n: nat): (r: nat)
    ensures r <= x
  {
    DivPow2Le(x, n);
    x / Pow2(n)
  }

  /** x < 2^n exactly when shifting right by n leaves nothing. */
  lemma DivPow2Zero(x: nat, n: nat)
    ensures x < Pow2(n) <==> x / Pow2(n) == 0
  {
    var p := Pow2(n);
    if x < p {
      DivUnique(x, p, 0, x);
    }
    if x / p == 0 {
      assert x == (x / p) * p + x % p;
    }
  }

  /** A quotient is below b when the dividend is below b times the divisor. */
  lemma QuotientBelow(x: int, p: int, b: int)
    requires p > 0 && 0 <= x < b * p
    ensures x / p < b
  {
    var q := x / p;
    assert q * p <= x;
    if q >= b {
      MulMono(q, b, p);
    }
  }

  /** x / 2^n is below 2^m when x is below 2^(n+m). */
  lemma DivPow2Bound(x: nat, n: nat, m: nat)
    requires x < Pow2(n + m)
    ensures x / Pow2(n) < Pow2(m)
  {
    Pow2Add(m, n);
    QuotientBelow(x, Pow2(n), Pow2(m));
  }

  /** The block [s * 2^n, s * 2^n + 2^n - 1] is exactly the set of values whose shift by n is s. */
  lemma BlockDiv(x: nat, s: nat, n: nat)
    ensures (s * Pow2(n) <= x <= s * Pow2(n) + Pow2(n) - 1) <==> x / Pow2(n) == s
  {
    var p := Pow2(n);
    if s * p <= x <= s * p + p - 1 {
      DivUnique(x, p, s, x - s * p);
    }
    if x / p == s {
      assert x == s * p + x % p;
    }
  }
}

/** The Option and Result values the source returns. */
module Wrappers {

  datatype Option<T> = None | Some(value: T)

  datatype Result<T, E> = Ok(value: T) | Err(error: E)
}

/** Sequence helpers shared by the queues of the model. */
module Seqs {

  predicate NoDuplicates<T(==)>(s: seq<T>) {
    forall i, j :: 0 <= i < j < |s| ==> s[i] != s[j]
  }

  function Elements<T>(s: seq<T>): set<T> {
    set x | x in s
  }

  /** Appending one value adds exactly that value to the elements. */
  lemma ElementsAppend<T>(s: seq<T>, x: T)
    ensures Elements(s + [x]) == Elements(s) + {x}
  {
    assert forall y :: y in s + [x] <==> y in s || y == x;
  }

  /** A duplicate-free sequence has as many elements as its set. */
  lemma {:induction false} NoDuplicatesCard<T>(s: seq<T>)
    requires NoDuplicates(s)
    ensures |Elements(s)| == |s|
  {
    if |s| > 0 {
      var t := s[1..];
      assert NoDuplicates(t) by {
        forall i, j | 0 <= i < j < |t| ensures t[i] != t[j] {
          assert t[i] == s[i + 1] && t[j] == s[j + 1];
        }
      }
      NoDuplicatesCard(t);
      assert s[0] !in t by {
        forall k | 0 <= k < |t| ensures t[k] != s[0] {
          assert t[k] == s[k + 1];
        }
      }
      assert Elements(s) == Elements(t) + {s[0]} by {
        assert s == [s[0]] + t;
      }
    }
  }
}

=== FILE: osm_tile.dfy ===
/** The wired-in pipeline's tile address (`OSMTile`): the URL it is fetched
    from and the file it is cached under, both spelled `{z}/{x}/{y}` in
    decimal. Creating the cache directory is a file-system effect and is not
    part of the path. */
module OsmTiles {
  import opened Numeric
  import opened Decimal

  /** The OpenStreetMap tile host; `OSMTile::get_url` asks its `a.` mirror. */
  const OSM_HOST: string := "tile.openstreetmap.org"
  const URL_PREFIX: string := "https://a." + OSM_HOST + "/"
  const CACHE_DIR: string := "tile_cache"
  const PNG: string := ".png"

  datatype OsmTile = OsmTile(x: U32, y: U32, z: U32)

  /** `OSMTile::new`. */
  function NewOsmTile(x: U32, y: U32, z: U32): (t: OsmTile)
    ensures t.x == x && t.y == y && t.z == z
  {
    OsmTile(x, y, z)
  }

  /** `OSMTile::get_url`: the tile server prefix, then `{z}/{x}/{y}.png`,
      which is also where the tile sits inside the cache directory. */
  function Url(t: OsmTile): (u: string)
    ensures u == URL_PREFIX + CachePath(t)[|CACHE_DIR| + 1..]
  {
    assert CachePath(t)[|CACHE_DIR| + 1..] == Segments(t.z, t.x, t.y) + PNG;
    URL_PREFIX + Segments(t.z, t.x, t.y) + PNG
  }

  /** `OSMTile::get_cache_path`: `tile_cache`, then the zoom and x
      directories, then `{y}.png`, joined by `/`. */
  function CachePath(t: OsmTile): (p: string)
    ensures p == CACHE_DIR + "/" + Segments(t.z, t.x, t.y) + PNG
  {
    CACHE_DIR + "/" + NatToString(t.z) + "/" + NatToString(t.x) + "/" + NatToString(t.y) + PNG
  }

  /** Two tiles share a URL exactly when they are the same tile. */
  lemma UrlInjective(a: OsmTile, b: OsmTile)
    ensures Url(a) == Url(b) <==> a == b
  {
    AffixInjective(URL_PREFIX, Segments(a.z, a.x, a.y), Segments(b.z, b.x, b.y), PNG);
    SegmentsInjective(a.z, a.x, a.y, b.z, b.x, b.y);
  }

  /** Two tiles share a cache file exactly when they are the same tile. */
  lemma CachePathInjective(a: OsmTile, b: OsmTile)
    ensures CachePath(a) == CachePath(b) <==> a == b
  {
    AffixInjective(CACHE_DIR + "/", Segments(a.z, a.x, a.y), Segments(b.z, b.x, b.y), PNG);
    SegmentsInjective(a.z, a.x, a.y, b.z, b.x, b.y);
  }

  /** `OSMTile::clone`. */
  function Clone(t: OsmTile): (c: OsmTile)
    ensures c.x == t.x && c.y == t.y && c.z == t.z
  {
    OsmTile(t.x, t.y, t.z)
  }

  /** A clone is fetched from and cached under the same names. */
  lemma CloneSameAddress(t: OsmTile)
    ensures Url(Clone(t)) == Url(t) && CachePath(Clone(t)) == CachePath(t)
  {
  }
}

=== FILE: quadtree_node.dfy ===
/** The nodes of the tile quadtree (`QuadTreeNode`): a tile id, an optional
    block of exactly four children, and the visible/loaded flags. Also the
    root-to-tile path and the insertion of a loaded or failed tile along it. */
module QuadNodes {
  import opened Numeric
  import opened Wrappers
  import opened TileIds

  datatype Node = Node(id: TileId, children: Option<Quad>, visible: bool, loaded: bool)

  /** `Box<[QuadTreeNode; 4]>`, in `TileId::children` order. */
  datatype Quad = Quad(c0: Node, c1: Node, c2: Node, c3: Node)

  function Child(q: Quad, i: nat): Node
    requires i < 4
  {
    if i == 0 then q.c0 else if i == 1 then q.c1 else if i == 2 then q.c2 else q.c3
  }

  /** The block with child `i` replaced by `m`. */
  function WithChild(q: Quad, i: nat, m: Node): (r: Quad)
    requires i < 4
    ensures Child(r, i) == m
    ensures forall j :: 0 <= j < 4 && j != i ==> Child(r, j) == Child(q, j)
  {
    if i == 0 then q.(c0 := m) else if i == 1 then q.(c1 := m) else if i == 2 then q.(c2 := m) else q.(c3 := m)
  }

  /** `QuadTreeNode::new`. */
  function NewNode(id: TileId): (n: Node)
    ensures n.id == id && n.children.None? && !n.visible && !n.loaded
  {
    Node(id, None, false, false)
  }

  /** `QuadTreeNode::subdivide`: a no-op when children exist, otherwise four
      fresh nodes with the ids of `TileId::children`. Computing those ids must
      not overflow. */
  function Subdivide(n: Node): (r: Node)
    requires n.children.Some? || CanSubdivide(n.id)
    ensures n.children.Some? ==> r == n
    ensures r.id == n.id && r.visible == n.visible && r.loaded == n.loaded
    ensures r.children.Some?
    ensures n.children.None? ==>
      forall i :: 0 <= i < 4 ==> Child(r.children.value, i) == NewNode(Children(n.id)[i])
  {
    if n.children.Some? then n
    else
      var ids := Children(n.id);
      n.(children := Some(Quad(NewNode(ids[0]), NewNode(ids[1]), NewNode(ids[2]), NewNode(ids[3]))))
  }

  /** `QuadTreeNode::merge`: drops the whole subtree below the node. */
  function Merge(n: Node): (r: Node)
    ensures r.children.None?
    ensures r.id == n.id && r.visible == n.visible && r.loaded == n.loaded
    ensures Ids(r) == {n.id}
  {
    n.(children := None)
  }

  // ---------------------------------------------------------------------
  // The ids held in a subtree

  /** Which nodes of a subtree a set of ids collects. */
  datatype Mark = AnyNode | VisibleNode | LoadedNode

  predicate Has(n: Node, k: Mark) {
    match k
    case AnyNode => true
    case VisibleNode => n.visible
    case LoadedNode => n.loaded
  }

  /** The ids of the nodes of the subtree at `n` that carry mark `k`. */
  function Marked(n: Node, k: Mark): set<TileId>
    decreases n
  {
    (if Has(n, k) then {n.id} else {})
    + (if n.children.None? then {} else
         var q := n.children.value;
         Marked(q.c0, k) + Marked(q.c1, k) + Marked(q.c2, k) + Marked(q.c3, k))
  }

  /** The union over a block of children. */
  function QuadMarked(q: Quad, k: Mark): set<TileId> {
    Marked(q.c0, k) + Marked(q.c1, k) + Marked(q.c2, k) + Marked(q.c3, k)
  }

  function Ids(n: Node): set<TileId> {
    Marked(n, AnyNode)
  }

  function VisibleIds(n: Node): set<TileId> {
    Marked(n, VisibleNode)
  }

  function LoadedIds(n: Node): set<TileId> {
    Marked(n, LoadedNode)
  }

  /** A node with children holds its own id (when marked) and the union over its block. */
  lemma MarkedSplit(n: Node, k: Mark)
    requires n.children.Some?
    ensures Marked(n, k) == (if Has(n, k) then {n.id} else {}) + QuadMarked(n.children.value, k)
  {
  }

  /** Replacing one child changes the ids of the node by what changes in
      that child. */
  lemma ReplaceChild(s: Node, i: nat, m: Node, k: Mark, extra: set<TileId>)
    requires s.children.Some? && i < 4
    requires Marked(m, k) == Marked(Child(s.children.value, i), k) + extra
    ensures Marked(s.(children := Some(WithChild(s.children.value, i, m))), k) == Marked(s, k) + extra
  {
    var q := s.children.value;
    var q' := WithChild(q, i, m);
    MarkedSplit(s, k);
    MarkedSplit(s.(children := Some(q')), k);
    assert Child(q, 0) == q.c0 && Child(q, 1) == q.c1 && Child(q, 2) == q.c2 && Child(q, 3) == q.c3;
    assert Child(q', 0) == q'.c0 && Child(q', 1) == q'.c1 && Child(q', 2) == q'.c2 && Child(q', 3) == q'.c3;
  }

  /** A fresh block of children holds no visible and no loaded node. */
  lemma FreshChildrenUnmarked(n: Node)
    requires n.children.None? && CanSubdivide(n.id)
    ensures VisibleIds(Subdivide(n)) == VisibleIds(n)
    ensures LoadedIds(Subdivide(n)) == LoadedIds(n)
    ensures Ids(n) <= Ids(Subdivide(n))
  {
    var s := Subdivide(n);
    var q := s.children.value;
    assert Child(q, 0) == q.c0 && Child(q, 1) == q.c1 && Child(q, 2) == q.c2 && Child(q, 3) == q.c3;
    forall k | k == VisibleNode || k == LoadedNode
      ensures Marked(s, k) == Marked(n, k)
    {
      assert Marked(q.c0, k) == {} && Marked(q.c1, k) == {};
      assert Marked(q.c2, k) == {} && Marked(q.c3, k) == {};
      MarkedSplit(s, k);
    }
  }

  // ---------------------------------------------------------------------
  // Well-formed trees

  /** Every node addresses a grid cell at zoom at most 32, and the children
      of a node carry exactly `TileId::children` of its id, in order. */
  predicate WellFormed(n: Node)
    decreases n
  {
    && ValidId(n.id)
    && n.id.zoom <= 32
    && (n.children.Some? ==>
          && CanSubdivide(n.id)
          && n.id.zoom < 32
          && var q := n.children.value;
          && var ids := Children(n.id);
          && q.c0.id == ids[0] && q.c1.id == ids[1] && q.c2.id == ids[2] && q.c3.id == ids[3]
          && WellFormed(q.c0) && WellFormed(q.c1) && WellFormed(q.c2) && WellFormed(q.c3))
  }

  lemma ChildWellFormed(n: Node, i: nat)
    requires WellFormed(n) && n.children.Some? && i < 4
    ensures WellFormed(Child(n.children.value, i))
    ensures Child(n.children.value, i).id == Children(n.id)[i]
  {
  }

  /** Subdividing a well-formed node keeps it well-formed. */
  lemma SubdivideWellFormed(n: Node)
    requires WellFormed(n) && n.id.zoom < 32
    ensures CanSubdivide(n.id)
    ensures WellFormed(Subdivide(n))
  {
    ValidCanSubdivide(n.id);
    if n.children.None? {
      ChildrenValid(n.id);
      var q := Subdivide(n).children.value;
      assert Child(q, 0) == q.c0 && Child(q, 1) == q.c1 && Child(q, 2) == q.c2 && Child(q, 3) == q.c3;
    }
  }

  /** Every id held in a well-formed subtree is a valid descendant of the
      subtree's root. */
  lemma {:induction false} IdsDescend(n: Node, t: TileId)
    requires WellFormed(n) && t in Ids(n)
    ensures IsAncestorOrSelf(n.id, t) && ValidId(t) && t.zoom <= 32
    decreases n
  {
    if t != n.id {
      var q := n.children.value;
      var i :| 0 <= i < 4 && t in Ids(Child(q, i)) by {
        assert Child(q, 0) == q.c0 && Child(q, 1) == q.c1 && Child(q, 2) == q.c2 && Child(q, 3) == q.c3;
      }
      ChildWellFormed(n, i);
      IdsDescend(Child(q, i), t);
      ChildIsDescendant(n.id, i);
      AncestorTransitive(n.id, Child(q, i).id, t);
    }
  }

  lemma MarkedAreIds(n: Node, k: Mark)
    ensures Marked(n, k) <= Ids(n)
    decreases n
  {
    if n.children.Some? {
      var q := n.children.value;
      MarkedAreIds(q.c0, k);
      MarkedAreIds(q.c1, k);
      MarkedAreIds(q.c2, k);
      MarkedAreIds(q.c3, k);
    }
  }

  // ---------------------------------------------------------------------
  // Paths from the root

  /** `get_path_to_tile`: for each zoom step `cz` in 1..=zoom the child index
      `(qy << 1) | qx`, where `qx`, `qy` are bit `zoom - cz` of `x` and `y`.
      A shift by 32 or more panics on `u32`, hence zoom <= 32. */
  function PathToTile(id: TileId): (p: seq<nat>)
    requires id.zoom <= 32
    ensures |p| == id.zoom
    ensures forall k :: 0 <= k < |p| ==> p[k] < 4
  {
    seq(id.zoom, k requires 0 <= k < id.zoom =>
      var shift := id.zoom - (k + 1);
      2 * (Shr(id.y, shift) % 2) + Shr(id.x, shift) % 2)
  }

  predicate IsPath(p: seq<nat>) {
    forall k :: 0 <= k < |p| ==> p[k] < 4
  }

  /** The tile reached by following child indices from `t`. */
  function Walk(t: TileId, p: seq<nat>): (r: TileId)
    requires ValidId(t) && t.zoom + |p| <= 32 && IsPath(p)
    ensures ValidId(r) && r.zoom == t.zoom + |p|
    decreases |p|
  {
    if |p| == 0 then t
    else
      ValidCanSubdivide(t);
      ChildrenValid(t);
      Walk(Children(t)[p[0]], p[1..])
  }

  /** The path's entry at step k is the quadrant of the ancestor at zoom k + 1. */
  lemma PathEntry(id: TileId, k: nat)
    requires id.zoom <= 32 && k < id.zoom
    ensures PathToTile(id)[k] == Quadrant(AncestorAt(id, k + 1))
  {
  }

  /** Following the path of a tile in the grid from the root reaches that tile. */
  lemma PathReachesTile(id: TileId)
    requires ValidId(id) && id.zoom <= 32
    ensures Walk(TileId(0, 0, 0), PathToTile(id)) == id
  {
    WalkFromAncestor(id, 0);
    var p := PathToTile(id);
    assert p[0..] == p;
    assert AncestorAt(id, 0) == TileId(0, 0, 0) by {
      DivPow2Zero(id.x, id.zoom);
      DivPow2Zero(id.y, id.zoom);
    }
  }

  lemma {:induction false} WalkFromAncestor(id: TileId, k: nat)
    requires ValidId(id) && id.zoom <= 32 && k <= id.zoom
    ensures ValidId(AncestorAt(id, k))
    ensures Walk(AncestorAt(id, k), PathToTile(id)[k..]) == id
    decreases id.zoom - k
  {
    var a := AncestorAt(id, k);
    var p := PathToTile(id)[k..];
    if k == id.zoom {
      DivUnique(id.x, 1, id.x, 0);
      DivUnique(id.y, 1, id.y, 0);
      assert a == id;
    } else {
      ChildOnPath(id, k);
      PathEntry(id, k);
      WalkFromAncestor(id, k + 1);
      assert p[1..] == PathToTile(id)[k + 1..];
    }
  }

  lemma PathOfValidTile(id: TileId)
    requires id.zoom <= 32
    ensures ValidId(id) ==> Walk(TileId(0, 0, 0), PathToTile(id)) == id
  {
    if ValidId(id) {
      PathReachesTile(id);
    }
  }

  /** Distinct tiles of the grid have distinct paths. */
  lemma PathInjective(a: TileId, b: TileId)
    requires ValidId(a) && a.zoom <= 32 && ValidId(b) && b.zoom <= 32
    ensures PathToTile(a) == PathToTile(b) <==> a == b
  {
    if PathToTile(a) == PathToTile(b) {
      PathReachesTile(a);
      PathReachesTile(b);
    }
  }

  // ---------------------------------------------------------------------
  // insert_tile / insert_failed_tile

  /** Walks `path` from `n`, subdividing where children are missing, and at
      the end sets the loaded flag when `mark` holds. */
  function InsertAlong(n: Node, path: seq<nat>, mark: bool): (r: Node)
    requires WellFormed(n) && n.id.zoom + |path| <= 32 && IsPath(path)
    ensures WellFormed(r) && r.id == n.id
    ensures Ids(n) + {Walk(n.id, path)} <= Ids(r)
    ensures VisibleIds(r) == VisibleIds(n)
    ensures mark ==> LoadedIds(r) == LoadedIds(n) + {Walk(n.id, path)}
    ensures !mark ==> LoadedIds(r) == LoadedIds(n)
    decreases |path|
  {
    if |path| == 0 then
      if mark then n.(loaded := true) else n
    else
      SubdivideKeepsMarks(n);
      var s := Subdivide(n);
      var i := path[0];
      ChildWellFormed(s, i);
      var c := Child(s.children.value, i);
      var m := InsertAlong(c, path[1..], mark);
      assert Walk(n.id, path) == Walk(c.id, path[1..]);
      var r := s.(children := Some(WithChild(s.children.value, i, m)));
      InsertAlongStep(n, s, i, m, mark, Walk(n.id, path), r);
      ReplaceChildWellFormed(s, i, m);
      r
  }

  /** Subdividing a well-formed node below zoom 32 keeps it well-formed and
      adds neither visible nor loaded ids. */
  lemma SubdivideKeepsMarks(n: Node)
    requires WellFormed(n) && n.id.zoom < 32
    ensures CanSubdivide(n.id)
    ensures WellFormed(Subdivide(n))
    ensures VisibleIds(Subdivide(n)) == VisibleIds(n)
    ensures LoadedIds(Subdivide(n)) == LoadedIds(n)
    ensures Ids(n) <= Ids(Subdivide(n))
  {
    SubdivideWellFormed(n);
    if n.children.None? {
      FreshChildrenUnmarked(n);
    }
  }

  /** Replacing a child by a well-formed subtree with the same root id keeps
      the node well-formed. */
  lemma ReplaceChildWellFormed(s: Node, i: nat, m: Node)
    requires WellFormed(s) && s.children.Some? && i < 4
    requires WellFormed(m) && m.id == Child(s.children.value, i).id
    ensures WellFormed(s.(children := Some(WithChild(s.children.value, i, m))))
  {
  }

  lemma InsertAlongStep(n: Node, s: Node, i: nat, m: Node, mark: bool, w: TileId, r: Node)
    requires i < 4 && s.children.Some?
    requires r == s.(children := Some(WithChild(s.children.value, i, m)))
    requires VisibleIds(s) == VisibleIds(n) && LoadedIds(s) == LoadedIds(n) && Ids(n) <= Ids(s)
    requires Ids(Child(s.children.value, i)) + {w} <= Ids(m)
    requires VisibleIds(m) == VisibleIds(Child(s.children.value, i))
    requires mark ==> LoadedIds(m) == LoadedIds(Child(s.children.value, i)) + {w}
    requires !mark ==> LoadedIds(m) == LoadedIds(Child(s.children.value, i))
    ensures Ids(n) + {w} <= Ids(r)
    ensures VisibleIds(r) == VisibleIds(n)
    ensures mark ==> LoadedIds(r) == LoadedIds(n) + {w}
    ensures !mark ==> LoadedIds(r) == LoadedIds(n)
  {
    StepIds(n, s, i, m, w, r);
    StepVisible(n, s, i, m, r);
    StepLoaded(n, s, i, m, mark, w, r);
  }

  lemma StepIds(n: Node, s: Node, i: nat, m: Node, w: TileId, r: Node)
    requires i < 4 && s.children.Some?
    requires r == s.(children := Some(WithChild(s.children.value, i, m)))
    requires Ids(n) <= Ids(s) && Ids(Child(s.children.value, i)) + {w} <= Ids(m)
    ensures Ids(n) + {w} <= Ids(r)
  {
    var c := Child(s.children.value, i);
    assert Ids(m) == Ids(c) + Ids(m);
    ReplaceChild(s, i, m, AnyNode, Ids(m));
  }

  lemma StepVisible(n: Node, s: Node, i: nat, m: Node, r: Node)
    requires i < 4 && s.children.Some?
    requires r == s.(children := Some(WithChild(s.children.value, i, m)))
    requires VisibleIds(s) == VisibleIds(n) && VisibleIds(m) == VisibleIds(Child(s.children.value, i))
    ensures VisibleIds(r) == VisibleIds(n)
  {
    var c := Child(s.children.value, i);
    assert VisibleIds(m) == VisibleIds(c) + {};
    ReplaceChild(s, i, m, VisibleNode, {});
  }

  lemma StepLoaded(n: Node, s: Node, i: nat, m: Node, mark: bool, w: TileId, r: Node)
    requires i < 4 && s.children.Some?
    requires r == s.(children := Some(WithChild(s.children.value, i, m)))
    requires LoadedIds(s) == LoadedIds(n)
    requires mark ==> LoadedIds(m) == LoadedIds(Child(s.children.value, i)) + {w}
    requires !mark ==> LoadedIds(m) == LoadedIds(Child(s.children.value, i))
    ensures mark ==> LoadedIds(r) == LoadedIds(n) + {w}
    ensures !mark ==> LoadedIds(r) == LoadedIds(n)
  {
    var c := Child(s.children.value, i);
    if mark {
      ReplaceChild(s, i, m, LoadedNode, {w});
    } else {
      assert LoadedIds(m) == LoadedIds(c) + {};
      ReplaceChild(s, i, m, LoadedNode, {});
    }
  }

  /** `TileQuadtree::insert_tile` from the root: the node on the tile's path
      ends up loaded, every existing node keeps its loaded flag, and no
      visibility flag changes. */
  function InsertTile(root: Node, id: TileId): (r: Node)
    requires WellFormed(root) && root.id == TileId(0, 0, 0) && id.zoom <= 32
    ensures WellFormed(r) && r.id == root.id
    ensures ValidId(id) ==> id in Ids(r)
    ensures ValidId(id) ==> LoadedIds(r) == LoadedIds(root) + {id}
    ensures Ids(root) <= Ids(r) && VisibleIds(r) == VisibleIds(root)
  {
    PathOfValidTile(id);
    InsertAlong(root, PathToTile(id), true)
  }

  /** `TileQuadtree::insert_failed_tile`: builds the same path but sets no flag. */
  function InsertFailedTile(root: Node, id: TileId): (r: Node)
    requires WellFormed(root) && root.id == TileId(0, 0, 0) && id.zoom <= 32
    ensures WellFormed(r) && r.id == root.id
    ensures ValidId(id) ==> id in Ids(r)
    ensures LoadedIds(r) == LoadedIds(root)
    ensures Ids(root) <= Ids(r) && VisibleIds(r) == VisibleIds(root)
  {
    PathOfValidTile(id);
    InsertAlong(root, PathToTile(id), false)
  }

  // ---------------------------------------------------------------------
  // update_loaded_state

  /** The tree with every loaded flag cleared: its shape and visibility. */
  function Unloaded(n: Node): Node
    decreases n
  {
    var kids := if n.children.None? then None else
      var q := n.children.value;
      Some(Quad(Unloaded(q.c0), Unloaded(q.c1), Unloaded(q.c2), Unloaded(q.c3)));
    n.(loaded := false, children := kids)
  }

  /** Clearing the loaded flags keeps ids, visibility and well-formedness. */
  lemma UnloadedKeepsShape(n: Node)
    ensures Ids(Unloaded(n)) == Ids(n) && VisibleIds(Unloaded(n)) == VisibleIds(n)
    ensures WellFormed(Unloaded(n)) == WellFormed(n)
    decreases n
  {
    if n.children.Some? {
      var q := n.children.value;
      UnloadedKeepsShape(q.c0);
      UnloadedKeepsShape(q.c1);
      UnloadedKeepsShape(q.c2);
      UnloadedKeepsShape(q.c3);
    }
  }

  /** Trees that differ only in loaded flags hold the same ids, the same
      visible ids, and are well-formed together. */
  lemma SameShape(a: Node, b: Node)
    requires Unloaded(a) == Unloaded(b)
    ensures Ids(a) == Ids(b) && VisibleIds(a) == VisibleIds(b)
    ensures WellFormed(a) == WellFormed(b)
  {
    UnloadedKeepsShape(a);
    UnloadedKeepsShape(b);
  }

  /** `update_node_loaded_state`: every node's flag becomes membership of its
      id in `loaded`; shape and visibility stay as they are. */
  function UpdateLoadedState(n: Node, loaded: set<TileId>): (r: Node)
    ensures Unloaded(r) == Unloaded(n)
    ensures LoadedIds(r) == Ids(n) * loaded
    decreases n
  {
    if n.children.None? then n.(loaded := n.id in loaded)
    else
      var q := n.children.value;
      var q' := Quad(UpdateLoadedState(q.c0, loaded), UpdateLoadedState(q.c1, loaded),
                     UpdateLoadedState(q.c2, loaded), UpdateLoadedState(q.c3, loaded));
      var r := n.(loaded := n.id in loaded, children := Some(q'));
      MarkedSplit(r, LoadedNode);
      MarkedSplit(n, AnyNode);
      UnionMeet(Ids(q.c0), Ids(q.c1), Ids(q.c2), Ids(q.c3), loaded);
      r
  }

  /** Intersection distributes over a union of four. */
  lemma UnionMeet<T>(a: set<T>, b: set<T>, c: set<T>, d: set<T>, s: set<T>)
    ensures (a + b + c + d) * s == a * s + b * s + c * s + d * s
  {
  }

  // ---------------------------------------------------------------------
  // reset_node_visibility

  /** `reset_node_visibility`: clears every visible flag, nothing else. */
  function ResetVisibility(n: Node): (r: Node)
    ensures VisibleIds(r) == {}
    ensures Ids(r) == Ids(n) && LoadedIds(r) == LoadedIds(n)
    ensures WellFormed(n) ==> WellFormed(r)
    ensures r.id == n.id && r.children.Some? == n.children.Some?
    decreases n
  {
    var kids := if n.children.None? then None else
      var q := n.children.value;
      Some(Quad(ResetVisibility(q.c0), ResetVisibility(q.c1),
                ResetVisibility(q.c2), ResetVisibility(q.c3)));
    n.(visible := false, children := kids)
  }
}

=== FILE: quadtree_view.dfy ===
/** The `TileQuadtree` resource: its view update (visibility marking driven
    by an opaque intersection test), leaf selection, the set of tiles to
    load, and the height-to-zoom table of the same source file. */
module QuadView {
  import opened Numeric
  import opened Wrappers
  import opened TileIds
  import opened QuadNodes
  import Seqs

  datatype TileQuadtree = TileQuadtree(root: Node, maxZoom: U8, currentZoom: real)

  /** The root is the whole-world tile and the tree is well-formed. */
  predicate Valid(t: TileQuadtree) {
    WellFormed(t.root) && t.root.id == TileId(0, 0, 0)
  }

  /** `TileQuadtree::default`. */
  function DefaultQuadtree(): (t: TileQuadtree)
    ensures Valid(t) && t.root == NewNode(TileId(0, 0, 0))
    ensures t.maxZoom == 18 && t.currentZoom == 0.0
  {
    TileQuadtree(NewNode(TileId(0, 0, 0)), 18, 0.0)
  }

  /** `TileQuadtree::new`: the default tree with another maximum zoom. */
  function NewQuadtree(maxZoom: U8): (t: TileQuadtree)
    ensures Valid(t) && t.maxZoom == maxZoom
    ensures t.root == DefaultQuadtree().root && t.currentZoom == 0.0
  {
    DefaultQuadtree().(maxZoom := maxZoom)
  }

  // ---------------------------------------------------------------------
  // What a view update promises, as structural predicates

  /** Every visible node passes the intersection test. */
  predicate VisibleIntersect(n: Node, intersects: TileId -> bool)
    decreases n
  {
    && (n.visible ==> intersects(n.id))
    && (n.children.Some? ==>
          var q := n.children.value;
          && VisibleIntersect(q.c0, intersects) && VisibleIntersect(q.c1, intersects)
          && VisibleIntersect(q.c2, intersects) && VisibleIntersect(q.c3, intersects))
  }

  /** Every visible child has a visible parent. */
  predicate ParentClosed(n: Node)
    decreases n
  {
    n.children.Some? ==>
      var q := n.children.value;
      && (forall i :: 0 <= i < 4 && Child(q, i).visible ==> n.visible)
      && ParentClosed(q.c0) && ParentClosed(q.c1) && ParentClosed(q.c2) && ParentClosed(q.c3)
  }

  /** A visible node at or past the target zoom has no visible descendant. */
  predicate StopsAtTarget(n: Node, target: nat)
    decreases n
  {
    n.children.Some? ==>
      var q := n.children.value;
      && (n.visible && n.id.zoom >= target ==>
            forall i :: 0 <= i < 4 ==> VisibleIds(Child(q, i)) == {})
      && StopsAtTarget(q.c0, target) && StopsAtTarget(q.c1, target)
      && StopsAtTarget(q.c2, target) && StopsAtTarget(q.c3, target)
  }

  /** A visible node short of the target zoom has children; each child is
      visible exactly when it passes the test, and a child that fails it has
      been merged. */
  predicate Refined(n: Node, intersects: TileId -> bool, target: nat)
    decreases n
  {
    && (n.visible && n.id.zoom < target ==>
          && n.children.Some?
          && forall i :: 0 <= i < 4 ==>
               var c := Child(n.children.value, i);
               && (c.visible <==> intersects(c.id))
               && (!intersects(c.id) ==> c.children.None?))
    && (n.children.Some? ==>
          var q := n.children.value;
          && Refined(q.c0, intersects, target) && Refined(q.c1, intersects, target)
          && Refined(q.c2, intersects, target) && Refined(q.c3, intersects, target))
  }

  /** The node the update starts from is visible exactly when it passes the
      test, and is merged when it fails. */
  predicate StartDecided(n: Node, intersects: TileId -> bool) {
    && (n.visible <==> intersects(n.id))
    && (!intersects(n.id) ==> n.children.None?)
  }

  /** All the promises of an update from node `r` with the given target. */
  predicate Settled(r: Node, intersects: TileId -> bool, target: nat) {
    && StartDecided(r, intersects)
    && VisibleIntersect(r, intersects)
    && ParentClosed(r)
    && StopsAtTarget(r, target)
    && Refined(r, intersects, target)
  }

  /** Below a node that `update_node_visibility` does not visit, nothing is visible. */
  lemma InvisibleSettled(n: Node, intersects: TileId -> bool, target: nat)
    requires VisibleIds(n) == {}
    ensures VisibleIntersect(n, intersects) && ParentClosed(n)
    ensures StopsAtTarget(n, target) && Refined(n, intersects, target)
    ensures !n.visible
    decreases n
  {
    assert n.id !in VisibleIds(n);
    if n.children.Some? {
      var q := n.children.value;
      MarkedSplit(n, VisibleNode);
      InvisibleSettled(q.c0, intersects, target);
      InvisibleSettled(q.c1, intersects, target);
      InvisibleSettled(q.c2, intersects, target);
      InvisibleSettled(q.c3, intersects, target);
      assert Child(q, 0) == q.c0 && Child(q, 1) == q.c1 && Child(q, 2) == q.c2 && Child(q, 3) == q.c3;
    }
  }

  // ---------------------------------------------------------------------
  // update / update_node_visibility

  /** `update_node_visibility` on a tree whose visibility was reset: a node
      that fails the test is merged and hidden; otherwise it is shown, and
      below the target zoom it is subdivided and its children are visited.
      Every visited node goes through `TileBounds::from_tile_id`, whose
      `1u32 << zoom` panics from zoom 32 on, so the node and the target are
      at zoom 31 or less. */
  function UpdateNodeVisibility(n: Node, intersects: TileId -> bool, target: nat): (r: Node)
    requires WellFormed(n) && n.id.zoom <= 31 && target <= 31 && VisibleIds(n) == {}
    ensures WellFormed(r) && r.id == n.id
    ensures Settled(r, intersects, target)
    decreases target - n.id.zoom
  {
    if !intersects(n.id) then
      var r := Merge(n).(visible := false);
      assert VisibleIds(r) == {};
      InvisibleSettled(r, intersects, target);
      r
    else if n.id.zoom >= target then
      var r := n.(visible := true);
      UpdateStopped(n, r, intersects, target);
      r
    else
      SubdivideKeepsMarks(n);
      var s := Subdivide(n).(visible := true);
      var q := s.children.value;
      MarkedSplit(Subdivide(n), VisibleNode);
      ChildWellFormed(s, 0);
      ChildWellFormed(s, 1);
      ChildWellFormed(s, 2);
      ChildWellFormed(s, 3);
      var r := s.(children := Some(Quad(
        UpdateNodeVisibility(q.c0, intersects, target),
        UpdateNodeVisibility(q.c1, intersects, target),
        UpdateNodeVisibility(q.c2, intersects, target),
        UpdateNodeVisibility(q.c3, intersects, target))));
      UpdateDescended(s, r, intersects, target);
      r
  }

  /** The case where the node is at or past the target: only it is shown. */
  lemma UpdateStopped(n: Node, r: Node, intersects: TileId -> bool, target: nat)
    requires WellFormed(n) && VisibleIds(n) == {} && intersects(n.id) && n.id.zoom >= target
    requires r == n.(visible := true)
    ensures WellFormed(r) && Settled(r, intersects, target)
  {
    assert n.id in VisibleIds(n) <== n.visible;
    if n.children.Some? {
      var q := n.children.value;
      MarkedSplit(n, VisibleNode);
      InvisibleSettled(q.c0, intersects, target);
      InvisibleSettled(q.c1, intersects, target);
      InvisibleSettled(q.c2, intersects, target);
      InvisibleSettled(q.c3, intersects, target);
      assert Child(q, 0) == q.c0 && Child(q, 1) == q.c1 && Child(q, 2) == q.c2 && Child(q, 3) == q.c3;
    }
  }

  /** The case where the node is subdivided and its four children settled. */
  lemma UpdateDescended(s: Node, r: Node, intersects: TileId -> bool, target: nat)
    requires WellFormed(s) && s.children.Some? && intersects(s.id) && s.id.zoom < target
    requires r.id == s.id && r.visible && r.children.Some?
    requires var q := s.children.value; var p := r.children.value;
      && p.c0.id == q.c0.id && p.c1.id == q.c1.id && p.c2.id == q.c2.id && p.c3.id == q.c3.id
      && WellFormed(p.c0) && WellFormed(p.c1) && WellFormed(p.c2) && WellFormed(p.c3)
    requires var p := r.children.value;
      && Settled(p.c0, intersects, target) && Settled(p.c1, intersects, target)
      && Settled(p.c2, intersects, target) && Settled(p.c3, intersects, target)
    ensures WellFormed(r) && Settled(r, intersects, target)
  {
    DescendedWellFormed(s, r);
    DescendedVisible(r, intersects);
    DescendedTarget(r, intersects, target);
  }

  lemma DescendedWellFormed(s: Node, r: Node)
    requires WellFormed(s) && s.children.Some?
    requires r.id == s.id && r.children.Some?
    requires var q := s.children.value; var p := r.children.value;
      && p.c0.id == q.c0.id && p.c1.id == q.c1.id && p.c2.id == q.c2.id && p.c3.id == q.c3.id
      && WellFormed(p.c0) && WellFormed(p.c1) && WellFormed(p.c2) && WellFormed(p.c3)
    ensures WellFormed(r)
  {
  }

  lemma DescendedVisible(r: Node, intersects: TileId -> bool)
    requires r.visible && intersects(r.id) && r.children.Some?
    requires var p := r.children.value;
      && VisibleIntersect(p.c0, intersects) && VisibleIntersect(p.c1, intersects)
      && VisibleIntersect(p.c2, intersects) && VisibleIntersect(p.c3, intersects)
      && ParentClosed(p.c0) && ParentClosed(p.c1) && ParentClosed(p.c2) && ParentClosed(p.c3)
    ensures StartDecided(r, intersects) && VisibleIntersect(r, intersects) && ParentClosed(r)
  {
  }

  lemma DescendedTarget(r: Node, intersects: TileId -> bool, target: nat)
    requires r.visible && r.children.Some? && r.id.zoom < target
    requires var p := r.children.value;
      && StartDecided(p.c0, intersects) && StartDecided(p.c1, intersects)
      && StartDecided(p.c2, intersects) && StartDecided(p.c3, intersects)
      && StopsAtTarget(p.c0, target) && StopsAtTarget(p.c1, target)
      && StopsAtTarget(p.c2, target) && StopsAtTarget(p.c3, target)
      && Refined(p.c0, intersects, target) && Refined(p.c1, intersects, target)
      && Refined(p.c2, intersects, target) && Refined(p.c3, intersects, target)
    ensures StopsAtTarget(r, target) && Refined(r, intersects, target)
  {
    var p := r.children.value;
    assert Child(p, 0) == p.c0 && Child(p, 1) == p.c1 && Child(p, 2) == p.c2 && Child(p, 3) == p.c3;
  }

  /** The zoom the tree works at: `zoom.clamp(0.0, max_zoom as f32)`. */
  function ClampZoom(zoom: real, maxZoom: U8): (c: real)
    ensures 0.0 <= c <= maxZoom as real
    ensures 0.0 <= zoom <= maxZoom as real ==> c == zoom
    ensures zoom < 0.0 ==> c == 0.0
    ensures zoom > maxZoom as real ==> c == maxZoom as real
  {
    if zoom < 0.0 then 0.0 else if zoom > maxZoom as real then maxZoom as real else zoom
  }

  /** `current_zoom.floor() as u8`. */
  function TargetZoom(t: TileQuadtree): (z: nat)
    requires 0.0 <= t.currentZoom
    ensures z as real <= t.currentZoom < z as real + 1.0
  {
    t.currentZoom.Floor
  }

  /** `TileQuadtree::update`: clamps the zoom, clears every visible flag and
      marks visibility from the root. Every node it visits is at a zoom of at
      most `max_zoom`, and `TileBounds::from_tile_id` shifts `1u32` by that
      zoom, hence the bound on `max_zoom`. */
  function Update(t: TileQuadtree, zoom: real, intersects: TileId -> bool): (r: TileQuadtree)
    requires Valid(t) && t.maxZoom <= 31
    ensures Valid(r) && r.maxZoom == t.maxZoom
    ensures r.currentZoom == ClampZoom(zoom, t.maxZoom)
    ensures TargetZoom(r) <= r.maxZoom
    ensures Settled(r.root, intersects, TargetZoom(r))
  {
    var c := ClampZoom(zoom, t.maxZoom);
    var target := c.Floor;
    var reset := ResetVisibility(t.root);
    t.(currentZoom := c, root := UpdateNodeVisibility(reset, intersects, target))
  }

  /** Below an invisible node of a parent-closed tree nothing is visible. */
  lemma {:induction false} InvisibleClosed(n: Node)
    requires ParentClosed(n) && !n.visible
    ensures VisibleIds(n) == {}
    decreases n
  {
    if n.children.Some? {
      var q := n.children.value;
      assert Child(q, 0) == q.c0 && Child(q, 1) == q.c1 && Child(q, 2) == q.c2 && Child(q, 3) == q.c3;
      InvisibleClosed(q.c0);
      InvisibleClosed(q.c1);
      InvisibleClosed(q.c2);
      InvisibleClosed(q.c3);
      MarkedSplit(n, VisibleNode);
    }
  }

  /** After an update every visible node sits at or above the target zoom. */
  lemma {:induction false} SettledZoomBound(n: Node, target: nat)
    requires WellFormed(n) && ParentClosed(n) && StopsAtTarget(n, target)
    requires n.id.zoom <= target
    ensures forall t :: t in VisibleIds(n) ==> t.zoom <= target
    decreases n
  {
    if n.children.Some? {
      var q := n.children.value;
      MarkedSplit(n, VisibleNode);
      assert Child(q, 0) == q.c0 && Child(q, 1) == q.c1 && Child(q, 2) == q.c2 && Child(q, 3) == q.c3;
      if n.id.zoom < target {
        SettledZoomBound(q.c0, target);
        SettledZoomBound(q.c1, target);
        SettledZoomBound(q.c2, target);
        SettledZoomBound(q.c3, target);
      } else if !n.visible {
        InvisibleClosed(q.c0);
        InvisibleClosed(q.c1);
        InvisibleClosed(q.c2);
        InvisibleClosed(q.c3);
      }
    }
  }

  // ---------------------------------------------------------------------
  // get_visible_tiles / collect_visible_tiles

  /** `collect_visible_tiles`: a visible node without children or at the
      maximum zoom stands for itself; otherwise its visible children are
      collected in order, and the node itself when none is visible. */
  function CollectVisible(n: Node, maxZoom: U8): (r: seq<TileId>)
    ensures forall t :: t in r ==> t in VisibleIds(n)
    ensures n.visible <==> |r| > 0
    decreases n
  {
    if !n.visible then []
    else if n.children.None? || n.id.zoom == maxZoom then [n.id]
    else
      var q := n.children.value;
      var part :=
        (if q.c0.visible then CollectVisible(q.c0, maxZoom) else [])
        + (if q.c1.visible then CollectVisible(q.c1, maxZoom) else [])
        + (if q.c2.visible then CollectVisible(q.c2, maxZoom) else [])
        + (if q.c3.visible then CollectVisible(q.c3, maxZoom) else []);
      if !(q.c0.visible || q.c1.visible || q.c2.visible || q.c3.visible) then [n.id] else part
  }

  /** `get_visible_tiles`: visible tiles only, something exactly when the
      root is visible, and on a valid tree no tile beside one of its
      ancestors. */
  function GetVisibleTiles(t: TileQuadtree): (r: seq<TileId>)
    ensures forall v :: v in r ==> v in VisibleIds(t.root)
    ensures t.root.visible <==> |r| > 0
    ensures Valid(t) ==> Antichain(r)
  {
    var r := CollectVisible(t.root, t.maxZoom);
    if Valid(t) then CollectAntichain(t.root, t.maxZoom); r else r
  }

  /** No tile of the sequence is another's ancestor, and none repeats. */
  predicate Antichain(s: seq<TileId>) {
    forall i, j :: 0 <= i < |s| && 0 <= j < |s| && i != j ==> !IsAncestorOrSelf(s[i], s[j])
  }

  predicate Unrelated(a: TileId, b: TileId) {
    !IsAncestorOrSelf(a, b) && !IsAncestorOrSelf(b, a)
  }

  lemma AntichainConcat(a: seq<TileId>, b: seq<TileId>)
    requires Antichain(a) && Antichain(b)
    requires forall x, y :: x in a && y in b ==> Unrelated(x, y)
    ensures Antichain(a + b)
  {
    var s := a + b;
    forall i, j | 0 <= i < |s| && 0 <= j < |s| && i != j
      ensures !IsAncestorOrSelf(s[i], s[j])
    {
      if i < |a| && j >= |a| {
        assert s[i] == a[i] && s[j] == b[j - |a|];
        assert Unrelated(a[i], b[j - |a|]);
      } else if i >= |a| && j < |a| {
        assert s[j] == a[j] && s[i] == b[i - |a|];
        assert Unrelated(a[j], b[i - |a|]);
      } else if i < |a| {
        assert s[i] == a[i] && s[j] == a[j];
      } else {
        assert s[i] == b[i - |a|] && s[j] == b[j - |a|];
      }
    }
  }

  /** Every collected tile lies in the subtree of the node. */
  lemma CollectUnder(n: Node, maxZoom: U8)
    requires WellFormed(n)
    ensures forall t :: t in CollectVisible(n, maxZoom) ==> IsAncestorOrSelf(n.id, t)
  {
    MarkedAreIds(n, VisibleNode);
    forall t | t in CollectVisible(n, maxZoom)
      ensures IsAncestorOrSelf(n.id, t)
    {
      IdsDescend(n, t);
    }
  }

  /** The collected part of child i of `p`: in its subtree and an antichain. */
  predicate PartOf(s: seq<TileId>, p: TileId, i: nat)
    requires CanSubdivide(p) && i < 4
  {
    forall t :: t in s ==> IsAncestorOrSelf(Children(p)[i], t)
  }

  /** `get_visible_tiles` never returns a tile together with one of its
      ancestors, and never returns a tile twice. */
  lemma {:induction false} CollectAntichain(n: Node, maxZoom: U8)
    requires WellFormed(n)
    ensures Antichain(CollectVisible(n, maxZoom))
    decreases n
  {
    if n.visible && n.children.Some? && n.id.zoom != maxZoom {
      var q := n.children.value;
      var p := n.id;
      var a0 := if q.c0.visible then CollectVisible(q.c0, maxZoom) else [];
      var a1 := if q.c1.visible then CollectVisible(q.c1, maxZoom) else [];
      var a2 := if q.c2.visible then CollectVisible(q.c2, maxZoom) else [];
      var a3 := if q.c3.visible then CollectVisible(q.c3, maxZoom) else [];
      CollectAntichain(q.c0, maxZoom);
      CollectAntichain(q.c1, maxZoom);
      CollectAntichain(q.c2, maxZoom);
      CollectAntichain(q.c3, maxZoom);
      CollectUnder(q.c0, maxZoom);
      CollectUnder(q.c1, maxZoom);
      CollectUnder(q.c2, maxZoom);
      CollectUnder(q.c3, maxZoom);
      assert PartOf(a0, p, 0) && PartOf(a1, p, 1) && PartOf(a2, p, 2) && PartOf(a3, p, 3);
      PartsUnrelated(a0, a1, p, 0, 1);
      AntichainConcat(a0, a1);
      PartsUnrelated(a0, a2, p, 0, 2);
      PartsUnrelated(a1, a2, p, 1, 2);
      AntichainConcat(a0 + a1, a2);
      PartsUnrelated(a0, a3, p, 0, 3);
      PartsUnrelated(a1, a3, p, 1, 3);
      PartsUnrelated(a2, a3, p, 2, 3);
      AntichainConcat(a0 + a1 + a2, a3);
    }
  }

  lemma PartsUnrelated(a: seq<TileId>, b: seq<TileId>, p: TileId, i: nat, j: nat)
    requires CanSubdivide(p) && i < 4 && j < 4 && i != j
    requires PartOf(a, p, i) && PartOf(b, p, j)
    ensures forall x, y :: x in a && y in b ==> Unrelated(x, y)
  {
    forall x, y | x in a && y in b
      ensures Unrelated(x, y)
    {
      SiblingSubtreesUnrelated(p, i, j, x, y);
    }
  }

  // ---------------------------------------------------------------------
  // get_tiles_to_load

  /** `u` is among the tiles `get_adjacent_tiles` returns for `v`. */
  predicate NeighbourOf(u: TileId, v: TileId) {
    NeighbourArithmeticFits(v) && u in AdjacentTiles(v)
  }

  /** The loop of `get_tiles_to_load` over the visible tiles: each tile and
      its same-zoom neighbours. */
  function WithNeighbours(vis: seq<TileId>): (r: set<TileId>)
    requires forall v :: v in vis ==> NeighbourArithmeticFits(v)
    ensures forall v :: v in vis ==> v in r
    ensures forall v, u :: v in vis && NeighbourOf(u, v) ==> u in r
    ensures forall u :: u in r ==> u in vis || exists v :: v in vis && NeighbourOf(u, v)
  {
    if |vis| == 0 then {}
    else
      var rest := WithNeighbours(vis[1..]);
      var r := {vis[0]} + Seqs.Elements(AdjacentTiles(vis[0])) + rest;
      assert forall v :: v in vis ==> v == vis[0] || v in vis[1..];
      assert forall u :: u in r ==> u in vis || exists v :: v in vis && NeighbourOf(u, v) by {
        forall u | u in r
          ensures u in vis || exists v :: v in vis && NeighbourOf(u, v)
        {
          if u in rest {
            if u !in vis[1..] {
              var v :| v in vis[1..] && NeighbourOf(u, v);
              assert v in vis;
            }
          } else if u != vis[0] {
            assert NeighbourOf(u, vis[0]);
          }
        }
      }
      r
  }

  lemma VisibleFits(t: TileQuadtree, v: TileId)
    requires Valid(t) && v in VisibleIds(t.root) && v.zoom <= 30
    ensures NeighbourArithmeticFits(v)
  {
    MarkedAreIds(t.root, VisibleNode);
    IdsDescend(t.root, v);
    Pow2Bounded(v.zoom, 30);
    Pow2Table();
  }

  /** `get_tiles_to_load`: the visible tiles and their neighbours. The
      neighbour arithmetic needs zoom at most 30. */
  function GetTilesToLoad(t: TileQuadtree): (r: set<TileId>)
    requires Valid(t)
    requires forall v :: v in VisibleIds(t.root) ==> v.zoom <= 30
    ensures forall v :: v in GetVisibleTiles(t) ==> v in r
    ensures forall v, u :: v in GetVisibleTiles(t) && NeighbourOf(u, v) ==> u in r
    ensures forall u :: u in r ==>
      u in GetVisibleTiles(t) || exists v :: v in GetVisibleTiles(t) && NeighbourOf(u, v)
  {
    var vis := GetVisibleTiles(t);
    MarkedAreIds(t.root, VisibleNode);
    forall v | v in vis
      ensures NeighbourArithmeticFits(v)
    {
      VisibleFits(t, v);
    }
    WithNeighbours(vis)
  }

  // ---------------------------------------------------------------------
  // should_load_tile

  /** `should_load_tile`: only the zoom is checked, not the view. */
  function ShouldLoadTile(t: TileQuadtree, id: TileId): (b: bool)
    ensures b ==> id.zoom <= t.maxZoom
    ensures !b ==> id.zoom > t.maxZoom
  {
    id.zoom <= t.maxZoom
  }

  /** After an update every visible tile passes `should_load_tile`, because
      the target zoom never exceeds the maximum zoom. */
  lemma VisibleTilesShouldLoad(t: TileQuadtree, zoom: real, intersects: TileId -> bool)
    requires Valid(t) && t.maxZoom <= 31
    ensures var r := Update(t, zoom, intersects);
      forall v :: v in GetVisibleTiles(r) ==> ShouldLoadTile(r, v)
  {
    var r := Update(t, zoom, intersects);
    SettledZoomBound(r.root, TargetZoom(r));
  }

  // ---------------------------------------------------------------------
  // calculate_base_zoom_level

  /** `calculate_base_zoom_level`: a camera height mapped to a zoom by a
      table of doubling height thresholds. */
  function BaseZoomLevel(height: real): (z: U32)
    ensures 1 <= z <= 19
    ensures height <= 1.0 <==> z == 19
    ensures height > 128000.0 <==> z == 1
  {
    if height <= 1.0 then 19
    else if height <= 2.0 then 18
    else if height <= 4.0 then 17
    else if height <= 8.0 then 16
    else if height <= 15.0 then 15
    else if height <= 30.0 then 14
    else if height <= 60.0 then 13
    else if height <= 120.0 then 12
    else if height <= 250.0 then 11
    else if height <= 500.0 then 10
    else if height <= 1000.0 then 9
    else if height <= 2000.0 then 8
    else if height <= 4000.0 then 7
    else if height <= 8000.0 then 6
    else if height <= 16000.0 then 5
    else if height <= 32000.0 then 4
    else if height <= 64000.0 then 3
    else if height <= 128000.0 then 2
    else 1
  }

  /** Raising the camera never asks for more detail. */
  lemma BaseZoomAntitone(h1: real, h2: real)
    requires h1 <= h2
    ensures BaseZoomLevel(h2) <= BaseZoomLevel(h1)
  {
  }
}

=== FILE: scheduler.dfy ===
/** The priority scheduler of the tile pipeline (`TileScheduler`): a heap
    of requests with max-wins coalescing, a map of active downloads with
    start times, timeout reaping and a bound of six concurrent downloads.

    The heap is modelled as the multiset of its requests, kept in a
    sequence; a pop takes a request that comes first in the heap order.
    Which request a pop takes among equal priorities is unspecified. */
module Scheduler {
  import opened Numeric
  import opened TileIds
  import Seqs

  const MAX_CONCURRENT_DOWNLOADS: nat := 6
  const DEFAULT_DOWNLOAD_TIMEOUT: real := 10.0

  datatype Request = Request(id: TileId, priority: real, requestTime: real)

  datatype Scheduler = Scheduler(
    queue: seq<Request>,
    active: map<TileId, real>,
    timeout: real,
    lastUpdate: real)

  function QueuedIds(q: seq<Request>): set<TileId> {
    set x | x in q :: x.id
  }

  predicate NoDuplicateIds(q: seq<Request>) {
    forall i, j :: 0 <= i < |q| && 0 <= j < |q| && i != j ==> q[i].id != q[j].id
  }

  /** At most six downloads run, no id is queued twice, and no queued id is
      running. The first bound is what keeps `6 - active.len()` from
      underflowing. */
  predicate Valid(s: Scheduler) {
    && |s.active| <= MAX_CONCURRENT_DOWNLOADS
    && NoDuplicateIds(s.queue)
    && forall x :: x in s.queue ==> x.id !in s.active
  }

  /** `TileScheduler::default`. */
  function DefaultScheduler(): (s: Scheduler)
    ensures Valid(s) && s.queue == [] && s.active == map[]
    ensures s.timeout == 10.0 && s.lastUpdate == 0.0
  {
    Scheduler([], map[], DEFAULT_DOWNLOAD_TIMEOUT, 0.0)
  }

  function MaxReal(a: real, b: real): (m: real)
    ensures m >= a && m >= b && (m == a || m == b)
  {
    if a >= b then a else b
  }

  // ---------------------------------------------------------------------
  // queue_request

  /** The queued request for `id` with its priority raised to at least `priority`. */
  function Bump(q: seq<Request>, id: TileId, priority: real): (r: seq<Request>)
    ensures |r| == |q|
    ensures forall i :: 0 <= i < |q| && q[i].id == id ==>
      r[i] == Request(id, MaxReal(priority, q[i].priority), q[i].requestTime)
    ensures forall i :: 0 <= i < |q| && q[i].id != id ==> r[i] == q[i]
  {
    seq(|q|, i requires 0 <= i < |q| =>
      if q[i].id == id then Request(id, MaxReal(priority, q[i].priority), q[i].requestTime) else q[i])
  }

  /** `TileScheduler::queue_request`. A running id is ignored; a queued id
      keeps one entry with the larger priority and its first request time;
      a fresh id is queued with the given priority, requested now. */
  function QueueRequest(s: Scheduler, id: TileId, priority: real, now: real): (r: Scheduler)
    ensures id in s.active ==> r == s
    ensures r.active == s.active && r.timeout == s.timeout && r.lastUpdate == s.lastUpdate
    ensures id !in s.active && id !in QueuedIds(s.queue) ==>
      r.queue == s.queue + [Request(id, priority, now)]
    ensures Valid(s) ==> Valid(r)
    ensures id !in s.active ==> QueuedIds(r.queue) == QueuedIds(s.queue) + {id}
  {
    if id in s.active then s
    else if id in QueuedIds(s.queue) then
      var q := Bump(s.queue, id, priority);
      assert QueuedIds(q) == QueuedIds(s.queue) by {
        forall x | x in q ensures x.id in QueuedIds(s.queue) {
          var i :| 0 <= i < |q| && q[i] == x;
          assert s.queue[i] in s.queue;
        }
        forall x | x in s.queue ensures x.id in QueuedIds(q) {
          var i :| 0 <= i < |s.queue| && s.queue[i] == x;
          assert q[i] in q;
        }
      }
      s.(queue := q)
    else
      var q := s.queue + [Request(id, priority, now)];
      assert QueuedIds(q) == QueuedIds(s.queue) + {id} by {
        assert q[|s.queue|] in q;
        forall x | x in q ensures x.id in QueuedIds(s.queue) + {id} {
          var i :| 0 <= i < |q| && q[i] == x;
          if i < |s.queue| { assert s.queue[i] in s.queue; }
        }
      }
      s.(queue := q)
  }

  /** Requeuing an already queued id changes only that entry: one entry,
      the larger priority, the original request time. */
  lemma RequeueKeepsOneEntry(s: Scheduler, id: TileId, priority: real, now: real)
    requires Valid(s) && id !in s.active
    requires exists i :: 0 <= i < |s.queue| && s.queue[i].id == id
    ensures var r := QueueRequest(s, id, priority, now);
      && |r.queue| == |s.queue|
      && forall i :: 0 <= i < |s.queue| ==>
           if s.queue[i].id == id
           then r.queue[i].id == id && r.queue[i].requestTime == s.queue[i].requestTime
                && r.queue[i].priority >= priority && r.queue[i].priority >= s.queue[i].priority
                && (r.queue[i].priority == priority || r.queue[i].priority == s.queue[i].priority)
           else r.queue[i] == s.queue[i]
  {
    var i :| 0 <= i < |s.queue| && s.queue[i].id == id;
    assert s.queue[i] in s.queue;
  }

  /** Two requests for a fresh id leave one entry: the larger priority and
      the first request time. */
  lemma {:induction false} QueueTwiceMaxWins(s: Scheduler, id: TileId, p1: real, p2: real, t1: real, t2: real)
    requires Valid(s) && id !in s.active && id !in QueuedIds(s.queue)
    ensures QueueRequest(QueueRequest(s, id, p1, t1), id, p2, t2).queue
      == s.queue + [Request(id, MaxReal(p1, p2), t1)]
  {
    var s1 := QueueRequest(s, id, p1, t1);
    var s2 := QueueRequest(s1, id, p2, t2);
    assert s1.queue == s.queue + [Request(id, p1, t1)];
    assert s1.queue[|s.queue|] in s1.queue;
    assert id in QueuedIds(s1.queue);
    var expected := s.queue + [Request(id, MaxReal(p1, p2), t1)];
    assert |s2.queue| == |expected|;
    forall i | 0 <= i < |expected|
      ensures s2.queue[i] == expected[i]
    {
      if i < |s.queue| {
        assert s.queue[i] in s.queue;
        assert s.queue[i].id != id;
      }
    }
  }

  // ---------------------------------------------------------------------
  // The heap order

  /** `TileRequest::cmp` reverses the priority comparison, so the max-heap
      hands out the smallest priority value first (`AsWritten`); the
      comment beside it, and `calculate_priority`, which scores visible and
      near tiles higher, intend the largest first (`Intended`). */
  datatype HeapOrder = AsWritten | Intended

  /** A request of priority `a` may leave the heap before one of priority `b`. */
  predicate Precedes(order: HeapOrder, a: real, b: real) {
    match order
    case AsWritten => a <= b
    case Intended => a >= b
  }

  /** The position of a request that the next pop may return. */
  function BestIndex(q: seq<Request>, order: HeapOrder): (i: nat)
    requires |q| > 0
    ensures i < |q|
    ensures forall j :: 0 <= j < |q| ==> Precedes(order, q[i].priority, q[j].priority)
    decreases |q|
  {
    if |q| == 1 then 0
    else
      var k := BestIndex(q[..|q| - 1], order);
      if Precedes(order, q[k].priority, q[|q| - 1].priority) then k else |q| - 1
  }

  /** As written, a request scored 1.0 is started before one scored 10.0. */
  lemma AsWrittenStartsLowestFirst(a: TileId, b: TileId)
    ensures var q := [Request(a, 10.0, 0.0), Request(b, 1.0, 0.0)];
      q[BestIndex(q, AsWritten)].priority == 1.0
  {
    var q := [Request(a, 10.0, 0.0), Request(b, 1.0, 0.0)];
    assert Precedes(AsWritten, q[BestIndex(q, AsWritten)].priority, q[1].priority);
  }

  /** With the intended order the pop takes a request of the highest
      priority; on the queue above, the one scored 10.0. */
  lemma IntendedStartsHighestFirst(q: seq<Request>, a: TileId, b: TileId)
    requires |q| > 0
    ensures forall j :: 0 <= j < |q| ==> q[BestIndex(q, Intended)].priority >= q[j].priority
    ensures var q2 := [Request(a, 10.0, 0.0), Request(b, 1.0, 0.0)];
      q2[BestIndex(q2, Intended)].priority == 10.0
  {
    var i := BestIndex(q, Intended);
    assert forall j :: 0 <= j < |q| ==> Precedes(Intended, q[i].priority, q[j].priority);
    var q2 := [Request(a, 10.0, 0.0), Request(b, 1.0, 0.0)];
    assert Precedes(Intended, q2[BestIndex(q2, Intended)].priority, q2[0].priority);
  }

  // ---------------------------------------------------------------------
  // get_next_batch

  /** The active downloads that have not timed out at `now`. */
  function Live(active: map<TileId, real>, now: real, timeout: real): (live: map<TileId, real>)
    ensures forall id :: id in live <==> id in active && !(now - active[id] > timeout)
    ensures forall id :: id in live ==> live[id] == active[id]
  {
    map id | id in active && !(now - active[id] > timeout) :: active[id]
  }

  lemma LiveSmaller(active: map<TileId, real>, now: real, timeout: real)
    ensures |Live(active, now, timeout)| <= |active|
  {
    assert Live(active, now, timeout).Keys <= active.Keys;
    SubsetCard(Live(active, now, timeout).Keys, active.Keys);
  }

  lemma SubsetCard<T>(a: set<T>, b: set<T>)
    requires a <= b
    ensures |a| <= |b|
  {
    assert b == a + (b - a);
  }

  function Min(a: int, b: int): int {
    if a <= b then a else b
  }

  /** Removing an element keeps the other ids unique. */
  lemma RemoveKeepsUnique(q: seq<Request>, i: nat)
    requires NoDuplicateIds(q) && i < |q|
    ensures NoDuplicateIds(q[..i] + q[i + 1..])
    ensures forall x :: x in q[..i] + q[i + 1..] ==> x in q && x.id != q[i].id
  {
    var r := q[..i] + q[i + 1..];
    assert forall k :: 0 <= k < |r| ==> r[k] == (if k < i then q[k] else q[k + 1]);
  }

  /** The heap and the popped requests together are the original queue. */
  ghost predicate QueueSplit(queue: seq<Request>, q: seq<Request>, batch: seq<TileId>, popped: seq<Request>) {
    && |popped| == |batch|
    && |q| + |batch| == |queue|
    && (forall i :: 0 <= i < |batch| ==> popped[i].id == batch[i])
    && multiset(queue) == multiset(q) + multiset(popped)
    && NoDuplicateIds(q)
  }

  /** Nothing still queued is active. */
  ghost predicate NotStarted(q: seq<Request>, act: map<TileId, real>) {
    forall x :: x in q ==> x.id !in act
  }

  /** The active map is the live downloads plus the batch, started now. */
  ghost predicate ActiveSplit(live: map<TileId, real>, now: real, act: map<TileId, real>, batch: seq<TileId>) {
    && act.Keys == live.Keys + Seqs.Elements(batch)
    && |act| == |live| + |batch|
    && (forall id :: id in live ==> act[id] == live[id])
    && (forall id :: id in batch ==> id !in live && act[id] == now)
  }

  /** The popped requests left the heap in heap order. */
  ghost predicate PoppedInOrder(order: HeapOrder, q: seq<Request>, popped: seq<Request>) {
    && (forall i, y :: 0 <= i < |popped| && y in q ==> Precedes(order, popped[i].priority, y.priority))
    && (forall i, j :: 0 <= i < j < |popped| ==> Precedes(order, popped[i].priority, popped[j].priority))
  }

  lemma QueueSplitStep(queue: seq<Request>, q: seq<Request>, batch: seq<TileId>, popped: seq<Request>, i: nat)
    requires QueueSplit(queue, q, batch, popped) && i < |q|
    ensures QueueSplit(queue, q[..i] + q[i + 1..], batch + [q[i].id], popped + [q[i]])
  {
    assert q == q[..i] + [q[i]] + q[i + 1..];
    assert multiset(q) == multiset(q[..i] + q[i + 1..]) + multiset([q[i]]);
    RemoveKeepsUnique(q, i);
  }

  /** Starting one more download that was not active adds one key. */
  lemma StartOneKeys(live: map<TileId, real>, now: real, act: map<TileId, real>, batch: seq<TileId>, id: TileId)
    requires id !in act
    requires act.Keys == live.Keys + Seqs.Elements(batch) && |act| == |live| + |batch|
    ensures act[id := now].Keys == live.Keys + Seqs.Elements(batch + [id])
    ensures |act[id := now]| == |live| + |batch + [id]|
  {
    Seqs.ElementsAppend(batch, id);
    MapInsertFresh(act, id, now);
    assert |batch + [id]| == |batch| + 1;
  }

  /** Inserting a fresh key grows a map's key set by that key and its size by one. */
  lemma MapInsertFresh(m: map<TileId, real>, k: TileId, v: real)
    requires k !in m
    ensures m[k := v].Keys == m.Keys + {k}
    ensures |m[k := v]| == |m| + 1
  {
    assert m[k := v].Keys == m.Keys + {k};
  }

  /** ... and keeps the start times of the others. */
  lemma StartOneTimes(live: map<TileId, real>, now: real, act: map<TileId, real>, batch: seq<TileId>, id: TileId)
    requires id !in act && live.Keys <= act.Keys && Seqs.Elements(batch) <= act.Keys
    requires forall k :: k in live ==> act[k] == live[k]
    requires forall k :: k in batch ==> k !in live && act[k] == now
    ensures forall k :: k in live ==> act[id := now][k] == live[k]
    ensures forall k :: k in batch + [id] ==> k !in live && act[id := now][k] == now
  {
    forall k | k in batch + [id] ensures k !in live && act[id := now][k] == now {
      if k != id {
        assert k in batch;
        assert k in Seqs.Elements(batch);
      }
    }
  }

  lemma ActiveSplitStep(live: map<TileId, real>, now: real, act: map<TileId, real>, batch: seq<TileId>, id: TileId)
    requires ActiveSplit(live, now, act, batch) && id !in act
    ensures ActiveSplit(live, now, act[id := now], batch + [id])
  {
    StartOne(live, now, act, batch, id);
  }

  /** Starting one more download that was not active adds its key, started now. */
  lemma StartOne(live: map<TileId, real>, now: real, act: map<TileId, real>, batch: seq<TileId>, id: TileId)
    requires ActiveSplit(live, now, act, batch) && id !in act
    ensures act[id := now].Keys == live.Keys + Seqs.Elements(batch + [id])
    ensures |act[id := now]| == |live| + |batch + [id]|
    ensures forall k :: k in live ==> act[id := now][k] == live[k]
    ensures forall k :: k in batch + [id] ==> k !in live && act[id := now][k] == now
  {
    StartOneKeys(live, now, act, batch, id);
    StartOneTimes(live, now, act, batch, id);
  }

  /** The requests left in the heap are still not running once `q[i]` starts. */
  lemma NotStartedStep(q: seq<Request>, act: map<TileId, real>, now: real, i: nat)
    requires NotStarted(q, act) && NoDuplicateIds(q) && i < |q|
    ensures NotStarted(q[..i] + q[i + 1..], act[q[i].id := now])
  {
    RemoveKeepsUnique(q, i);
  }

  lemma PoppedInOrderStep(order: HeapOrder, q: seq<Request>, popped: seq<Request>, i: nat)
    requires PoppedInOrder(order, q, popped) && |q| > 0 && i == BestIndex(q, order)
    ensures PoppedInOrder(order, q[..i] + q[i + 1..], popped + [q[i]])
  {
    PoppedBeforeRest(order, q, popped, i);
    PoppedSorted(order, q, popped, i);
  }

  /** Every popped request, the new one included, precedes what stays queued. */
  lemma PoppedBeforeRest(order: HeapOrder, q: seq<Request>, popped: seq<Request>, i: nat)
    requires PoppedInOrder(order, q, popped) && |q| > 0 && i == BestIndex(q, order)
    ensures forall k, y :: 0 <= k < |popped + [q[i]]| && y in q[..i] + q[i + 1..] ==>
      Precedes(order, (popped + [q[i]])[k].priority, y.priority)
  {
    var q' := q[..i] + q[i + 1..];
    var popped' := popped + [q[i]];
    assert forall x :: x in q' ==> x in q by {
      assert forall k :: 0 <= k < |q'| ==> q'[k] == (if k < i then q[k] else q[k + 1]);
    }
    forall k, y | 0 <= k < |popped'| && y in q' ensures Precedes(order, popped'[k].priority, y.priority) {
      assert y in q;
      if k == |popped| {
        var j :| 0 <= j < |q| && q[j] == y;
        assert Precedes(order, q[i].priority, q[j].priority);
      } else {
        assert popped'[k] == popped[k];
      }
    }
  }

  /** The popped requests stay in heap order once the best one is appended. */
  lemma PoppedSorted(order: HeapOrder, q: seq<Request>, popped: seq<Request>, i: nat)
    requires PoppedInOrder(order, q, popped) && i < |q|
    ensures forall k, j :: 0 <= k < j < |popped + [q[i]]| ==>
      Precedes(order, (popped + [q[i]])[k].priority, (popped + [q[i]])[j].priority)
  {
    var popped' := popped + [q[i]];
    assert q[i] in q;
    forall k, j | 0 <= k < j < |popped'| ensures Precedes(order, popped'[k].priority, popped'[j].priority) {
      assert popped'[k] == popped[k];
      if j == |popped| {
        assert popped'[j] == q[i];
      } else {
        assert popped'[j] == popped[j];
      }
    }
  }

  /** `TileScheduler::get_next_batch`: records the time, drops downloads
      running longer than the timeout, and pops up to `6 - active` requests
      in heap order, starting each at `now`. The popped requests are
      returned as a ghost result alongside their ids. */
  method GetNextBatch(s: Scheduler, now: real, order: HeapOrder)
    returns (batch: seq<TileId>, r: Scheduler, ghost popped: seq<Request>)
    requires Valid(s)
    ensures Valid(r)
    ensures r.lastUpdate == now && r.timeout == s.timeout
    ensures var live := Live(s.active, now, s.timeout);
      && |batch| == Min(MAX_CONCURRENT_DOWNLOADS - |live|, |s.queue|)
      && r.active.Keys == live.Keys + Seqs.Elements(batch)
      && (forall id :: id in live ==> r.active[id] == live[id])
      && (forall id :: id in batch ==> id !in live && r.active[id] == now)
    ensures |popped| == |batch| && forall i :: 0 <= i < |batch| ==> popped[i].id == batch[i]
    ensures multiset(s.queue) == multiset(r.queue) + multiset(popped)
    ensures forall i, y :: 0 <= i < |popped| && y in r.queue ==>
      Precedes(order, popped[i].priority, y.priority)
    ensures forall i, j :: 0 <= i < j < |popped| ==>
      Precedes(order, popped[i].priority, popped[j].priority)
  {
    var live := Live(s.active, now, s.timeout);
    LiveSmaller(s.active, now, s.timeout);
    var slots := MAX_CONCURRENT_DOWNLOADS - |live|;
    var q := s.queue;
    var act := live;
    batch := [];
    popped := [];
    while |batch| < slots && |q| > 0
      invariant |batch| <= slots
      invariant QueueSplit(s.queue, q, batch, popped)
      invariant NotStarted(q, act)
      invariant ActiveSplit(live, now, act, batch)
      invariant PoppedInOrder(order, q, popped)
      decreases |q|
    {
      var i := BestIndex(q, order);
      QueueSplitStep(s.queue, q, batch, popped, i);
      assert q[i] in q;
      ActiveSplitStep(live, now, act, batch, q[i].id);
      NotStartedStep(q, act, now, i);
      PoppedInOrderStep(order, q, popped, i);
      act := act[q[i].id := now];
      batch := batch + [q[i].id];
      popped := popped + [q[i]];
      q := q[..i] + q[i + 1..];
    }
    r := Scheduler(q, act, s.timeout, now);
  }

  // ---------------------------------------------------------------------
  // mark_completed

  /** `TileScheduler::mark_completed`: forgets only that download. */
  function MarkCompleted(s: Scheduler, id: TileId): (r: Scheduler)
    ensures id !in r.active
    ensures forall k :: k != id ==> (k in r.active <==> k in s.active)
    ensures forall k :: k in r.active ==> r.active[k] == s.active[k]
    ensures r.queue == s.queue
    ensures Valid(s) ==> Valid(r)
  {
    var a := s.active - {id};
    assert a.Keys <= s.active.Keys;
    SubsetCard(a.Keys, s.active.Keys);
    s.(active := a)
  }

  lemma MarkCompletedIdempotent(s: Scheduler, id: TileId)
    ensures MarkCompleted(MarkCompleted(s, id), id) == MarkCompleted(s, id)
  {
  }

  // ---------------------------------------------------------------------
  // calculate_ideal_zoom

  /** `calculate_ideal_zoom`: camera height to zoom, 18 near the ground
      down to 8 from height 10000 on. */
  function IdealZoom(height: real): (z: U8)
    ensures 8 <= z <= 18
    ensures height < 10.0 <==> z == 18
    ensures height >= 10000.0 <==> z == 8
  {
    if height < 10.0 then 18
    else if height < 20.0 then 17
    else if height < 50.0 then 16
    else if height < 100.0 then 15
    else if height < 200.0 then 14
    else if height < 500.0 then 13
    else if height < 1000.0 then 12
    else if height < 2000.0 then 11
    else if height < 5000.0 then 10
    else if height < 10000.0 then 9
    else 8
  }

  /** Raising the camera never asks for a finer zoom. */
  lemma IdealZoomAntitone(h1: real, h2: real)
    requires h1 <= h2
    ensures IdealZoom(h2) <= IdealZoom(h1)
  {
  }
}

=== FILE: tile_id.dfy ===
/** Tile addressing of the quadtree pipeline: `TileId`, its four children and
    its ring of same-zoom neighbours with wrap-around in x. */
module TileIds {
  import opened Numeric
  import Seqs

  /** A quadtree cell: `zoom` is a `u8`, `x` and `y` are `u32`. */
  datatype TileId = TileId(zoom: U8, x: U32, y: U32)

  /** The error kinds a tile operation reports. */
  datatype TileError = NotFound | DownloadFailed | LoadError(message: string) | CacheError

  /** The id addresses a cell of the 2^zoom x 2^zoom grid. */
  predicate ValidId(id: TileId) {
    id.x < Pow2(id.zoom) && id.y < Pow2(id.zoom)
  }

  /** `zoom + 1` fits a `u8` and `2 * x + 1`, `2 * y + 1` fit a `u32`:
      computing the children does not overflow. */
  predicate CanSubdivide(id: TileId) {
    id.zoom < 0xFF && id.x < 0x8000_0000 && id.y < 0x8000_0000
  }

  /** Index of a tile among its parent's children: `(qy << 1) | qx`. */
  function Quadrant(t: TileId): (q: nat)
    ensures q < 4
  {
    2 * (t.y % 2) + t.x % 2
  }

  /** `a` is `b` or one of its quadtree ancestors: shifting `b`'s coordinates
      right by the zoom difference gives `a`'s. */
  predicate IsAncestorOrSelf(a: TileId, b: TileId) {
    a.zoom <= b.zoom
    && b.x / Pow2(b.zoom - a.zoom) == a.x
    && b.y / Pow2(b.zoom - a.zoom) == a.y
  }

  predicate IsStrictAncestor(a: TileId, b: TileId) {
    a.zoom < b.zoom && IsAncestorOrSelf(a, b)
  }

  /** `TileId::children`: the four tiles one level deeper, in the order
      (2x,2y), (2x+1,2y), (2x,2y+1), (2x+1,2y+1). */
  function Children(id: TileId): (r: seq<TileId>)
    requires CanSubdivide(id)
    ensures |r| == 4
    ensures forall i :: 0 <= i < 4 ==>
      r[i].zoom == id.zoom + 1 && r[i].x / 2 == id.x && r[i].y / 2 == id.y && Quadrant(r[i]) == i
  {
    var z := id.zoom + 1;
    var x := id.x * 2;
    var y := id.y * 2;
    [TileId(z, x, y), TileId(z, x + 1, y), TileId(z, x, y + 1), TileId(z, x + 1, y + 1)]
  }

  /** The children are exactly the tiles of the next zoom whose parent is `id`,
      each at the position given by its quadrant bits. */
  lemma ChildrenAreTheSubcells(id: TileId, t: TileId)
    requires CanSubdivide(id)
    ensures t in Children(id) <==> IsStrictAncestor(id, t) && t.zoom == id.zoom + 1
    ensures t in Children(id) ==> Children(id)[Quadrant(t)] == t
  {
    var c := Children(id);
    if IsStrictAncestor(id, t) && t.zoom == id.zoom + 1 {
      assert Pow2(1) == 2;
      var q := Quadrant(t);
      assert c[q].x == t.x && c[q].y == t.y;
      assert c[q] == t;
    }
  }

  lemma ChildrenValid(id: TileId)
    requires CanSubdivide(id) && ValidId(id)
    ensures forall c :: c in Children(id) ==> ValidId(c)
  {
  }

  lemma ChildrenDistinct(id: TileId)
    requires CanSubdivide(id)
    ensures forall i, j :: 0 <= i < j < 4 ==> Children(id)[i] != Children(id)[j]
  {
  }

  lemma {:induction false} AncestorTransitive(a: TileId, b: TileId, c: TileId)
    requires IsAncestorOrSelf(a, b) && IsAncestorOrSelf(b, c)
    ensures IsAncestorOrSelf(a, c)
  {
    DivPow2Add(c.x, c.zoom - b.zoom, b.zoom - a.zoom);
    DivPow2Add(c.y, c.zoom - b.zoom, b.zoom - a.zoom);
    assert c.zoom - b.zoom + (b.zoom - a.zoom) == c.zoom - a.zoom;
  }

  /** A tile has at most one ancestor at each zoom. */
  lemma AncestorUniqueAtZoom(a: TileId, b: TileId, t: TileId)
    requires IsAncestorOrSelf(a, t) && IsAncestorOrSelf(b, t) && a.zoom == b.zoom
    ensures a == b
  {
  }

  /** Descendants of two different children of the same tile are unrelated:
      neither is an ancestor of the other. */
  lemma SiblingSubtreesUnrelated(p: TileId, i: nat, j: nat, s: TileId, t: TileId)
    requires CanSubdivide(p) && i < 4 && j < 4 && i != j
    requires IsAncestorOrSelf(Children(p)[i], s) && IsAncestorOrSelf(Children(p)[j], t)
    ensures !IsAncestorOrSelf(s, t) && !IsAncestorOrSelf(t, s)
  {
    var ci := Children(p)[i];
    var cj := Children(p)[j];
    ChildrenDistinct(p);
    if IsAncestorOrSelf(s, t) {
      AncestorTransitive(ci, s, t);
      AncestorUniqueAtZoom(ci, cj, t);
    }
    if IsAncestorOrSelf(t, s) {
      AncestorTransitive(cj, t, s);
      AncestorUniqueAtZoom(ci, cj, s);
    }
  }

  /** The children of `p` are descendants of `p`. */
  lemma ChildIsDescendant(p: TileId, i: nat)
    requires CanSubdivide(p) && i < 4
    ensures IsStrictAncestor(p, Children(p)[i])
  {
    assert Pow2(1) == 2;
  }

  /** A valid tile above zoom 32 can be subdivided without overflow. */
  lemma ValidCanSubdivide(id: TileId)
    requires ValidId(id) && id.zoom < 32
    ensures CanSubdivide(id)
  {
    Pow2Bounded(id.zoom, 31);
    Pow2Table();
  }

  /** The ancestor of `id` at zoom `k`: coordinates shifted right by the zoom difference. */
  function AncestorAt(id: TileId, k: nat): (a: TileId)
    requires k <= id.zoom
    ensures a.zoom == k && IsAncestorOrSelf(a, id)
  {
    var d: nat := id.zoom - k;
    TileId(k, Shr(id.x, d), Shr(id.y, d))
  }

  /** Stepping one level down from the ancestor at zoom k towards `id` picks
      the child whose index is the quadrant of the ancestor at zoom k + 1. */
  lemma ChildOnPath(id: TileId, k: nat)
    requires ValidId(id) && id.zoom <= 32 && k < id.zoom
    ensures CanSubdivide(AncestorAt(id, k))
    ensures ValidId(AncestorAt(id, k))
    ensures Children(AncestorAt(id, k))[Quadrant(AncestorAt(id, k + 1))] == AncestorAt(id, k + 1)
  {
    var a := AncestorAt(id, k);
    var b := AncestorAt(id, k + 1);
    AncestorValid(id, k);
    ValidCanSubdivide(a);
    AncestorStep(id, k);
    assert IsStrictAncestor(a, b) by {
      assert Pow2(1) == 2 * Pow2(0);
    }
    ChildrenAreTheSubcells(a, b);
  }

  /** The ancestor of a grid tile lies in the grid of its own zoom. */
  lemma AncestorValid(id: TileId, k: nat)
    requires ValidId(id) && k <= id.zoom
    ensures ValidId(AncestorAt(id, k))
  {
    var d: nat := id.zoom - k;
    assert d + k == id.zoom;
    DivPow2Bound(id.x, d, k);
    DivPow2Bound(id.y, d, k);
  }

  /** The ancestor at zoom k is the parent of the ancestor at zoom k + 1. */
  lemma AncestorStep(id: TileId, k: nat)
    requires k < id.zoom
    ensures AncestorAt(id, k + 1).x / 2 == AncestorAt(id, k).x
    ensures AncestorAt(id, k + 1).y / 2 == AncestorAt(id, k).y
  {
    var d: nat := id.zoom - k - 1;
    assert id.zoom - k == d + 1;
    DivPow2Succ(id.x, d);
    DivPow2Succ(id.y, d);
  }

  // ---------------------------------------------------------------------
  // Neighbours

  /** `1 << zoom`, `x as i32 + dx` and `y as i32 + dy` stay inside `i32`. */
  predicate NeighbourArithmeticFits(id: TileId) {
    id.zoom <= 30 && id.x < 0x7FFF_FFFF && id.y < 0x7FFF_FFFF
  }

  /** The tile at offset (dx, dy): x wrapped by `rem_euclid(1 << zoom)`. */
  function Neighbour(id: TileId, dx: int, dy: int): (t: TileId)
    requires NeighbourArithmeticFits(id)
    requires -1 <= dx <= 1 && 0 <= id.y + dy < Pow2(id.zoom)
    ensures t.zoom == id.zoom && t.x < Pow2(id.zoom) && t.y < Pow2(id.zoom)
  {
    assert Pow2(id.zoom) <= 0x4000_0000 by {
      Pow2Monotone(id.zoom, 30);
      assert Pow2(30) == 0x4000_0000 by { Pow2Table(); }
    }
    TileId(id.zoom, (id.x + dx) % Pow2(id.zoom), id.y + dy)
  }

  /** One iteration of the neighbour loop: nothing for the (0,0) offset or
      when `y + dy` leaves the grid, otherwise the neighbour. */
  function Step(id: TileId, dx: int, dy: int): (r: seq<TileId>)
    requires NeighbourArithmeticFits(id)
    requires -1 <= dx <= 1 && -1 <= dy <= 1
    ensures |r| <= 1
  {
    if dx == 0 && dy == 0 then []
    else if id.y + dy < 0 || id.y + dy >= Pow2(id.zoom) then []
    else [Neighbour(id, dx, dy)]
  }

  /** `TileId::get_adjacent_tiles`: dx outer, dy inner, both over -1..=1. */
  function AdjacentTiles(id: TileId): (r: seq<TileId>)
    requires NeighbourArithmeticFits(id)
    ensures |r| <= 8
    ensures forall t :: t in r ==> t.zoom == id.zoom && t.x < Pow2(id.zoom) && t.y < Pow2(id.zoom)
  {
    Step(id, -1, -1) + Step(id, -1, 0) + Step(id, -1, 1)
    + Step(id, 0, -1) + Step(id, 0, 0) + Step(id, 0, 1)
    + Step(id, 1, -1) + Step(id, 1, 0) + Step(id, 1, 1)
  }

  /** `t` is what offset (dx, dy) produces from `id`. */
  predicate NeighbourVia(id: TileId, t: TileId, dx: int, dy: int) {
    && (dx != 0 || dy != 0)
    && 0 <= id.y + dy < Pow2(id.zoom)
    && t.zoom == id.zoom
    && t.x == (id.x + dx) % Pow2(id.zoom)
    && t.y == id.y + dy
  }

  lemma InStep(id: TileId, t: TileId, dx: int, dy: int)
    requires NeighbourArithmeticFits(id)
    requires -1 <= dx <= 1 && -1 <= dy <= 1
    ensures t in Step(id, dx, dy) <==> NeighbourVia(id, t, dx, dy)
  {
  }

  /** The neighbour list holds exactly the tiles reachable by a non-zero
      offset in {-1,0,1}^2 that keeps y inside the grid, x wrapping around. */
  lemma AdjacentTilesExactly(id: TileId, t: TileId)
    requires NeighbourArithmeticFits(id)
    ensures t in AdjacentTiles(id) <==>
      exists dx, dy :: -1 <= dx <= 1 && -1 <= dy <= 1 && NeighbourVia(id, t, dx, dy)
  {
    forall dx, dy | -1 <= dx <= 1 && -1 <= dy <= 1 {
      InStep(id, t, dx, dy);
    }
    var r := AdjacentTiles(id);
    assert t in r <==>
      t in Step(id, -1, -1) || t in Step(id, -1, 0) || t in Step(id, -1, 1)
      || t in Step(id, 0, -1) || t in Step(id, 0, 0) || t in Step(id, 0, 1)
      || t in Step(id, 1, -1) || t in Step(id, 1, 0) || t in Step(id, 1, 1);
    if exists dx, dy :: -1 <= dx <= 1 && -1 <= dy <= 1 && NeighbourVia(id, t, dx, dy) {
      var dx, dy :| -1 <= dx <= 1 && -1 <= dy <= 1 && NeighbourVia(id, t, dx, dy);
      assert t in Step(id, dx, dy);
    }
  }

  lemma StepKept(id: TileId, dx: int, dy: int)
    requires NeighbourArithmeticFits(id)
    requires -1 <= dx <= 1 && -1 <= dy <= 1 && (dx != 0 || dy != 0)
    requires 0 <= id.y + dy < Pow2(id.zoom)
    ensures Step(id, dx, dy) == [Neighbour(id, dx, dy)]
  {
  }

  /** Wrapping x - 1, x and x + 1 modulo m gives three different columns once m >= 3. */
  lemma WrapDistinct(x: nat, m: nat, d1: int, d2: int)
    requires x < m && m >= 3 && -1 <= d1 < d2 <= 1
    ensures (x + d1) % m != (x + d2) % m
  {
    if x + d1 == -1 {
      DivUnique(x + d1, m, -1, m - 1);
    } else {
      DivUnique(x + d1, m, 0, x + d1);
    }
    if x + d2 == m {
      DivUnique(x + d2, m, 1, 0);
    } else {
      DivUnique(x + d2, m, 0, x + d2);
    }
  }

  /** On an interior row all eight offsets are kept, in loop order. */
  lemma AdjacentInteriorRow(id: TileId)
    requires NeighbourArithmeticFits(id) && ValidId(id)
    requires 0 < id.y < Pow2(id.zoom) - 1
    ensures |AdjacentTiles(id)| == 8
    ensures AdjacentTiles(id) == [
      Neighbour(id, -1, -1), Neighbour(id, -1, 0), Neighbour(id, -1, 1),
      Neighbour(id, 0, -1), Neighbour(id, 0, 1),
      Neighbour(id, 1, -1), Neighbour(id, 1, 0), Neighbour(id, 1, 1)]
  {
    StepKept(id, -1, -1);
    StepKept(id, -1, 0);
    StepKept(id, -1, 1);
    StepKept(id, 0, -1);
    StepKept(id, 0, 1);
    StepKept(id, 1, -1);
    StepKept(id, 1, 0);
    StepKept(id, 1, 1);
  }

  /** On the top or bottom row (zoom >= 1) the three offsets leaving the grid
      and the (0,0) offset are skipped: five neighbours remain. */
  lemma AdjacentEdgeRow(id: TileId)
    requires NeighbourArithmeticFits(id) && ValidId(id) && id.zoom >= 1
    requires id.y == 0 || id.y == Pow2(id.zoom) - 1
    ensures |AdjacentTiles(id)| == 5
  {
    assert Pow2(id.zoom) >= 2;
  }

  /** At zoom 0 the wrap-around returns the only tile twice, self included. */
  lemma AdjacentAtZoomZero(id: TileId)
    requires NeighbourArithmeticFits(id) && id.zoom == 0 && id.y == 0
    ensures AdjacentTiles(id) == [TileId(0, 0, 0), TileId(0, 0, 0)]
  {
  }

  /** From zoom 2 on, the neighbours of an interior tile are eight distinct tiles, none of them the tile itself. */
  lemma AdjacentInteriorDistinct(id: TileId)
    requires NeighbourArithmeticFits(id) && ValidId(id) && id.zoom >= 2
    requires 0 < id.y < Pow2(id.zoom) - 1
    ensures Seqs.NoDuplicates(AdjacentTiles(id))
    ensures id !in AdjacentTiles(id)
  {
    var m := Pow2(id.zoom);
    assert m >= 4 by { Pow2Monotone(2, id.zoom); assert Pow2(2) == 4; }
    var a := (id.x - 1) % m;
    var c := (id.x + 1) % m;
    assert a != id.x && a != c && id.x != c by {
      WrapDistinct(id.x, m, -1, 0);
      WrapDistinct(id.x, m, -1, 1);
      WrapDistinct(id.x, m, 0, 1);
      DivUnique(id.x, m, 0, id.x);
    }
    AdjacentAsRing(id);
    RingDistinct(id.zoom, a, id.x, c, id.y);
  }

  /** An interior tile's neighbours, written out column by column. */
  lemma AdjacentAsRing(id: TileId)
    requires NeighbourArithmeticFits(id) && ValidId(id)
    requires 0 < id.y < Pow2(id.zoom) - 1
    ensures var m := Pow2(id.zoom);
      var a := (id.x - 1) % m;
      var c := (id.x + 1) % m;
      && a < 0x1_0000_0000 && c < 0x1_0000_0000
      && AdjacentTiles(id) == [
        TileId(id.zoom, a, id.y - 1), TileId(id.zoom, a, id.y), TileId(id.zoom, a, id.y + 1),
        TileId(id.zoom, id.x, id.y - 1), TileId(id.zoom, id.x, id.y + 1),
        TileId(id.zoom, c, id.y - 1), TileId(id.zoom, c, id.y), TileId(id.zoom, c, id.y + 1)]
  {
    AdjacentInteriorRow(id);
    DivUnique(id.x, Pow2(id.zoom), 0, id.x);
  }

  /** Eight cells around (b, y) taken from three different columns a, b, c
      are pairwise different and exclude (b, y). */
  lemma RingDistinct(z: U8, a: U32, b: U32, c: U32, y: U32)
    requires a != b && a != c && b != c && 1 <= y < 0xFFFF_FFFF
    ensures var ring := [
        TileId(z, a, y - 1), TileId(z, a, y), TileId(z, a, y + 1),
        TileId(z, b, y - 1), TileId(z, b, y + 1),
        TileId(z, c, y - 1), TileId(z, c, y), TileId(z, c, y + 1)];
      Seqs.NoDuplicates(ring) && TileId(z, b, y) !in ring
  {
  }
}

=== FILE: tile_lifetime.dfy ===
/** How spawned and requested tiles of the wired-in pipeline go away: the
    idle-timeout sweep of `cleanup_old_tiles`, and what a zoom change in
    `auto_detect_zoom_level` removes from the spawned tiles and keeps in
    the list of requested tiles.

    Entities are numbers; the clock is a `real` in seconds. */
module TileLifetime {
  import opened Numeric
  import opened Constants
  import opened TileIds
  import opened TileRequests
  import Islands

  const TILE_TIMEOUT: real := 30.0
  const PERSISTENT_ISLAND_TIMEOUT: real := 120.0

  /** `visible_range` is fixed at 5 on a zoom change, so tiles within 15 of
      the new centre survive. */
  const ZOOM_CHANGE_RANGE: nat := 5
  const RETENTION_DISTANCE: nat := ZOOM_CHANGE_RANGE * 3

  /** A spawned tile: its coordinates, entity and last use. */
  datatype Spawned = Spawned(key: Key, entity: nat, lastUsed: real)

  // ---------------------------------------------------------------------
  // Idle timeout

  /** A spawned tile is a persistent island when it is at zoom 17 and some
      island entity has the same coordinates. */
  predicate IsPersistentIsland(islandTiles: seq<Key>, k: Key) {
    k.z == PERSISTENT_ISLAND_ZOOM_LEVEL && k in islandTiles
  }

  /** The sweep's decision for one tile: a timeout of 120 seconds for an
      island and 30 otherwise, and an island is skipped even past its
      timeout. So islands are never despawned and a regular tile is
      despawned exactly when it has been idle for more than 30 seconds. */
  function ShouldDespawn(islandTiles: seq<Key>, t: Spawned, now: real): (b: bool)
    ensures b <==> !IsPersistentIsland(islandTiles, t.key) && now - t.lastUsed > TILE_TIMEOUT
  {
    var isIsland := IsPersistentIsland(islandTiles, t.key);
    var timeout := if isIsland then PERSISTENT_ISLAND_TIMEOUT else TILE_TIMEOUT;
    if now - t.lastUsed > timeout then !isIsland else false
  }

  /** Idleness only grows: once despawnable, a tile stays despawnable at
      every later time. */
  lemma ShouldDespawnMonotone(islandTiles: seq<Key>, t: Spawned, now: real, later: real)
    requires now <= later && ShouldDespawn(islandTiles, t, now)
    ensures ShouldDespawn(islandTiles, t, later)
  {
  }

  /** One sweep: the tiles kept and the entities despawned, both in order. */
  function Cleanup(tiles: seq<Spawned>, islandTiles: seq<Key>, now: real): (r: (seq<Spawned>, seq<nat>))
    ensures |r.0| + |r.1| == |tiles|
    ensures forall t :: t in r.0 <==> t in tiles && !ShouldDespawn(islandTiles, t, now)
    ensures forall e :: e in r.1 <==> exists t :: t in tiles && t.entity == e && ShouldDespawn(islandTiles, t, now)
    decreases |tiles|
  {
    if |tiles| == 0 then ([], [])
    else
      var t := tiles[0];
      var rest := Cleanup(tiles[1..], islandTiles, now);
      assert forall u :: u in tiles <==> u == t || u in tiles[1..];
      if ShouldDespawn(islandTiles, t, now) then (rest.0, [t.entity] + rest.1)
      else ([t] + rest.0, rest.1)
  }

  /** A sweep never removes an island tile, however long it was idle. */
  lemma CleanupKeepsIslands(tiles: seq<Spawned>, islandTiles: seq<Key>, now: real, t: Spawned)
    requires t in tiles && IsPersistentIsland(islandTiles, t.key)
    ensures t in Cleanup(tiles, islandTiles, now).0
  {
  }

  // ---------------------------------------------------------------------
  // Zoom change

  /** The tile lies in the grid of a requestable zoom. */
  predicate InGrid(k: Key) {
    Storable(k) && k.x <= MaxTileIndex(k.z) && k.y <= MaxTileIndex(k.z)
  }

  /** What the requested list and the spawned tiles can hold: a requestable
      zoom and coordinates inside the zoom-19 grid. Besides in-grid tiles
      this covers the entries the island loop of `process_tiles` pushes at
      zoom 17 after scaling them to zoom 18 or 19, which lie outside the
      zoom-17 grid. */
  predicate Storable(k: Key) {
    ZoomInRange(k.z) && k.x <= MAX_TILE_INDEX && k.y <= MAX_TILE_INDEX
  }

  /** The island step of `process_tiles` as written keeps the requested
      list storable at every requestable zoom, including zoom 18 and 19,
      where it pushes zoom-17 entries scaled into the finer grid. */
  lemma AsWrittenIslandRequestsStorable(islands: seq<Islands.Coord>, zoom: U32, cx: U32, cy: U32,
                                        loaded: seq<Key>, pending: seq<Key>)
    requires ZoomInRange(zoom) && Islands.IslandKeys(islands)
    requires forall k :: k in loaded ==> Storable(k)
    ensures var list := Islands.IslandsToCheckAsWritten(islands, zoom, cx, cy);
      forall k :: k in Islands.IslandRequests(list, loaded, pending).0 ==> Storable(k)
  {
    var list := Islands.IslandsToCheckAsWritten(islands, zoom, cx, cy);
    var r := Islands.IslandRequests(list, loaded, pending);
    forall k | k in r.0
      ensures Storable(k)
    {
      if k !in loaded {
        assert k in r.1;
      }
    }
  }

  /** A coordinate at zoom `from` carried to zoom `to` with `i32` arithmetic:
      divided by `2^(from - to)` going out, multiplied by `2^(to - from)`
      going in. Going out gives the ancestor's coordinate: the block of
      `2^(from - to)` coordinates holding `v`. Going in gives the first
      descendant's: the one coordinate that divides back to `v` evenly. */
  function Rescale(v: U32, from: U32, to: U32): (s: nat)
    requires ZoomInRange(from) && ZoomInRange(to) && v <= MAX_TILE_INDEX
    ensures from >= to ==> s * Pow2(from - to) <= v < s * Pow2(from - to) + Pow2(from - to)
    ensures from < to ==> s / Pow2(to - from) == v && s % Pow2(to - from) == 0
  {
    if from >= to then ScaleOut(v, from, to) else ScaleUp(v, to - from, from)
  }

  /** The `i32` arithmetic of `Rescale` never overflows, and a coordinate
      in the grid of `from` lands in the grid of `to`. */
  lemma RescaleFits(v: U32, from: U32, to: U32)
    requires ZoomInRange(from) && ZoomInRange(to) && v <= MAX_TILE_INDEX
    ensures Rescale(v, from, to) < Pow2(28)
    ensures v <= MaxTileIndex(from) ==> Rescale(v, from, to) <= MaxTileIndex(to)
  {
    MaxTileIndexConstant();
    Pow2Monotone(19, 28);
    assert v < Pow2(19);
    assert v <= MaxTileIndex(from) ==> v < Pow2(from);
    if from >= to {
      assert Rescale(v, from, to) == ScaleOut(v, from, to);
    } else {
      var d: nat := to - from;
      assert from + d == to && d <= 9;
      assert Rescale(v, from, to) == ScaleUp(v, d, from);
    }
  }

  /** The going-out half of `Rescale`, the zoom staying the same included. */
  function ScaleOut(v: nat, from: nat, to: nat): (s: nat)
    requires to <= from
    ensures s <= v
    ensures v < Pow2(from) ==> s < Pow2(to)
    ensures s * Pow2(from - to) <= v < s * Pow2(from - to) + Pow2(from - to)
  {
    var d: nat := from - to;
    assert d + to == from;
    ScaleDown(v, d, to)
  }

  /** Going out by `d` levels lands on the block holding `v`, and in the
      coarser grid when `v` was in the finer one. */
  function ScaleDown(v: nat, d: nat, to: nat): (s: nat)
    ensures s <= v
    ensures v < Pow2(d + to) ==> s < Pow2(to)
    ensures s * Pow2(d) <= v < s * Pow2(d) + Pow2(d)
  {
    var q := Shr(v, d);
    assert v < Pow2(d + to) ==> q < Pow2(to) by {
      if v < Pow2(d + to) {
        DivPow2Bound(v, d, to);
      }
    }
    BlockDiv(v, q, d);
    q
  }

  /** Going in by `d` levels: going back out undoes it, and a coordinate
      below `2^n` lands below `2^(n + d)`. */
  function ScaleUp(v: nat, d: nat, from: nat): (s: nat)
    ensures s / Pow2(d) == v && s % Pow2(d) == 0
    ensures v < Pow2(from) ==> s < Pow2(from + d)
    ensures v < Pow2(19) && d <= 9 ==> s < Pow2(28)
  {
    ScaleUpFacts(v, d, from);
    v * Pow2(d)
  }

  lemma ScaleUpFacts(v: nat, d: nat, from: nat)
    ensures v * Pow2(d) >= v
    ensures (v * Pow2(d)) / Pow2(d) == v && (v * Pow2(d)) % Pow2(d) == 0
    ensures v < Pow2(from) ==> v * Pow2(d) < Pow2(from + d)
    ensures v < Pow2(19) && d <= 9 ==> v * Pow2(d) < Pow2(28)
  {
    MulMono(Pow2(d), 1, v);
    DivUnique(v * Pow2(d), Pow2(d), v, 0);
    ScaleUpBound(v, d, from);
    ScaleUpFits(v, d);
  }

  /** From the zoom-19 grid, going in by at most 9 levels stays below `2^28`. */
  lemma ScaleUpFits(v: nat, d: nat)
    ensures v < Pow2(19) && d <= 9 ==> v * Pow2(d) < Pow2(28)
  {
    if v < Pow2(19) && d <= 9 {
      ScaleUpBound(v, d, 19);
      Pow2Monotone(19 + d, 28);
    }
  }

  /** Going in by `d` levels from below `2^n` stays below `2^(n + d)`. */
  lemma ScaleUpBound(v: nat, d: nat, n: nat)
    ensures v < Pow2(n) ==> v * Pow2(d) < Pow2(n + d)
  {
    if v < Pow2(n) {
      Pow2Add(n, d);
      MulMono(Pow2(n) - 1, v, Pow2(d));
      SubMul(Pow2(n), 1, Pow2(d));
    }
  }

  /** The `retain` closure on the requested list: entries at the new zoom
      stay; others stay when their rescaled position is within 15 of the
      centre on both axes. */
  predicate Keep(k: Key, newZoom: U32, cx: U32, cy: U32)
    requires Storable(k) && ZoomInRange(newZoom)
  {
    k.z == newZoom
    || (Abs(Rescale(k.x, k.z, newZoom) - cx) <= RETENTION_DISTANCE
        && Abs(Rescale(k.y, k.z, newZoom) - cy) <= RETENTION_DISTANCE)
  }

  /** The removal test on spawned tiles, spelled as its own loop spells it. */
  predicate Far(k: Key, newZoom: U32, cx: U32, cy: U32)
    requires Storable(k) && ZoomInRange(newZoom)
  {
    k.z != newZoom
    && (Abs(Rescale(k.x, k.z, newZoom) - cx) > RETENTION_DISTANCE
        || Abs(Rescale(k.y, k.z, newZoom) - cy) > RETENTION_DISTANCE)
  }

  /** The two loops agree: a spawned tile is removed exactly when the same
      coordinates would leave the requested list. */
  lemma FarIffNotKept(k: Key, newZoom: U32, cx: U32, cy: U32)
    requires Storable(k) && ZoomInRange(newZoom)
    ensures Far(k, newZoom, cx, cy) <==> !Keep(k, newZoom, cx, cy)
  {
  }

  /** For a finer in-grid tile, being kept means its ancestor at the new
      zoom is within 15 of the centre on both axes. */
  lemma KeepFinerByAncestor(k: Key, newZoom: U32, cx: U32, cy: U32)
    requires InGrid(k) && ZoomInRange(newZoom) && k.z > newZoom
    ensures Keep(k, newZoom, cx, cy) <==>
      exists a: TileId :: a.zoom == newZoom && IsAncestorOrSelf(a, TileId(k.z, k.x, k.y))
        && Abs(a.x - cx) <= RETENTION_DISTANCE && Abs(a.y - cy) <= RETENTION_DISTANCE
  {
    var sx := Rescale(k.x, k.z, newZoom);
    var sy := Rescale(k.y, k.z, newZoom);
    RescaleFits(k.x, k.z, newZoom);
    RescaleFits(k.y, k.z, newZoom);
    BlockDiv(k.x, sx, k.z - newZoom);
    BlockDiv(k.y, sy, k.z - newZoom);
    Pow2Table();
    Pow2Monotone(newZoom, 19);
    var a := TileId(newZoom, sx, sy);
    assert IsAncestorOrSelf(a, TileId(k.z, k.x, k.y));
  }

  /** For a coarser in-grid tile, being kept means its first descendant at
      the new zoom is within 15 of the centre on both axes. */
  lemma KeepCoarserByDescendant(k: Key, newZoom: U32, cx: U32, cy: U32)
    requires InGrid(k) && ZoomInRange(newZoom) && k.z < newZoom
    ensures Keep(k, newZoom, cx, cy) <==>
      exists d: TileId :: d.zoom == newZoom && IsAncestorOrSelf(TileId(k.z, k.x, k.y), d)
        && d.x % Pow2(newZoom - k.z) == 0 && d.y % Pow2(newZoom - k.z) == 0
        && Abs(d.x - cx) <= RETENTION_DISTANCE && Abs(d.y - cy) <= RETENTION_DISTANCE
  {
    var sx := Rescale(k.x, k.z, newZoom);
    var sy := Rescale(k.y, k.z, newZoom);
    RescaleFits(k.x, k.z, newZoom);
    RescaleFits(k.y, k.z, newZoom);
    MaxTileIndexConstant();
    Pow2Monotone(newZoom, 19);
    var first := TileId(newZoom, sx, sy);
    FirstDescendantTile(TileId(k.z, k.x, k.y), first);
  }

  /** A tile's first descendant at a finer zoom is its only descendant
      there whose coordinates divide evenly. */
  lemma FirstDescendantTile(t: TileId, first: TileId)
    requires t.zoom < first.zoom
    requires first.x / Pow2(first.zoom - t.zoom) == t.x && first.x % Pow2(first.zoom - t.zoom) == 0
    requires first.y / Pow2(first.zoom - t.zoom) == t.y && first.y % Pow2(first.zoom - t.zoom) == 0
    ensures IsAncestorOrSelf(t, first)
    ensures forall d: TileId ::
      (d.zoom == first.zoom && IsAncestorOrSelf(t, d)
       && d.x % Pow2(first.zoom - t.zoom) == 0 && d.y % Pow2(first.zoom - t.zoom) == 0) ==> d == first
  {
    var p := Pow2(first.zoom - t.zoom);
    forall d: TileId | d.zoom == first.zoom && IsAncestorOrSelf(t, d) && d.x % p == 0 && d.y % p == 0
      ensures d == first
    {
      SameFirstDescendant(t.x, p, first.x, d.x);
      SameFirstDescendant(t.y, p, first.y, d.y);
    }
  }

  /** Two coordinates that both divide back to `v` evenly are the same. */
  lemma SameFirstDescendant(v: nat, p: nat, a: nat, b: nat)
    requires p >= 1
    requires a / p == v && a % p == 0 && b / p == v && b % p == 0
    ensures a == b
  {
    FirstDescendant(v, p, a);
    FirstDescendant(v, p, b);
  }

  /** The first descendant's coordinate is the one dividing evenly. */
  lemma FirstDescendant(v: nat, p: nat, w: nat)
    requires p >= 1
    ensures (w / p == v && w % p == 0) <==> w == v * p
  {
    if w == v * p {
      DivUnique(w, p, v, 0);
    }
    assert w == (w / p) * p + w % p;
  }

  /** `loaded_tiles.retain(...)`: the kept entries, in order. */
  function RetainLoaded(loaded: seq<Key>, newZoom: U32, cx: U32, cy: U32): (r: seq<Key>)
    requires ZoomInRange(newZoom) && forall k :: k in loaded ==> Storable(k)
    ensures |r| <= |loaded|
    ensures forall k :: k in r <==> k in loaded && Keep(k, newZoom, cx, cy)
    ensures forall k :: k in loaded && k.z == newZoom ==> k in r
    decreases |loaded|
  {
    if |loaded| == 0 then []
    else
      var rest := RetainLoaded(loaded[1..], newZoom, cx, cy);
      assert forall k :: k in loaded <==> k == loaded[0] || k in loaded[1..];
      if Keep(loaded[0], newZoom, cx, cy) then [loaded[0]] + rest else rest
  }

  /** The removal loop over `osm_data.tiles`: the spawned tiles that stay,
      in order, and the entities despawned. */
  function RemoveFar(tiles: seq<Spawned>, newZoom: U32, cx: U32, cy: U32): (r: (seq<Spawned>, seq<nat>))
    requires ZoomInRange(newZoom) && forall t :: t in tiles ==> Storable(t.key)
    ensures |r.0| + |r.1| == |tiles|
    ensures forall t :: t in r.0 <==> t in tiles && !Far(t.key, newZoom, cx, cy)
    ensures forall e :: e in r.1 <==> exists t :: t in tiles && t.entity == e && Far(t.key, newZoom, cx, cy)
    decreases |tiles|
  {
    if |tiles| == 0 then ([], [])
    else
      var t := tiles[0];
      var rest := RemoveFar(tiles[1..], newZoom, cx, cy);
      assert forall u :: u in tiles <==> u == t || u in tiles[1..];
      if Far(t.key, newZoom, cx, cy) then (rest.0, [t.entity] + rest.1)
      else ([t] + rest.0, rest.1)
  }

  /** The part of `auto_detect_zoom_level` that runs on a change of zoom.
      Staying at the same zoom changes nothing. */
  function ChangeZoom(current: U32, newZoom: U32, cx: U32, cy: U32, loaded: seq<Key>, tiles: seq<Spawned>)
    : (r: (U32, seq<Key>, seq<Spawned>, seq<nat>))
    requires ZoomInRange(newZoom)
    requires forall k :: k in loaded ==> Storable(k)
    requires forall t :: t in tiles ==> Storable(t.key)
    ensures r.0 == newZoom
    ensures newZoom == current ==> r.1 == loaded && r.2 == tiles && r.3 == []
    ensures forall t :: t in r.2 ==> t in tiles
    ensures forall k :: k in r.1 ==> k in loaded
    ensures forall t :: t in tiles && t.key.z == newZoom ==> t in r.2
    ensures forall k :: k in loaded && k.z == newZoom ==> k in r.1
    ensures newZoom != current ==> forall k :: k in r.1 <==> k in loaded && Keep(k, newZoom, cx, cy)
    ensures newZoom != current ==> forall t :: t in r.2 <==> t in tiles && !Far(t.key, newZoom, cx, cy)
    ensures newZoom != current ==> forall e :: e in r.3 <==>
      exists t :: t in tiles && t.entity == e && Far(t.key, newZoom, cx, cy)
  {
    if newZoom == current then (current, loaded, tiles, [])
    else
      var (kept, despawned) := RemoveFar(tiles, newZoom, cx, cy);
      (newZoom, RetainLoaded(loaded, newZoom, cx, cy), kept, despawned)
  }

  /** After a zoom change, a spawned tile whose coordinates are in the
      requested list survives exactly when they stay in that list. */
  lemma ChangeZoomConsistent(current: U32, newZoom: U32, cx: U32, cy: U32,
                             loaded: seq<Key>, tiles: seq<Spawned>, s: Spawned)
    requires ZoomInRange(newZoom) && newZoom != current
    requires forall k :: k in loaded ==> Storable(k)
    requires forall t :: t in tiles ==> Storable(t.key)
    requires s in tiles && s.key in loaded
    ensures var r := ChangeZoom(current, newZoom, cx, cy, loaded, tiles);
      (s in r.2 <==> s.key in r.1)
  {
    FarIffNotKept(s.key, newZoom, cx, cy);
  }
}

=== FILE: tile_requests.dfy ===
/** The request rules of the wired-in pipeline's `process_tiles` and the
    preload step of `auto_detect_zoom_level`: which tile coordinates around
    the view centre are candidates, their priority, the per-call budget,
    and the de-duplication against tiles already requested or pending.

    The camera is reduced to the centre tile and a caller-supplied view
    test standing for the distance and frustum culling done in floating
    point. */
module TileRequests {
  import opened Numeric
  import opened Constants
  import Seqs

  /** A tile of the wired-in pipeline: `(x, y, zoom)`. */
  datatype Key = Key(x: U32, y: U32, z: U32)

  /** A requestable zoom: the zoom detector only produces levels between
      the minimum and the maximum. */
  predicate ZoomInRange(zoom: U32) {
    MIN_ZOOM_LEVEL <= zoom <= MAX_ZOOM_LEVEL
  }

  // ---------------------------------------------------------------------
  // Range and budget

  /** How many tiles from the centre are considered in each direction. */
  function VisibleRange(zoom: U32): (r: nat)
    ensures 2 <= r <= 5
    ensures zoom >= 18 <==> r == 2
    ensures zoom < 14 <==> r == 5
  {
    if zoom >= 18 then 2
    else if zoom >= 16 then 3
    else if zoom >= 14 then 4
    else 5
  }

  /** Zooming in never widens the range. */
  lemma VisibleRangeAntitone(z1: U32, z2: U32)
    requires z1 <= z2
    ensures VisibleRange(z2) <= VisibleRange(z1)
  {
  }

  /** How many regular tiles one call may request. */
  function MaxConcurrentLoads(zoom: U32): (n: nat)
    ensures n == 4 || n == 6 || n == 8
    ensures zoom >= 17 <==> n == 4
    ensures zoom < 15 <==> n == 8
  {
    if zoom >= 17 then 4
    else if zoom >= 15 then 6
    else 8
  }

  /** Zooming in never raises the budget. */
  lemma MaxConcurrentLoadsAntitone(z1: U32, z2: U32)
    requires z1 <= z2
    ensures MaxConcurrentLoads(z2) <= MaxConcurrentLoads(z1)
  {
  }

  // ---------------------------------------------------------------------
  // Candidates

  /** One step away from the centre, clamped into the grid:
      `(center as i32 + offset).clamp(0, max_tile_index(zoom) as i32) as u32`. */
  function ClampedCoord(center: U32, offset: int, zoom: U32): (c: U32)
    requires ZoomInRange(zoom) && center <= MaxTileIndex(zoom)
    ensures c <= MaxTileIndex(zoom)
    ensures 0 <= center + offset <= MaxTileIndex(zoom) ==> c == center + offset
    ensures center + offset < 0 ==> c == 0
    ensures center + offset > MaxTileIndex(zoom) ==> c == MaxTileIndex(zoom)
  {
    Clamp(center + offset, 0, MaxTileIndex(zoom))
  }

  /** A candidate tile with its priority (lower is sooner). */
  datatype Candidate = Candidate(x: U32, y: U32, distance: int)

  /** The Manhattan distance of an offset, halved (rounding down) for a
      tile that corresponds to an island. */
  function AdjustedDistance(xo: int, yo: int, isIsland: bool): (d: nat)
    ensures d <= Abs(xo) + Abs(yo)
    ensures !isIsland ==> d == Abs(xo) + Abs(yo)
    ensures isIsland ==> 2 * d <= Abs(xo) + Abs(yo) <= 2 * d + 1
  {
    var distance := Abs(xo) + Abs(yo);
    if isIsland then distance / 2 else distance
  }

  /** The integers `lo, lo + 1, ..., hi` in ascending order. */
  function Span(lo: int, hi: int): (s: seq<int>)
    ensures forall k :: k in s <==> lo <= k <= hi
    decreases hi - lo
  {
    if lo > hi then [] else [lo] + Span(lo + 1, hi)
  }

  /** `a` paired with every `b`, in order. */
  function Row(a: int, bs: seq<int>): (s: seq<(int, int)>)
    ensures forall p :: p in s <==> p.0 == a && p.1 in bs
    decreases |bs|
  {
    if |bs| == 0 then []
    else
      assert forall b :: b in bs <==> b == bs[0] || b in bs[1..];
      [(a, bs[0])] + Row(a, bs[1..])
  }

  /** Each `a` paired with every `b`, `a` outer and `b` inner. */
  function Pairs(as_: seq<int>, bs: seq<int>): (s: seq<(int, int)>)
    ensures forall p :: p in s <==> p.0 in as_ && p.1 in bs
    decreases |as_|
  {
    if |as_| == 0 then []
    else
      assert forall a :: a in as_ <==> a == as_[0] || a in as_[1..];
      Row(as_[0], bs) + Pairs(as_[1..], bs)
  }

  /** The offsets of the square `[-r, r] x [-r, r]`, x outer, y inner:
      exactly the pairs within `r` in both coordinates. */
  function Offsets(r: nat): (s: seq<(int, int)>)
    ensures forall p :: p in s <==> -(r as int) <= p.0 <= r && -(r as int) <= p.1 <= r
  {
    Pairs(Span(-(r as int), r), Span(-(r as int), r))
  }

  /** Candidate `c` is offset `o` from the centre, clamped into the grid,
      with the offset's adjusted distance. */
  predicate FromOffset(c: Candidate, o: (int, int), zoom: U32, cx: U32, cy: U32, isIsland: (U32, U32) -> bool)
    requires ZoomInRange(zoom) && cx <= MaxTileIndex(zoom) && cy <= MaxTileIndex(zoom)
  {
    && c.x == ClampedCoord(cx, o.0, zoom) && c.y == ClampedCoord(cy, o.1, zoom)
    && c.distance == AdjustedDistance(o.0, o.1, isIsland(c.x, c.y))
  }

  /** The candidates of `process_tiles`: each offset in order, clamped, kept
      when the view test passes, with its adjusted distance. */
  function CandidatesFrom(offsets: seq<(int, int)>, zoom: U32, cx: U32, cy: U32,
                          isIsland: (U32, U32) -> bool, inView: (U32, U32) -> bool): (r: seq<Candidate>)
    requires ZoomInRange(zoom) && cx <= MaxTileIndex(zoom) && cy <= MaxTileIndex(zoom)
    ensures |r| <= |offsets|
    ensures forall c :: c in r ==>
      c.x <= MaxTileIndex(zoom) && c.y <= MaxTileIndex(zoom) && inView(c.x, c.y) && c.distance >= 0
    ensures forall c :: c in r ==> exists o :: o in offsets && FromOffset(c, o, zoom, cx, cy, isIsland)
    ensures forall o :: o in offsets && inView(ClampedCoord(cx, o.0, zoom), ClampedCoord(cy, o.1, zoom)) ==>
      exists c :: c in r && FromOffset(c, o, zoom, cx, cy, isIsland)
    decreases |offsets|
  {
    if |offsets| == 0 then []
    else
      var o := offsets[0];
      var x := ClampedCoord(cx, o.0, zoom);
      var y := ClampedCoord(cy, o.1, zoom);
      var rest := CandidatesFrom(offsets[1..], zoom, cx, cy, isIsland, inView);
      assert forall p :: p in offsets ==> p == o || p in offsets[1..];
      if inView(x, y) then
        var c := Candidate(x, y, AdjustedDistance(o.0, o.1, isIsland(x, y)));
        assert c in [c] + rest && FromOffset(c, o, zoom, cx, cy, isIsland);
        [c] + rest
      else rest
  }

  /** Offset `o` lies in the square `[-r, r] x [-r, r]`. */
  predicate Within(o: (int, int), r: nat) {
    -(r as int) <= o.0 <= r && -(r as int) <= o.1 <= r
  }

  /** The candidates of `process_tiles`: each is some offset within the
      visible range, clamped into the grid and in view, with that offset's
      adjusted distance; and every such offset yields one. */
  function Candidates(zoom: U32, cx: U32, cy: U32,
                      isIsland: (U32, U32) -> bool, inView: (U32, U32) -> bool): (r: seq<Candidate>)
    requires ZoomInRange(zoom) && cx <= MaxTileIndex(zoom) && cy <= MaxTileIndex(zoom)
    ensures forall c :: c in r ==>
      inView(c.x, c.y) && exists o :: Within(o, VisibleRange(zoom)) && FromOffset(c, o, zoom, cx, cy, isIsland)
    ensures forall o :: Within(o, VisibleRange(zoom)) && inView(ClampedCoord(cx, o.0, zoom), ClampedCoord(cy, o.1, zoom)) ==>
      exists c :: c in r && FromOffset(c, o, zoom, cx, cy, isIsland)
  {
    CandidatesFrom(Offsets(VisibleRange(zoom)), zoom, cx, cy, isIsland, inView)
  }

  /** The centre tile is a candidate whenever it is in view. */
  lemma CentreIsCandidate(zoom: U32, cx: U32, cy: U32, isIsland: (U32, U32) -> bool, inView: (U32, U32) -> bool)
    requires ZoomInRange(zoom) && cx <= MaxTileIndex(zoom) && cy <= MaxTileIndex(zoom)
    requires inView(cx, cy)
    ensures exists c :: c in Candidates(zoom, cx, cy, isIsland, inView) && c.x == cx && c.y == cy
  {
    var offsets := Offsets(VisibleRange(zoom));
    assert (0, 0) in offsets;
    assert ClampedCoord(cx, 0, zoom) == cx && ClampedCoord(cy, 0, zoom) == cy;
    var cs := CandidatesFrom(offsets, zoom, cx, cy, isIsland, inView);
    assert cs == Candidates(zoom, cx, cy, isIsland, inView);
    var o := (0, 0);
    assert o in offsets && inView(ClampedCoord(cx, o.0, zoom), ClampedCoord(cy, o.1, zoom));
    var c :| c in cs && FromOffset(c, o, zoom, cx, cy, isIsland);
  }

  // ---------------------------------------------------------------------
  // Ordering: `sort_by_key` on the distance

  predicate SortedByDistance(s: seq<Candidate>) {
    forall i, j :: 0 <= i < j < |s| ==> s[i].distance <= s[j].distance
  }

  /** Puts `c` after every element of `s` whose distance is not larger. */
  function InsertByDistance(c: Candidate, s: seq<Candidate>): (r: seq<Candidate>)
    requires SortedByDistance(s)
    ensures SortedByDistance(r)
    ensures multiset(r) == multiset(s) + multiset{c}
    decreases |s|
  {
    if |s| == 0 then [c]
    else if c.distance < s[0].distance then
      PrependSorted(c, s);
      [c] + s
    else
      var t := InsertByDistance(c, s[1..]);
      assert s == [s[0]] + s[1..];
      LowerBound(s[0].distance, c, s[1..], t);
      PrependSorted(s[0], t);
      [s[0]] + t
  }

  lemma PrependSorted(a: Candidate, t: seq<Candidate>)
    requires SortedByDistance(t)
    requires forall x :: x in t ==> a.distance <= x.distance
    ensures SortedByDistance([a] + t)
  {
    var s := [a] + t;
    forall i, j | 0 <= i < j < |s| ensures s[i].distance <= s[j].distance {
      assert s[j] == t[j - 1];
      if i > 0 {
        assert s[i] == t[i - 1];
      }
    }
  }

  /** A bound below `c` and every element of `s` bounds their reordering `t`. */
  lemma LowerBound(d: int, c: Candidate, s: seq<Candidate>, t: seq<Candidate>)
    requires d <= c.distance
    requires forall x :: x in s ==> d <= x.distance
    requires multiset(t) == multiset(s) + multiset{c}
    ensures forall x :: x in t ==> d <= x.distance
  {
    forall x | x in t ensures d <= x.distance {
      assert x in multiset(t);
      assert x in multiset(s) || x == c;
    }
  }

  /** Candidates by ascending distance; the same candidates, reordered. */
  function SortByDistance(s: seq<Candidate>): (r: seq<Candidate>)
    ensures SortedByDistance(r)
    ensures multiset(r) == multiset(s)
    decreases |s|
  {
    if |s| == 0 then []
    else
      assert s == s[..|s| - 1] + [s[|s| - 1]];
      InsertByDistance(s[|s| - 1], SortByDistance(s[..|s| - 1]))
  }

  // ---------------------------------------------------------------------
  // De-duplication

  /** The rule used before every request: a tile already in `loaded` or
      pending is not requested; otherwise it is requested and recorded in
      `loaded` at once. */
  function RequestIfAbsent(loaded: seq<Key>, pending: seq<Key>, t: Key): (r: (seq<Key>, bool))
    ensures r.1 <==> t !in loaded && t !in pending
    ensures r.1 ==> r.0 == loaded + [t]
    ensures !r.1 ==> r.0 == loaded
  {
    if t !in loaded && t !in pending then (loaded + [t], true) else (loaded, false)
  }

  /** After the rule a tile is recorded or pending, so asking again requests
      nothing. */
  lemma RequestIfAbsentTwice(loaded: seq<Key>, pending: seq<Key>, t: Key)
    ensures var r := RequestIfAbsent(loaded, pending, t);
      (t in r.0 || t in pending) && !RequestIfAbsent(r.0, pending, t).1
  {
  }

  /** The preload of `auto_detect_zoom_level`: the centre tile at the next
      potential zoom, under the same rule. */
  function Preload(loaded: seq<Key>, pending: seq<Key>, cx: U32, cy: U32, nextZoom: U32): (r: (seq<Key>, bool))
    ensures r.1 <==> Key(cx, cy, nextZoom) !in loaded && Key(cx, cy, nextZoom) !in pending
    ensures Key(cx, cy, nextZoom) in r.0 || Key(cx, cy, nextZoom) in pending
  {
    RequestIfAbsent(loaded, pending, Key(cx, cy, nextZoom))
  }

  // ---------------------------------------------------------------------
  // Selection

  /** The request loop of `process_tiles`: candidates in order, stopping
      once `budget` requests were made, each requested tile recorded in
      `loaded`. Returns the new `loaded` and the requests made. */
  function Select(cands: seq<Candidate>, loaded: seq<Key>, pending: seq<Key>, zoom: U32, budget: nat)
    : (r: (seq<Key>, seq<Key>))
    ensures |r.1| <= budget && |r.1| <= |cands|
    ensures r.0 == loaded + r.1
    ensures forall t :: t in r.1 ==> t !in loaded && t !in pending && t.z == zoom
    ensures Seqs.NoDuplicates(r.1)
    ensures forall t :: t in r.1 ==> exists c :: c in cands && t == Key(c.x, c.y, zoom)
    ensures |r.1| < budget ==> forall c :: c in cands ==> Key(c.x, c.y, zoom) in r.0 || Key(c.x, c.y, zoom) in pending
    decreases |cands|
  {
    if |cands| == 0 || budget == 0 then (loaded, [])
    else
      var c := cands[0];
      var t := Key(c.x, c.y, zoom);
      assert forall d :: d in cands ==> d == c || d in cands[1..];
      var (loaded1, asked) := RequestIfAbsent(loaded, pending, t);
      if asked then
        var rest := Select(cands[1..], loaded1, pending, zoom, budget - 1);
        SelectStep(loaded, t, rest.1, rest.0);
        (rest.0, [t] + rest.1)
      else
        Select(cands[1..], loaded, pending, zoom, budget)
  }

  /** How many candidates the request loop looks at before it stops. */
  function Examined(cands: seq<Candidate>, loaded: seq<Key>, pending: seq<Key>, zoom: U32, budget: nat): (n: nat)
    ensures n <= |cands|
    decreases |cands|
  {
    if |cands| == 0 || budget == 0 then 0
    else
      var (loaded1, asked) := RequestIfAbsent(loaded, pending, Key(cands[0].x, cands[0].y, zoom));
      if asked then 1 + Examined(cands[1..], loaded1, pending, zoom, budget - 1)
      else 1 + Examined(cands[1..], loaded, pending, zoom, budget)
  }

  /** The requests come from the prefix of the candidates the loop looked
      at, and every candidate in that prefix is recorded or pending
      afterwards. So the loop never skips a candidate to request a later
      one. */
  lemma {:induction false} SelectHandlesPrefix(cands: seq<Candidate>, loaded: seq<Key>, pending: seq<Key>,
                                               zoom: U32, budget: nat)
    ensures var n := Examined(cands, loaded, pending, zoom, budget);
      var r := Select(cands, loaded, pending, zoom, budget);
      HandledUpTo(cands, n, r.0, pending, zoom) && RequestsFrom(cands, n, r.1, zoom)
    decreases |cands|, 1
  {
    if |cands| == 0 || budget == 0 {
      PrefixAtStop(cands, loaded, pending, zoom, budget);
    } else {
      PrefixStepCase(cands, loaded, pending, zoom, budget);
    }
  }

  /** The inductive step of `SelectHandlesPrefix`, on the first candidate. */
  lemma {:induction false} PrefixStepCase(cands: seq<Candidate>, loaded: seq<Key>, pending: seq<Key>,
                                          zoom: U32, budget: nat)
    requires |cands| > 0 && budget > 0
    ensures var n := Examined(cands, loaded, pending, zoom, budget);
      var r := Select(cands, loaded, pending, zoom, budget);
      HandledUpTo(cands, n, r.0, pending, zoom) && RequestsFrom(cands, n, r.1, zoom)
    decreases |cands|, 0
  {
    var t := Key(cands[0].x, cands[0].y, zoom);
    if t !in loaded && t !in pending {
      SelectHandlesPrefix(cands[1..], loaded + [t], pending, zoom, budget - 1);
      PrefixAfterRequest(cands, loaded, pending, zoom, budget);
    } else {
      SelectHandlesPrefix(cands[1..], loaded, pending, zoom, budget);
      PrefixAfterSkip(cands, loaded, pending, zoom, budget);
    }
  }

  /** Where the loop stops at once, it requests nothing and looks at nothing. */
  lemma PrefixAtStop(cands: seq<Candidate>, loaded: seq<Key>, pending: seq<Key>, zoom: U32, budget: nat)
    requires |cands| == 0 || budget == 0
    ensures var n := Examined(cands, loaded, pending, zoom, budget);
      var r := Select(cands, loaded, pending, zoom, budget);
      HandledUpTo(cands, n, r.0, pending, zoom) && RequestsFrom(cands, n, r.1, zoom)
  {
    assert Select(cands, loaded, pending, zoom, budget).1 == [];
  }

  /** The step of `SelectHandlesPrefix` when the first candidate is requested. */
  lemma PrefixAfterRequest(cands: seq<Candidate>, loaded: seq<Key>, pending: seq<Key>, zoom: U32, budget: nat)
    requires |cands| > 0 && budget > 0
    requires Key(cands[0].x, cands[0].y, zoom) !in loaded && Key(cands[0].x, cands[0].y, zoom) !in pending
    requires var loaded1 := loaded + [Key(cands[0].x, cands[0].y, zoom)];
      var n := Examined(cands[1..], loaded1, pending, zoom, budget - 1);
      var r := Select(cands[1..], loaded1, pending, zoom, budget - 1);
      HandledUpTo(cands[1..], n, r.0, pending, zoom) && RequestsFrom(cands[1..], n, r.1, zoom)
    ensures var n := Examined(cands, loaded, pending, zoom, budget);
      var r := Select(cands, loaded, pending, zoom, budget);
      HandledUpTo(cands, n, r.0, pending, zoom) && RequestsFrom(cands, n, r.1, zoom)
  {
    var t := Key(cands[0].x, cands[0].y, zoom);
    SelectUnfold(cands, loaded, pending, zoom, budget);
    var rest := Select(cands[1..], loaded + [t], pending, zoom, budget - 1);
    var r := Select(cands, loaded, pending, zoom, budget);
    PrefixCons(cands, Examined(cands[1..], loaded + [t], pending, zoom, budget - 1), rest.0, rest.1, r.0, r.1, pending, zoom);
  }

  /** The step of `SelectHandlesPrefix` when the first candidate is skipped. */
  lemma PrefixAfterSkip(cands: seq<Candidate>, loaded: seq<Key>, pending: seq<Key>, zoom: U32, budget: nat)
    requires |cands| > 0 && budget > 0
    requires Key(cands[0].x, cands[0].y, zoom) in loaded || Key(cands[0].x, cands[0].y, zoom) in pending
    requires var n := Examined(cands[1..], loaded, pending, zoom, budget);
      var r := Select(cands[1..], loaded, pending, zoom, budget);
      HandledUpTo(cands[1..], n, r.0, pending, zoom) && RequestsFrom(cands[1..], n, r.1, zoom)
    ensures var n := Examined(cands, loaded, pending, zoom, budget);
      var r := Select(cands, loaded, pending, zoom, budget);
      HandledUpTo(cands, n, r.0, pending, zoom) && RequestsFrom(cands, n, r.1, zoom)
  {
    SelectUnfold(cands, loaded, pending, zoom, budget);
    var rest := Select(cands[1..], loaded, pending, zoom, budget);
    var r := Select(cands, loaded, pending, zoom, budget);
    PrefixCons(cands, Examined(cands[1..], loaded, pending, zoom, budget), rest.0, rest.1, r.0, r.1, pending, zoom);
  }

  /** The loop never skips a candidate to request a later one: while some
      candidate is left neither recorded nor pending, every request is the
      key of a candidate before it. */
  lemma SelectNeverSkipsAhead(cands: seq<Candidate>, loaded: seq<Key>, pending: seq<Key>,
                              zoom: U32, budget: nat, j: nat)
    requires j < |cands|
    requires var r := Select(cands, loaded, pending, zoom, budget);
      Key(cands[j].x, cands[j].y, zoom) !in r.0 && Key(cands[j].x, cands[j].y, zoom) !in pending
    ensures forall t :: t in Select(cands, loaded, pending, zoom, budget).1 ==>
      exists i :: 0 <= i < j && t == Key(cands[i].x, cands[i].y, zoom)
  {
    var r := Select(cands, loaded, pending, zoom, budget);
    var n := Examined(cands, loaded, pending, zoom, budget);
    SelectHandlesPrefix(cands, loaded, pending, zoom, budget);
    if j < n {
      HandledAt(cands, n, r.0, pending, zoom, j);
    }
    assert n <= j;
  }

  /** The loop stops before the last candidate only with the budget spent. */
  lemma {:induction false} StopsOnlyOnBudget(cands: seq<Candidate>, loaded: seq<Key>, pending: seq<Key>,
                                             zoom: U32, budget: nat)
    ensures Examined(cands, loaded, pending, zoom, budget) < |cands| ==>
      |Select(cands, loaded, pending, zoom, budget).1| == budget
    decreases |cands|
  {
    if |cands| > 0 && budget > 0 {
      var t := Key(cands[0].x, cands[0].y, zoom);
      SelectUnfold(cands, loaded, pending, zoom, budget);
      if t !in loaded && t !in pending {
        StopsOnlyOnBudget(cands[1..], loaded + [t], pending, zoom, budget - 1);
      } else {
        StopsOnlyOnBudget(cands[1..], loaded, pending, zoom, budget);
      }
    }
  }

  /** One step of the request loop: the first candidate is requested when
      fresh, and the loop goes on with the rest. */
  lemma SelectUnfold(cands: seq<Candidate>, loaded: seq<Key>, pending: seq<Key>, zoom: U32, budget: nat)
    requires |cands| > 0 && budget > 0
    ensures var t := Key(cands[0].x, cands[0].y, zoom);
      var rest := Select(cands[1..], loaded + [t], pending, zoom, budget - 1);
      t !in loaded && t !in pending ==>
        && Select(cands, loaded, pending, zoom, budget) == (rest.0, [t] + rest.1)
        && Examined(cands, loaded, pending, zoom, budget) == 1 + Examined(cands[1..], loaded + [t], pending, zoom, budget - 1)
        && rest.0 == (loaded + [t]) + rest.1
    ensures var t := Key(cands[0].x, cands[0].y, zoom);
      t in loaded || t in pending ==>
        && Select(cands, loaded, pending, zoom, budget) == Select(cands[1..], loaded, pending, zoom, budget)
        && Examined(cands, loaded, pending, zoom, budget) == 1 + Examined(cands[1..], loaded, pending, zoom, budget)
  {
  }

  /** A handled first candidate extends a handled prefix of the rest, with
      or without its own request in front. */
  lemma PrefixCons(cands: seq<Candidate>, n: nat, restLoaded: seq<Key>, restRequests: seq<Key>,
                   loaded: seq<Key>, requests: seq<Key>, pending: seq<Key>, zoom: U32)
    requires 0 < |cands| && n <= |cands| - 1
    requires HandledUpTo(cands[1..], n, restLoaded, pending, zoom)
    requires RequestsFrom(cands[1..], n, restRequests, zoom)
    requires loaded == restLoaded
    requires requests == restRequests || requests == [Key(cands[0].x, cands[0].y, zoom)] + restRequests
    requires Key(cands[0].x, cands[0].y, zoom) in loaded || Key(cands[0].x, cands[0].y, zoom) in pending
    ensures HandledUpTo(cands, n + 1, loaded, pending, zoom)
    ensures RequestsFrom(cands, n + 1, requests, zoom)
  {
    PrefixStep(cands, n, loaded, pending, zoom);
    var t := Key(cands[0].x, cands[0].y, zoom);
    forall u | u in requests
      ensures exists i :: 0 <= i < n + 1 && u == Key(cands[i].x, cands[i].y, zoom)
    {
      if u == t {
        assert u == Key(cands[0].x, cands[0].y, zoom);
      } else {
        assert u in restRequests;
        var i :| 0 <= i < n && u == Key(cands[1..][i].x, cands[1..][i].y, zoom);
        assert cands[1..][i] == cands[i + 1];
      }
    }
  }

  /** Every request is the tile of one of the first `n` candidates. */
  predicate RequestsFrom(cands: seq<Candidate>, n: nat, requests: seq<Key>, zoom: U32)
    requires n <= |cands|
  {
    forall t :: t in requests ==> exists i :: 0 <= i < n && t == Key(cands[i].x, cands[i].y, zoom)
  }

  /** The first `n` candidates are recorded or pending. */
  predicate HandledUpTo(cands: seq<Candidate>, n: nat, loaded: seq<Key>, pending: seq<Key>, zoom: U32)
    requires n <= |cands|
  {
    n == 0
    || (&& (Key(cands[n - 1].x, cands[n - 1].y, zoom) in loaded || Key(cands[n - 1].x, cands[n - 1].y, zoom) in pending)
        && HandledUpTo(cands, n - 1, loaded, pending, zoom))
  }

  /** Each of the first `n` candidates is recorded or pending. */
  lemma {:induction false} HandledAt(cands: seq<Candidate>, n: nat, loaded: seq<Key>, pending: seq<Key>, zoom: U32, i: nat)
    requires n <= |cands| && HandledUpTo(cands, n, loaded, pending, zoom) && i < n
    ensures Key(cands[i].x, cands[i].y, zoom) in loaded || Key(cands[i].x, cands[i].y, zoom) in pending
    decreases n
  {
    if i < n - 1 {
      HandledAt(cands, n - 1, loaded, pending, zoom, i);
    }
  }

  /** A handled first candidate extends a handled prefix of the rest. */
  lemma {:induction false} PrefixStep(cands: seq<Candidate>, n: nat, loaded: seq<Key>, pending: seq<Key>, zoom: U32)
    requires 0 < |cands| && n <= |cands| - 1
    requires HandledUpTo(cands[1..], n, loaded, pending, zoom)
    requires Key(cands[0].x, cands[0].y, zoom) in loaded || Key(cands[0].x, cands[0].y, zoom) in pending
    ensures HandledUpTo(cands, n + 1, loaded, pending, zoom)
    decreases n
  {
    if n > 0 {
      assert cands[1..][n - 1] == cands[n];
      PrefixStep(cands, n - 1, loaded, pending, zoom);
    }
  }

  /** Prepending a fresh request keeps the requests distinct and the
      recorded list in order. */
  lemma SelectStep(loaded: seq<Key>, t: Key, more: seq<Key>, after: seq<Key>)
    requires t !in loaded
    requires after == (loaded + [t]) + more
    requires forall u :: u in more ==> u !in loaded + [t]
    requires Seqs.NoDuplicates(more)
    ensures after == loaded + ([t] + more)
    ensures Seqs.NoDuplicates([t] + more)
    ensures forall u :: u in [t] + more ==> u !in loaded
  {
    var s := [t] + more;
    forall i, j | 0 <= i < j < |s| ensures s[i] != s[j] {
      if i == 0 {
        assert s[j] == more[j - 1];
        assert more[j - 1] in more;
      } else {
        assert s[i] == more[i - 1] && s[j] == more[j - 1];
      }
    }
  }

  /** The regular requests of one `process_tiles` call. */
  function RegularRequests(zoom: U32, cx: U32, cy: U32, loaded: seq<Key>, pending: seq<Key>,
                           isIsland: (U32, U32) -> bool, inView: (U32, U32) -> bool): (r: (seq<Key>, seq<Key>))
    requires ZoomInRange(zoom) && cx <= MaxTileIndex(zoom) && cy <= MaxTileIndex(zoom)
    ensures |r.1| <= MaxConcurrentLoads(zoom)
    ensures r.0 == loaded + r.1 && Seqs.NoDuplicates(r.1)
    ensures forall t :: t in r.1 ==>
      t !in loaded && t !in pending && t.z == zoom && t.x <= MaxTileIndex(zoom) && t.y <= MaxTileIndex(zoom)
    ensures |r.1| < MaxConcurrentLoads(zoom) ==> forall c :: c in Candidates(zoom, cx, cy, isIsland, inView) ==>
      Key(c.x, c.y, zoom) in r.0 || Key(c.x, c.y, zoom) in pending
  {
    var all := Candidates(zoom, cx, cy, isIsland, inView);
    var cands := SortByDistance(all);
    SortKeepsElements(all);
    Select(cands, loaded, pending, zoom, MaxConcurrentLoads(zoom))
  }

  /** Nearest first: every tile requested by `process_tiles` is the tile of
      a candidate at most as far as any candidate it left unrecorded and
      not pending. */
  lemma RegularRequestsNearestFirst(zoom: U32, cx: U32, cy: U32, loaded: seq<Key>, pending: seq<Key>,
                                    isIsland: (U32, U32) -> bool, inView: (U32, U32) -> bool,
                                    c: Candidate, t: Key)
    requires ZoomInRange(zoom) && cx <= MaxTileIndex(zoom) && cy <= MaxTileIndex(zoom)
    requires c in Candidates(zoom, cx, cy, isIsland, inView)
    requires var r := RegularRequests(zoom, cx, cy, loaded, pending, isIsland, inView);
      Key(c.x, c.y, zoom) !in r.0 && Key(c.x, c.y, zoom) !in pending && t in r.1
    ensures exists c' :: c' in Candidates(zoom, cx, cy, isIsland, inView) &&
                         t == Key(c'.x, c'.y, zoom) && c'.distance <= c.distance
  {
    var all := Candidates(zoom, cx, cy, isIsland, inView);
    var cands := SortByDistance(all);
    SortKeepsElements(all);
    assert RegularRequests(zoom, cx, cy, loaded, pending, isIsland, inView)
        == Select(cands, loaded, pending, zoom, MaxConcurrentLoads(zoom));
    var c' := SortedSelectNearestFirst(cands, loaded, pending, zoom, MaxConcurrentLoads(zoom), c, t);
    assert c' in all;
  }

  /** Sorting keeps exactly the same candidates. */
  lemma SortKeepsElements(s: seq<Candidate>)
    ensures forall c :: c in SortByDistance(s) <==> c in s
  {
    forall c ensures c in SortByDistance(s) <==> c in s {
      assert c in SortByDistance(s) <==> c in multiset(SortByDistance(s));
      assert c in s <==> c in multiset(s);
    }
  }

  /** On sorted candidates, a request is never farther than a candidate the
      loop left neither loaded nor pending. */
  lemma SortedSelectNearestFirst(cands: seq<Candidate>, loaded: seq<Key>, pending: seq<Key>, zoom: U32,
                                 budget: nat, c: Candidate, t: Key) returns (c': Candidate)
    requires SortedByDistance(cands) && c in cands
    requires var r := Select(cands, loaded, pending, zoom, budget);
      Key(c.x, c.y, zoom) !in r.0 && Key(c.x, c.y, zoom) !in pending && t in r.1
    ensures c' in cands && t == Key(c'.x, c'.y, zoom) && c'.distance <= c.distance
  {
    var r := Select(cands, loaded, pending, zoom, budget);
    SelectHandlesPrefix(cands, loaded, pending, zoom, budget);
    var n := Examined(cands, loaded, pending, zoom, budget);
    var k :| 0 <= k < |cands| && cands[k] == c;
    if k < n {
      HandledAt(cands, n, r.0, pending, zoom, k);
    }
    var i :| 0 <= i < n && t == Key(cands[i].x, cands[i].y, zoom);
    c' := cands[i];
  }
}

=== FILE: tile_state.dfy ===
/** The per-tile record of the quadtree pipeline (`Tile`, `TileState`): a
    small load state machine plus an optional, lazily created set of four
    children. */
module TileStates {
  import opened Numeric
  import opened TileIds
  import opened Wrappers

  /** An ECS entity handle; only its identity matters here. */
  type Entity = nat

  datatype TileState =
    | NotLoaded
    | Loading
    | Failed
    | Loaded(entity: Entity, loadTime: U32)

  /** `children` is `None` or holds exactly four tiles (a boxed `[Tile; 4]`). */
  datatype Tile = Tile(
    id: TileId,
    state: TileState,
    lastVisible: real,
    textureSize: U32,
    children: Option<seq<Tile>>)

  /** `f32 as u32`: truncation toward zero, saturating at both ends. */
  function SaturatingU32(t: real): (r: U32)
    ensures t < 1.0 ==> r == 0
    ensures 1.0 <= t < 4294967296.0 ==> r as real <= t < r as real + 1.0
    ensures t >= 4294967296.0 ==> r == 0xFFFF_FFFF
  {
    if t < 1.0 then 0
    else if t >= 4294967296.0 then 0xFFFF_FFFF
    else t.Floor
  }

  /** `Tile::new`: not loaded, never seen, no texture, no children. */
  function NewTile(id: TileId): (t: Tile)
    ensures t.id == id && t.state == NotLoaded && t.children == None
    ensures t.lastVisible == 0.0 && t.textureSize == 0
  {
    Tile(id, NotLoaded, 0.0, 0, None)
  }

  /** `Tile::create_children`: a no-op when children exist; otherwise four
      fresh tiles whose ids are `TileId::children`, in that order. */
  function CreateChildren(t: Tile): (r: Tile)
    requires t.children.Some? || CanSubdivide(t.id)
    ensures r.children.Some?
    ensures t.children.Some? ==> r == t
    ensures t.children.None? ==>
      && r == t.(children := r.children)
      && |r.children.value| == 4
      && forall i :: 0 <= i < 4 ==>
           r.children.value[i] == NewTile(Children(t.id)[i])
  {
    if t.children.Some? then t
    else
      var ids := Children(t.id);
      t.(children := Some([NewTile(ids[0]), NewTile(ids[1]), NewTile(ids[2]), NewTile(ids[3])]))
  }

  /** `Tile::with_children`: a fresh tile whose four children are fresh
      tiles with the ids of `TileId::children`, in that order. */
  function WithChildren(id: TileId): (t: Tile)
    requires CanSubdivide(id)
    ensures t.id == id && t.state == NotLoaded
    ensures t.children.Some? && |t.children.value| == 4
    ensures forall i :: 0 <= i < 4 ==> t.children.value[i] == NewTile(Children(id)[i])
    ensures t.lastVisible == 0.0 && t.textureSize == 0
  {
    CreateChildren(NewTile(id))
  }

  /** Creating children twice is creating them once. */
  lemma CreateChildrenIdempotent(t: Tile)
    requires t.children.Some? || CanSubdivide(t.id)
    ensures CreateChildren(CreateChildren(t)) == CreateChildren(t)
  {
  }

  /** `Tile::set_loaded`: always ends `Loaded` with the entity and the
      truncated time, and records the texture size. */
  function SetLoaded(t: Tile, entity: Entity, textureSize: U32, now: real): (r: Tile)
    ensures r.state.Loaded? && r.state.entity == entity
    ensures r.state.loadTime == SaturatingU32(now)
    ensures r.textureSize == textureSize
    ensures r.id == t.id && r.children == t.children && r.lastVisible == t.lastVisible
  {
    t.(state := Loaded(entity, SaturatingU32(now)), textureSize := textureSize)
  }

  /** `Tile::set_loading`: a loaded tile stays loaded. */
  function SetLoading(t: Tile): (r: Tile)
    ensures t.state.Loaded? ==> r == t
    ensures !t.state.Loaded? ==> r == t.(state := Loading)
  {
    if t.state.Loaded? then t else t.(state := Loading)
  }

  /** `Tile::set_failed`: a loaded tile stays loaded. */
  function SetFailed(t: Tile): (r: Tile)
    ensures t.state.Loaded? ==> r == t
    ensures !t.state.Loaded? ==> r == t.(state := Failed)
  {
    if t.state.Loaded? then t else t.(state := Failed)
  }

  /** `Tile::update_visibility`: records the time and leaves the load
      state, texture size and children alone. */
  function UpdateVisibility(t: Tile, now: real): (r: Tile)
    ensures r.lastVisible == now
    ensures r.id == t.id && r.state == t.state && r.textureSize == t.textureSize && r.children == t.children
  {
    t.(lastVisible := now)
  }

  /** The last visibility update wins. */
  lemma UpdateVisibilityLastWins(t: Tile, earlier: real, later: real)
    ensures UpdateVisibility(UpdateVisibility(t, earlier), later) == UpdateVisibility(t, later)
  {
  }

  /** The events that drive a tile's state. */
  datatype TileEvent = MarkLoading | MarkFailed | MarkLoaded(entity: Entity, textureSize: U32, now: real)

  function Apply(t: Tile, e: TileEvent): Tile {
    match e
    case MarkLoading => SetLoading(t)
    case MarkFailed => SetFailed(t)
    case MarkLoaded(entity, size, now) => SetLoaded(t, entity, size, now)
  }

  function ApplyAll(t: Tile, es: seq<TileEvent>): Tile
    decreases |es|
  {
    if |es| == 0 then t else ApplyAll(Apply(t, es[0]), es[1..])
  }

  /** `Loaded` is absorbing for loading/failure marks: once a tile is loaded,
      only another `set_loaded` changes its state, and then to `Loaded` again.
      A failed tile, in contrast, goes back to `Loading` when re-requested. */
  lemma {:induction false} LoadedIsAbsorbing(t: Tile, es: seq<TileEvent>)
    requires t.state.Loaded?
    ensures ApplyAll(t, es).state.Loaded?
    ensures (forall i :: 0 <= i < |es| ==> !es[i].MarkLoaded?) ==> ApplyAll(t, es) == t
    decreases |es|
  {
    if |es| > 0 {
      LoadedIsAbsorbing(Apply(t, es[0]), es[1..]);
      if forall i :: 0 <= i < |es| ==> !es[i].MarkLoaded? {
        assert !es[0].MarkLoaded?;
        assert forall i :: 0 <= i < |es[1..]| ==> !es[1..][i].MarkLoaded? by {
          forall i | 0 <= i < |es[1..]| ensures !es[1..][i].MarkLoaded? {
            assert es[1..][i] == es[i + 1];
          }
        }
      }
    }
  }

  /** Visibility bookkeeping is independent of the load state machine:
      updating the visible time before a run of load events or after it
      gives the same tile. */
  lemma {:induction false} VisibilityCommutes(t: Tile, now: real, es: seq<TileEvent>)
    ensures ApplyAll(UpdateVisibility(t, now), es) == UpdateVisibility(ApplyAll(t, es), now)
    decreases |es|
  {
    if |es| > 0 {
      assert Apply(UpdateVisibility(t, now), es[0]) == UpdateVisibility(Apply(t, es[0]), now);
      VisibilityCommutes(Apply(t, es[0]), now, es[1..]);
    }
  }

  /** A failed tile can be re-requested and then loaded. */
  lemma FailedCanRecover(t: Tile, entity: Entity, size: U32, now: real)
    requires t.state == Failed
    ensures ApplyAll(t, [MarkLoading, MarkLoaded(entity, size, now)]).state == Loaded(entity, SaturatingU32(now))
  {
    var es := [MarkLoading, MarkLoaded(entity, size, now)];
    var s1 := Apply(t, MarkLoading);
    var s2 := Apply(s1, MarkLoaded(entity, size, now));
    assert es[1..] == [MarkLoaded(entity, size, now)];
    assert es[1..][1..] == [];
    assert ApplyAll(t, es) == ApplyAll(s1, es[1..]);
    assert ApplyAll(s1, es[1..]) == ApplyAll(s2, []);
  }
}
